=== FILE: README.md ===
# Reddit object materialisation, modelled in Dafny

This project models the core of RedditProcess, which turns exported Reddit submissions and comments into one graph of objects:

- The loaders read a list of submissions and a dict of per-submission comment lists. They build id-to-index maps over them.
- `convert_to_object` turns each item into a registered object. An optional `global_time_max` cutoff skips items by `created_utc`.
- The object classes `Submission`, `Comment`, `Redditor`, `Subreddit` and `CommentTree` share one module-wide `record`: one dict per object type, from integer id to instance.
  - Constructing an object normalises its id, its `id_36` text and its `fullname`.
  - A registered id is merged rather than duplicated.
  - Construction links the object to its author, subreddit, submission, parent and comment tree.
  - It also appends to the lists those objects keep (authors' activity, sorted by time; submissions' and parents' reply lists).
- `generate_data_objects` then repairs the graph: `update_parent` on every comment, then `update_attr` on every comment tree.
- `DataProcessorReddit` exposes one table of the registry by type name.

How the model is built:

- **The registry (`Registry`).** An immutable `Store`: one table per object type (instances by id, plus the dict's insertion order) and a heap of Python lists.
  - A field holding a list holds a heap reference (`VList`). So when a submission and its comment tree share one `comments_id` list, both see later appends.
  - Every operation takes a store and returns a `Step`: the store afterwards and either a value or the Python exception raised. Mutations made before an exception are kept, as in Python.
  - `Valid` is the invariant: every table is well formed and every relation names a registered instance.
  - `Grows` says no instance is ever removed.
- **Constructors (`Objects`, `ObjectSteps`).**
  - `CreateObject` and the class constructors are mutually recursive methods.
  - Their nesting is bounded by a natural `n`, which stands for Python's recursion limit; at 0 they raise RecursionError.
  - Each `try`/`except` becomes an explicit `Caught` guard with exactly the exception classes the source lists.
- **Ids (`Codec`, `IdProcessing`).**
  - `int(s, 36)` strips surrounding whitespace (the characters `str.isspace` accepts), then reads an optional sign and digits of either case with single underscores between them.
  - `int2base(x, 36)` uses exact division.
  - The id helpers produce the `(id, id_36, fullname)` triple.
- **Repair (`Repair`, `Trees`, `TreeUpdate`).** `is_ignore`, `update_parent`, `generate_parent_chain`, the tree views, `dig_depth` and `update_comments_total_id`.
  - `dig_depth` has a reference definition `Reach` over the reply graph.
- **Loaders and pipeline (`Load`, `Pipeline`).**
  - A Python dict is a sequence of key/value pairs in insertion order.
  - The loaders take the parsed JSON as a value.
  - The cutoff is a parameter.

Some behaviours of the code are modelled as written even where the code's names, docstrings or default tables suggest otherwise:

- A skeleton submission `create_submission({"id": x})` always raises KeyError at objects.py:226 after it has been registered. Its constructor only catches ValueError around the subreddit step, and the skeleton has no `subreddit_id`. So a comment whose submission was not ingested ends ingestion with that KeyError.
- A skeleton comment carries more fields than the comment entry of `default_attributes_in_data`, so `is_ignore` is False for it.
- A comment whose field count matches that entry but which lacks the key `comments_id_total` makes `is_ignore` raise KeyError. Constructors write `comments_total_id`.
- A falsy `submission_id` on a new comment tree reaches `id in record.get("submission_id")`, which is a TypeError.
- A pass of `update_attr` that registers a new tree changes the size of the dict being iterated, which Python reports as RuntimeError.
- `LoadComments.convert_to_object` returns None. The model returns its position-to-id map and its groups so that their properties can be stated.

## Model

| member | source | states |
|---|---|---|
| PyValues.Lookup | objects.py:151-152 | `obj[key]` succeeds exactly when the field is present, gives the stored value, and otherwise raises KeyError |
| Codec.DigitsShape | objects.py:1064-1072 | the text of a positive number is non-empty lowercase digits with no leading zero |
| Codec.DigitsDecode | objects.py:1064-1072 | the digits produced for a positive number denote that number |
| Codec.DigitsOfValue | objects.py:1064-1072 | digit text with no leading zero is exactly the text produced for the value it denotes |
| Codec.Int2BaseRoundTrip | objects.py:1039-1072 | for every integer, including 0 and negatives, `int(int2base(x, 36), 36) == x` and the text is canonical |
| Codec.PositiveRoundTrip | objects.py:1063-1072 | a positive number's digits decode back to it and are canonical |
| Codec.NegativeRoundTrip | objects.py:1058-1071 | "-" followed by the digits of n decodes to -n and is canonical |
| Codec.DecodeNegative | objects.py:994-996 | `int("-" + t, 36)` is minus the value of the digit text `t` |
| Codec.Decode36Padded | objects.py:994-996 | `int(a + s + b, 36)` equals `int(s, 36)` whenever `a` and `b` are whitespace: surrounding blanks never change the id read or the error |
| Codec.Decode36Canonical | objects.py:1039-1072 | canonical text decodes, and encoding the result gives the same text back: the codec is a bijection on canonical text |
| IdProcessing.ProcessId | objects.py:991-1000 | an int passes through (a bool as 0 or 1); a string loses the requested type's prefix only when it carries it, then is decoded; any other value is ValueError |
| IdProcessing.ProcessIdRoundTrip | objects.py:991-998 | a fullname built from any id decodes back to that id for every prefixed type, and so does the bare text of a non-negative id |
| IdProcessing.ForeignIdSynced | objects.py:296-313 | the author, subreddit and submission id triples agree (fullname = prefix + text, text decodes to id); they fail exactly for a non-str/int value or undecodable text, always with ValueError |
| IdProcessing.ParentIdSynced | objects.py:596-614 | a parent triple is synced under `t1_` or `t3_`; an int parent id always gets the comment prefix; failure is ValueError |
| IdProcessing.StringId | objects.py:578-587 | the string branch yields synced fields whose fullname is the type prefix plus `id_36`, unless a prefixed id kept an existing fullname; failure is ValueError |
| IdProcessing.ClassProcessId | objects.py:577-593 | `process_id` keeps an int or bool id unchanged (True takes the int branch, as `bool` subclasses `int`) and only refers to existing lists |
| IdProcessing.ClassProcessIdInt | objects.py:588-590 | a non-zero int id gains synced `id_36` and `fullname` with the class's prefix |
| IdProcessing.ClassProcessIdTrue | objects.py:588-590 | an id of True passes `isinstance(id, int)`: it stays True, `id_36` is "1" (what `int2base(True, 36)` returns), and the fullname is the class prefix and "1" |
| IdProcessing.ClassProcessIdOther | objects.py:280-293 | an id that is neither a non-empty str nor a truthy int (True included) leaves a submission unchanged (its `process_id` has no else) and is ValueError for the other classes |
| IdProcessing.ClassProcessIdOnInt | objects.py:769-785 | on an int id, `process_id` succeeds exactly for a submission or a non-zero id, keeping the id; otherwise ValueError |
| Registry.EmptyStoreValid | objects.py:65 | the registry at import time, one empty dict per type, satisfies the invariant |
| Registry.Register | objects.py:87-88 | a fresh id joins its type's dict at the end of the insertion order; the invariant holds and no other table changes |
| Registry.Merge | objects.py:83-86 | `get_dict().update(d)` on a registered instance overwrites exactly the keys of `d`, keeps the invariant and adds no instance |
| Registry.MergeSelf | objects.py:83-86 | updating an instance's fields with themselves changes nothing |
| Registry.MergeIdNoop | objects.py:983-988 | `create_*({"id": id})` on a registered id leaves the whole registry as it was |
| Registry.Append | objects.py:206 | `.append(x)` succeeds exactly on a list, adding `x` at its end and changing nothing else; otherwise AttributeError |
| Registry.AppendField | objects.py:446 | `obj._data[key].append(x)` is KeyError for a missing field, and otherwise the append on the stored value |
| Activity.SortByTime | objects.py:208 | the activity sort fails only with TypeError, and it fails exactly when an element is not a tuple, or when two or more keys are not all numbers or all strings |
| Activity.SortByTimeCorrect | objects.py:208 | a sort that succeeds keeps exactly the same tuples; with two or more tuples every key can be ordered, and the result is ordered by time (numbers numerically, strings by code point) |
| Activity.InsertionSortSorted | objects.py:208 | the stable sort yields a time-ordered permutation of its input |
| Activity.SortedUnchanged | objects.py:208 | sorting an already time-ordered list leaves it unchanged |
| Activity.SortAppended | objects.py:207-208 | sorting a list with one tuple appended inserts that tuple into the sorted list |
| Activity.AppendThenSort | objects.py:207-208 | on a sorted activity list whose keys are of the new key's class, append-then-sort splices the new tuple in after every entry of equal or earlier time, keeps the others in order, stays sorted and grows by exactly that tuple |
| ObjectSteps.FreshIfFalsy | objects.py:757-758 | a falsy or missing field gets a new empty list; a truthy one is left as it is |
| ObjectSteps.FollowIfFalsy | objects.py:763-764 | a falsy `no_follow` becomes a dict of two new empty lists; a truthy one is kept |
| ObjectSteps.AuthorArgs | objects.py:335-365 | the author argument dict has an `id` exactly when `author_id` is truthy, and then it is that value |
| ObjectSteps.SubredditArgs | objects.py:367-381 | the subreddit argument dict has an `id` exactly when `subreddit_id` is truthy, and then it is that value |
| ObjectSteps.AuthorDecode | objects.py:189-201 | arguments exist exactly when `author_fullname` is present and decodable; they carry an id exactly when the decoded id is non-zero; a failure is absorbed and adds no instance |
| ObjectSteps.SubredditDecode | objects.py:222-231 | for a submission a missing `subreddit_id` is an uncaught KeyError, and it is the only error |
| ObjectSteps.ParentDecode | objects.py:490-507 | the parent triple is decoded from `parent_id`, or all three become None when it is missing or undecodable |
| ObjectSteps.Contribute | objects.py:205-210 | a fresh post's contribution to its author changes only heap lists, never a table |
| ObjectSteps.FollowList | objects.py:209-210 | a post that is not `no_follow` leaves the author's `no_follow` lists untouched |
| ObjectSteps.ChronicleSorted | objects.py:207-208 | with a sorted activity list whose keys compare with the post's, recording a post inserts its `(created_utc, id, type)` tuple in time order and changes nothing else |
| ObjectSteps.ContributeActivity | objects.py:445-450 | a fresh post by an author with separate lists adds its id to the author's post list, and adds exactly its tuple to the sorted activity, which stays sorted |
| ObjectSteps.Thread | objects.py:509-514 | a comment without a submission changes nothing |
| ObjectSteps.ThreadLists | objects.py:509-514 | a comment is appended to its submission's `comments_total_id`, and to `comments_id` exactly when its parent is the submission; nothing else changes |
| ObjectSteps.Adopt | objects.py:526-528 | a parent comment with both lists gets the child's id at the end of both, in order; it succeeds only when both lists exist |
| ObjectSteps.SubmissionDefaults | objects.py:239-266 | the defaults fail exactly when `created_utc` is falsy, with ValueError; otherwise the text, count, flag and list keys are all present afterwards |
| ObjectSteps.FillData | objects.py:241-242 | `if not d.get(key): d[key] = v` keeps a truthy value, sets `v` otherwise, and leaves every other key alone |
| ObjectSteps.Settle | objects.py:213-220 | a step's instance is stored in the slot; a caught exception stores None; an uncaught one propagates with nothing changed |
| ObjectSteps.SubmissionTreeArgs | objects.py:269-276 | a submission's tree is keyed by the submission's id, names it as `submission_id`, and shares its two lists |
| ObjectSteps.CommentTreeArgs | objects.py:540-550 | a comment's tree is keyed by the comment's id, takes `link_id` as `submission_id`, and shares its two lists |
| ObjectSteps.HeadSource | objects.py:831-840 | a tree with a falsy list takes it from the registered submission of its id, else the registered comment, else nowhere; without either, a missing `submission_id` is KeyError |
| ObjectSteps.Borrow | objects.py:838 | the tree's field becomes the very value of the head's field, or KeyError when the head lacks it |
| Objects.CreateObject | objects.py:979-988 | a missing id is KeyError and a bad one the decoder's error, with nothing changed; a registered id is only dict-updated, adding no instance; success leaves the decoded id registered |
| Objects.Construct | objects.py:975-984 | constructing an unseen id returns that id on success, and the id is then registered; id 0 for a redditor, subreddit or comment is ValueError with nothing changed; any other id stays registered even when a later step fails; a redditor or subreddit always succeeds |
| Objects.Admit | objects.py:77-88 | an accepted id adds exactly one key to its type's table, at the end of the insertion order, and no other table changes |
| Objects.RedditorNew | objects.py:752-767 | id 0 is ValueError before registration; any other id adds exactly one redditor at the end of the order and no other instance anywhere |
| Objects.SubredditNew | objects.py:793-802 | id 0 is ValueError before registration; any other id adds exactly one subreddit and no other instance |
| Objects.AuthorLink | objects.py:202-220 | only exceptions outside ValueError, KeyError and TypeError escape; no argument dict means `_author` is None and nothing else changes |
| Objects.AuthorAttach | objects.py:443-458 | an author that stays set is the one fetched; only exceptions outside the three caught classes escape |
| Objects.SubredditLink | objects.py:232-237 | a submission catches only ValueError, so missing subreddit arguments are TypeError; a comment gets `_subreddit` None |
| Objects.SubredditAttach | objects.py:477-488 | a subreddit that stays set is the one fetched; escaping errors are those the class's guard does not catch |
| Objects.SubmissionNew | objects.py:185-188 | a new submission is registered under its id before anything can raise, so it stays registered even on failure |
| Objects.SubmissionTree | objects.py:268-278 | a submission missing a field the tree dict reads raises KeyError with nothing changed; ValueError never escapes |
| Objects.CommentNew | objects.py:398-399 | id 0 is ValueError before registration; any other id ends up registered, even if a later step raises |
| Objects.LinkSubmission | objects.py:400-419 | a falsy or undecodable `link_id` leaves no submission; a registered submission is linked by its decoded id; ValueError never escapes |
| Objects.ParentLink | objects.py:519-533 | a falsy parent id, or one equal to the submission's id, sets the parent to the submission and creates nothing; with no submission a truthy parent id is AttributeError; any other parent id gives the outcome `ParentCommentSpec` describes |
| Objects.ParentComment | objects.py:523-533 | `create_comment({"id": parent_id})` inside the try: an undecodable parent id leaves the parent None; a registered parent comment with both lists becomes the parent, with this id pushed onto both lists and no other heap change; on any success the parent is None or the comment of the decoded id, whose two lists end with this id; only exceptions outside ValueError/KeyError escape |
| ObjectSteps.ParentDropped | objects.py:529-533 | a ValueError or KeyError from `create_comment` sets the parent to None; other errors propagate |
| ObjectSteps.ParentAdopted | objects.py:524-528 | a fetched or created parent comment is linked and lists this comment, as `ParentCommentSpec` states |
| ObjectSteps.ParentAttach | objects.py:524-533 | a parent comment with both lists is linked as the parent and the child's id goes to the end of `comments_id` then `comments_total_id`, nothing else on the heap changing; if either list is missing, a caught KeyError leaves the parent None; a kept parent's two lists end with the child's id; ValueError and KeyError never escape |
| Objects.CommentTreeLink | objects.py:539-555 | a comment missing a field the tree dict reads gets `_comment_tree` None and nothing else changes |
| Objects.TreeNew | objects.py:828-830 | a new tree is registered under its id before anything can raise |
| Objects.Inherit | objects.py:831-851 | a truthy list is kept; a falsy one is shared from the registered submission, else the registered comment, else is a new empty list; without a source, a missing `submission_id` is KeyError |
| Objects.InheritSubmission | objects.py:833-836 | with the submission registered, the tree shares the submission's list after an update that changes nothing |
| Objects.TreeHead | objects.py:853-878 | a falsy `submission_id` is TypeError; ValueError never escapes |
| Objects.HeadLink | objects.py:869-878 | a registered head of the chosen type becomes `_head` |
| Objects.TreeSubmission | objects.py:880-883 | a missing `submission_id` is KeyError with nothing changed; ValueError never escapes |
| Registry.GetRecord | objects.py:1010-1014 | succeeds exactly when `if_record` holds, returning the registered instance; otherwise ValueError |
| Repair.Scan | objects.py:720-726 | the loop over default values gives True exactly when every attribute is present and exempt or at its default, False only at one that is not, and KeyError only for a missing one |
| Repair.IsIgnore | objects.py:170-177 | an instance is a placeholder exactly when its field count equals the default key count and every default attribute holds its default; a different count is never one |
| Repair.CommentIgnoreKeyError | objects.py:720-726 | a comment with the default field count but no `comments_id_total` key raises KeyError |
| Repair.AttrAppend | objects.py:712-713 | `obj.key.append(x)` succeeds exactly when the field holds a list, appending only there; otherwise AttributeError |
| Repair.Repoint | objects.py:715-718 | the parent becomes the submission even if an append then fails; with both lists present the id lands at the end of both; no other comment changes |
| Repair.DropPlaceholder | objects.py:710-713 | a comment without parent is untouched; a KeyError from the parent's `is_ignore()` propagates with nothing changed; a parent that is not a placeholder, or a comment without submission, changes nothing; a placeholder parent of a comment with a submission is replaced by that submission; no other comment changes |
| Repair.UpdateParent | objects.py:705-718 | `update_parent` adds no instance, keeps the submission link, and changes no other comment |
| Repair.UpdateParentLinks | objects.py:705-718 | after a successful `update_parent` a comment with a submission has a parent |
| Repair.UpdateParentOrphan | objects.py:715-718 | an orphan with a submission holding both lists is re-pointed to it, and its id goes to the end of both lists |
| Repair.UpdateParentPlaceholder | objects.py:710-713 | a comment whose parent's `is_ignore()` is True and whose submission has both lists is re-pointed to the submission, and its id is pushed onto `comments_id` then `comments_total_id`; a comment already counted in `comments_total_id` at construction (objects.py:512) is counted there twice |
| Repair.UpdateParentKeepsIngested | objects.py:720-728 | a parent whose field count differs from the default list is never a placeholder, so `update_parent` changes nothing |
| Repair.ParentChain | objects.py:730-744 | the chain is stored in `parent_chain`; a comment without parent gets []; otherwise the last link is the parent; every link after the first is a registered comment whose parent is the link before it, so the chain is the comment's ancestor path from the top down |
| Repair.ChainBelow | objects.py:737-740 | under a parent comment, the chain is the parent's own ancestor path followed by the parent: it ends with the parent, each later link is a child of the one before, and it is stored in the comment |
| Repair.AncestryExtend | objects.py:738-740 | appending a comment to its own parent's chain keeps the result an ancestor path |
| Trees.TreeLen | objects.py:885-886 | `len(tree)` is the number of direct replies; in the model it is defined exactly when `comments_id` is a heap list (see "## Left out" for str and dict values) |
| Trees.TreeGetItem | objects.py:888-889 | `tree[i]` is Python list indexing into `comments_id`, negative indices included |
| Trees.TreeContains | objects.py:894-895 | `x in tree` holds exactly when some direct reply equals `x` |
| Trees.AddComment | objects.py:897-899 | with both lists present the id is appended to `comments_id` then `comments_total_id`, and no table changes |
| Trees.AddCommentShared | objects.py:897-899 | after `add_comment` the tree contains the id, and so does every instance sharing its `comments_id` list |
| Trees.AppendMissing | objects.py:951-953 | the list keeps its prefix, gains every id found and nothing else |
| Trees.AppendMissingFresh | objects.py:951-953 | nothing already present is re-appended and nothing is appended twice |
| Trees.AppendMissingNoDups | objects.py:951-953 | a list without duplicates stays without duplicates |
| Trees.DigOne | objects.py:956-971 | `dig_depth(ids, 1)` is the concatenation of each id's replies, excluding the ids themselves |
| Trees.DigOneAny | objects.py:962-964 | any depth at most 1 other than 0 stops after the direct replies |
| Trees.DigStep | objects.py:958-968 | below a depth that continues, the result is the replies plus the descent from them at the next depth |
| Trees.DepthZero | objects.py:962-968 | depth 0 digs exactly as deep as None |
| Trees.DigLevels | objects.py:956-971 | `dig_depth(ids, d)` holds exactly levels 1 to d of the reply graph, as a multiset |
| Trees.DigWithin | objects.py:956-971 | every id a bounded descent finds is found by the unbounded one |
| TreeUpdate.DigDepth | objects.py:956-971 | when every id below is an ingested comment, `dig_depth` returns the reference descent and changes nothing; ValueError never escapes |
| TreeUpdate.DigVisit | objects.py:959-970 | one loop iteration returns the id's replies and the descent below them |
| TreeUpdate.TotalBase | objects.py:944-947 | the tree takes its head's `comments_total_id` list itself, or a new empty list without a head; a head lacking it is KeyError |
| TreeUpdate.TotalExtend | objects.py:949-953 | with both lists present, `comments_total_id` becomes itself followed by the ids of the full descent it lacks |
| TreeUpdate.UpdateCommentsTotalId | objects.py:943-953 | when the descent succeeds, the tree's fields and the heap are exactly the settled state |
| TreeUpdate.SettledTotal | objects.py:943-953 | afterwards the total list contains every reply at every level, and every bounded descent's ids, after the head's old list; nothing already present is re-added, nothing twice, nothing else |
| TreeUpdate.UpdateAttr | objects.py:901-941 | on a tree with head, submission and both lists, `update_attr` is exactly `update_comments_total_id`; ValueError never escapes |
| TreeUpdate.TreeRelations | objects.py:902-919 | a tree with a head and a submission is left unchanged by the relation steps |
| TreeUpdate.TreeLists | objects.py:920-940 | a tree with both lists truthy is left unchanged by the list steps |
| Load.UpdateSpec | load.py:85-89 | `dict.update` keeps keys distinct, the right operand wins on shared keys, and the left keys keep their order in front |
| Load.AddIsIadd | load.py:85-99 | `a + b` builds the dict that `a += b` leaves in `a`, and `b + a` through `__radd__` equals `a + b` through `__add__` |
| Load.FlattenMember | load.py:149-150 | a comment is in `comments_list` exactly when some submission's list holds it |
| Load.FlattenAdd | load.py:85-89 | merging two comment exports about different submissions concatenates their flat lists |
| Load.Comprehend | load.py:151-153 | in the model, the id comprehension succeeds exactly when every item has the fields it reads; otherwise KeyError (hashability left out) |
| Load.CompFails | load.py:151-153 | any item missing a read field makes the comprehension KeyError |
| Load.CompSpec | load.py:112 | the map lists each id once, and an id maps to the entry of the last item carrying it: a later duplicate wins |
| Load.CompKeys | load.py:112 | every key of the map is the id of some item |
| Load.LoadSubmissions | load.py:110-113 | in the model, loading succeeds exactly when every submission has an id; the items are the data and the id map is the comprehension (hashability left out) |
| Load.LoadComments | load.py:147-154 | in the model, loading succeeds exactly when every flattened comment has `id`, `link_id` and `parent_id`; the three maps are the comprehensions over the flat list (hashability left out) |
| Load.GetItem | load.py:118-123 | neither argument is ValueError; an index is Python list indexing; an unknown id is KeyError |
| Load.GetItemById | load.py:159-164 | looking up a loaded id returns the last item carrying that id |
| Load.TimeKept | load.py:34-37 | with no cutoff every item is kept; with one, an int `created_utc` is kept exactly when it does not exceed it; a missing one is KeyError |
| Pipeline.Attr | data_processor.py:22 | `getattr(o, name, None)` never yields a present None: a None attribute reads as absent; a registered instance's `processed` is False, since it is the first instance built for its id; any other name that is not an instance or class attribute reads the field of that name, present exactly when the field holds something other than None |
| Pipeline.Access | data_processor.py:21-25 | an empty chain returns the object; a chain starting from None is None |
| Pipeline.AccessAttribute | data_processor.py:21-25 | the loop computes the attribute-by-attribute chain and returns the object itself for an empty chain |
| Pipeline.AccessCompose | data_processor.py:14-15 | a chain `a + b` reads as nested access: first `a`, then `b` from the result |
| Pipeline.AccessStops | data_processor.py:21-24 | once a prefix of the chain is None, every longer chain is None; nothing is raised |
| Pipeline.AccessAuthorId | data_processor.py:14-15 | `access_attribute(post, ["_author", "id"])` is the author's id for a post with an author |
| Pipeline.ConvertOne | load.py:39-43 | a cutoff error propagates with nothing changed; a skipped item changes nothing; a converted one is registered under its decoded id |
| Pipeline.ConvertSubmissions | load.py:28-44 | the objects are keyed by original position exactly for the items passing the cutoff, so skips leave gaps; each maps to its decoded, registered id |
| Pipeline.TotalGroup | load.py:190-192 | appending one object to a group, creating it if new, adds exactly one to the grouped total |
| Pipeline.GroupComment | load.py:189-192 | a comment lacking `id_36`, or whose id is not a loaded key, is KeyError; otherwise exactly one object joins the groups |
| Pipeline.ConvertGrouped | load.py:184-192 | one comment iteration converts exactly when the cutoff keeps the item, registers its decoded id and adds one grouped object |
| Pipeline.ConvertComments | load.py:169-192 | positions are kept exactly for the items passing the cutoff, each registered under its decoded id, and the groups hold one entry per converted comment |
| Pipeline.UpdateParentAll | data_processor.py:44-46 | the repair pass adds no instance, and afterwards every comment with a submission has a parent |
| Pipeline.UpdateAttrAll | data_processor.py:47-49 | a successful pass registers no new tree (one would be RuntimeError); an empty tree table changes nothing |
| Pipeline.GenerateDataObjects | data_processor.py:37-50 | after conversion and both repair passes, exactly the cutoff-passing positions are converted, every converted object is registered, and the groups count the comments |
| Pipeline.ReturnKind | data_processor.py:140 | a type name selects the class with that `object_type`; any other name is KeyError |
| Pipeline.ProcessorGetItem | data_processor.py:139-140 | `processor[id]` succeeds exactly for an id registered in the chosen table (a bool counting as 0 or 1) and returns that instance; an unknown type name is KeyError, an unhashable item (a list or dict) TypeError, and any other miss KeyError |
| Pipeline.ProcessorLen | data_processor.py:142-143 | `len(processor)` is defined exactly for a known type name; otherwise KeyError |
| Pipeline.ProcessorIter | data_processor.py:145-146 | `iter(processor)` yields each registered id of the chosen table exactly once |
| Pipeline.ProcessorViewsAgree | data_processor.py:139-146 | iteration yields as many ids as the length says, and each looks up to its own instance |

## Left out

- zst2json.py: decompression, file I/O and logging; none of it touches the object graph.
- File reading and `json.load` in the loaders: the parsed JSON is the loaders' input value, and a loader built with no path is not modelled.
- tqdm progress bars and the `__main__` blocks: they only display progress.
- `save`/`load` serialisation (objects.py:90-140): it relies on `getattr`/`setattr` and `deepcopy`, and does not terminate on the cyclic object graph at unbounded depth.
- `__getattr__`, `__dir__`, `__repr__`, `__str__` and the comparison operators of the loaders: these are presentation and dynamic dispatch.
  - `__getattr__` is modelled only where `access_attribute` and `update_parent` use it.
- ObjectSteps.AuthorArgs: only the identity keys are built; the flair and premium keys named after the post id are left out, because nothing in the core reads them.
- ObjectSteps.SubredditArgs: the `name`, `type` and `name_prefixed` keys are left out for the same reason.
- `int2base` for bases other than 36, which return `bin`/`oct`/`hex` strings or digit lists: only base 36 is ever called.
- Codec.Int2Base: uses exact integer division, where the source's `int(x / base)` is floating point and loses precision above 2^53.
- Pipeline.Attr: `getattr` on a field value (an int, a string, a list) yields None. Python attributes of built-in values such as `str.upper` are not modelled.
  - The instance attributes `_data`, `_record`, `_author_args` and `_subreddit_args`, and bound methods such as `get_dict`, are not modelled: the model reads them as fields, although Python returns the attribute itself.
  - A data key that collides with a relation attribute name is read as the relation.
- Load.Add, Load.Iadd: modelled on dict-valued loaders. `dict.update` with a list operand, as for loaded submissions, is left out.
  - `__iadd__` does not recompute `comments_list` and the id maps in Python either.
- Aliasing of the caller's dicts: an instance's field map is a value. So the caller's dict passed to a constructor is not mutated, while a heap list shared between instances is.
- Dict-key identity: only the pipeline's object groups (`Pipeline.IntKey`) treat a bool as the int it hashes as. The loaders' dicts key on the value itself; floats are opaque everywhere.
- Load.TimeKept: the model treats a `created_utc` that is not an int or bool as a TypeError in the cutoff test. Python raises it for a string, but compares a float with the int cutoff; floats are opaque values here.
- Activity.SortByTime: a `created_utc` that is a float or a JSON array is an opaque value. So the model raises TypeError when sorting two or more such keys, where Python orders floats with numbers and arrays with arrays. The value model does not carry their contents, and Reddit's times are integer epoch seconds.
- Load.Comprehend: an id that is a JSON array or object (an opaque value) is stored as a key, where Python raises TypeError because it is unhashable. `True` and `1` are two keys in the model and one in Python.
- Load.CompFails: if an earlier item's key is unhashable, Python raises TypeError before reaching the missing field; the model reports KeyError.
- Load.LoadSubmissions: "succeeds exactly when every submission has an id" holds in the model; Python also fails with TypeError on an unhashable id.
- Load.LoadComments: "succeeds exactly when" holds in the model; Python also fails with TypeError on an unhashable `id`, and the id maps merge `True` with `1`.
- Load.Comprehend, Load.CompFails, Load.LoadSubmissions, Load.LoadComments, Load.GetItem, Pipeline.GroupComment: the loaders' dicts key on raw value equality. Hashability is not modelled (an opaque JSON array or object key is a TypeError in Python), and `True`/`1` or `False`/`0` are distinct keys here, where Python treats them as one. Reddit ids are strings, so neither case arises in the data.
- Trees.TreeLen, Trees.TreeGetItem, Trees.TreeContains, TreeUpdate.DigVisit, TreeUpdate.TotalExtend: a `comments_id` or `comments_total_id` that is a string or a dict gives TypeError in the model. Python takes `len`, indexes, tests membership or iterates such a value (characters or keys). Only heap lists are modelled as sequences; the constructors always store lists there.
- Pipeline.ProcessorGetItem: an opaque item is read as a hashable miss (KeyError). If it stands for a JSON array or object, Python raises TypeError instead.
- Codec.Decode36: `int()` also reads Unicode decimal digits other than 0-9 (Arabic-Indic digits, say) as their ASCII digits. The model raises ValueError for them.
- TreeUpdate.DigDepth: iterates a snapshot of the id list. The source iterates the live list, which a nested `create_comment` could extend; with a valid registry it cannot.
- Trees.DigLevels, TreeUpdate.SettledTotal: the reference descent `Reach` carries a `fuel` bound on nesting. Graphs deeper than the fuel are outside these statements, as they would exceed Python's recursion limit.
- Objects.CreateObject: the nesting bound `n` stands for Python's recursion limit, with RecursionError at 0. Real nesting is only a few calls deep.
- Objects.ParentComment: when the parent comment is constructed on the spot, the contract states only that it becomes the parent and that its two lists end with the child's id. The rest of the constructed comment is described by `Objects.CommentNew`.
- Pipeline.GenerateDataObjects: the result does not restate that every comment with a submission has a parent, as `Pipeline.UpdateParentAll` proves. `update_attr` may construct instances, and no frame lemma carries that fact through the constructors.
- The module-wide `record` and `global_time_max` are parameters: the store is passed and returned, and the cutoff is an argument.
- Pipeline.ConvertSubmissions, Pipeline.ConvertComments: the loaders' `objects` and `objects_dict` are returned rather than stored in the loader.

=== FILE: activity.dfy ===
/** A redditor's `activity` list: `(created_utc, id, object_type)` tuples kept
    in order by `list.sort(key=lambda x: x[0])`, a stable sort. */
module Activity {
  import opened PyValues

  /** A sort key Python can order: a number (an int, or a bool counting as
      0 or 1) or a string. */
  datatype Stamp = Num(n: int) | Text(t: string)

  /** The sort key `x[0]`, when it is one the model can order. */
  function TimeKey(v: Value): Option<Stamp> {
    match v
    case VInt(i) => Some(Num(i))
    case VBool(b) => Some(Num(if b then 1 else 0))
    case VStr(t) => Some(Text(t))
    case _ => None
  }

  /** Python's `a <= b` on strings: code point by code point, a proper
      prefix first. */
  predicate TextLe(a: string, b: string)
    decreases |a|
  {
    a == [] || (b != [] && (a[0] < b[0] || (a[0] == b[0] && TextLe(a[1..], b[1..]))))
  }

  /** `<=` on keys. Keys of one class compare as Python compares them;
      numbers are put before strings only so that the order is total, since
      `SortByTime` never compares keys of different classes. */
  predicate StampLe(a: Stamp, b: Stamp) {
    match a
    case Num(x) => b.Text? || x <= b.n
    case Text(x) => b.Text? && TextLe(x, b.t)
  }

  /** `<` on keys, the only comparison `list.sort` makes. */
  predicate StampLt(a: Stamp, b: Stamp) {
    !StampLe(b, a)
  }

  predicate Keyed(x: Item) {
    x.Act? && TimeKey(x.time).Some?
  }

  function Key(x: Item): Stamp
    requires Keyed(x)
  {
    TimeKey(x.time).value
  }

  predicate AllKeyed(s: seq<Item>) {
    forall i | 0 <= i < |s| :: Keyed(s[i])
  }

  /** Every key of `s` is of one class, so any two of them compare. */
  predicate OneClass(s: seq<Item>)
    requires AllKeyed(s)
  {
    forall i | 0 <= i < |s| :: Key(s[i]).Num? == Key(s[0]).Num?
  }

  /** `x` can be compared with every element of `s`. */
  predicate Joins(s: seq<Item>, x: Item) {
    AllKeyed(s) && Keyed(x) && forall i | 0 <= i < |s| :: Key(s[i]).Num? == Key(x).Num?
  }

  predicate SortedByTime(s: seq<Item>)
    requires AllKeyed(s)
  {
    forall i, j | 0 <= i < j < |s| :: StampLe(Key(s[i]), Key(s[j]))
  }

  /** The place a stable sort gives a new last element: after every element
      whose key is not greater than its own. */
  function Slot(s: seq<Item>, x: Item): (p: nat)
    requires AllKeyed(s) && Keyed(x)
    ensures p <= |s|
  {
    if s == [] || StampLt(Key(x), Key(s[0])) then 0 else 1 + Slot(s[1..], x)
  }

  function Insert(s: seq<Item>, x: Item): (r: seq<Item>)
    requires AllKeyed(s) && Keyed(x)
    ensures AllKeyed(r) && |r| == |s| + 1
  {
    if s == [] || StampLt(Key(x), Key(s[0])) then [x] + s else [s[0]] + Insert(s[1..], x)
  }

  /** Insertion sort, one element at a time from the left; stable. */
  function InsertionSort(s: seq<Item>): (r: seq<Item>)
    requires AllKeyed(s)
    ensures AllKeyed(r) && |r| == |s|
  {
    if s == [] then [] else Insert(InsertionSort(s[..|s| - 1]), s[|s| - 1])
  }

  /** `activity.sort(key=lambda x: x[0])`. Every element must be a tuple (an
      id has no `[0]`). With two or more elements the keys must be all
      numbers or all strings: any other key, or a mix of the two, makes some
      comparison raise TypeError. */
  function SortByTime(s: seq<Item>): (r: Result<seq<Item>>)
    ensures r.Err? ==> r.error == TypeError
    ensures r.Ok? <==> (forall i | 0 <= i < |s| :: s[i].Act?) && (|s| < 2 || (AllKeyed(s) && OneClass(s)))
    ensures r.Ok? && |s| < 2 ==> r.value == s
  {
    if exists i | 0 <= i < |s| :: !s[i].Act? then Err(TypeError)
    else if |s| < 2 then Ok(s)
    else if AllKeyed(s) && OneClass(s) then Ok(InsertionSort(s))
    else Err(TypeError)
  }

  // ------------------------------------------------------------------ lemmas

  /** Any two strings compare one way or the other. */
  lemma {:induction false} TextLeTotal(a: string, b: string)
    ensures TextLe(a, b) || TextLe(b, a)
    decreases |a|
  {
    if a != [] && b != [] && a[0] == b[0] {
      TextLeTotal(a[1..], b[1..]);
    }
  }

  lemma {:induction false} TextLeTrans(a: string, b: string, c: string)
    requires TextLe(a, b) && TextLe(b, c)
    ensures TextLe(a, c)
    decreases |a|
  {
    if a != [] && a[0] == b[0] && b[0] == c[0] {
      TextLeTrans(a[1..], b[1..], c[1..]);
    }
  }

  /** The key order is total ... */
  lemma StampLeTotal(a: Stamp, b: Stamp)
    ensures StampLe(a, b) || StampLe(b, a)
  {
    if a.Text? && b.Text? {
      TextLeTotal(a.t, b.t);
    }
  }

  /** ... and transitive, so a stable insertion sort orders by it. */
  lemma StampLeTrans(a: Stamp, b: Stamp, c: Stamp)
    requires StampLe(a, b) && StampLe(b, c)
    ensures StampLe(a, c)
  {
    if a.Text? {
      TextLeTrans(a.t, b.t, c.t);
    }
  }

  /** Inserting splices `x` in at `Slot(s, x)` and leaves the rest in order. */
  lemma {:induction false} InsertSplices(s: seq<Item>, x: Item)
    requires AllKeyed(s) && Keyed(x)
    ensures Insert(s, x) == s[..Slot(s, x)] + [x] + s[Slot(s, x)..]
    decreases |s|
  {
    if s != [] && !StampLt(Key(x), Key(s[0])) {
      InsertSplices(s[1..], x);
      assert s == [s[0]] + s[1..];
    }
  }

  /** In a sorted list the slot separates the keys not greater than `x`'s
      from the greater ones. */
  lemma {:induction false} SlotSeparates(s: seq<Item>, x: Item)
    requires AllKeyed(s) && Keyed(x) && SortedByTime(s)
    ensures forall j | 0 <= j < Slot(s, x) :: StampLe(Key(s[j]), Key(x))
    ensures forall j | Slot(s, x) <= j < |s| :: StampLt(Key(x), Key(s[j]))
    decreases |s|
  {
    if s == [] {
    } else if StampLt(Key(x), Key(s[0])) {
      forall j | 0 <= j < |s|
        ensures StampLt(Key(x), Key(s[j]))
      {
        if StampLe(Key(s[j]), Key(x)) {
          StampLeTrans(Key(s[0]), Key(s[j]), Key(x));
        }
      }
    } else {
      SlotSeparates(s[1..], x);
      forall j | 1 <= j < |s|
        ensures s[j] == s[1..][j - 1]
      {
      }
    }
  }

  lemma {:induction false} InsertMultiset(s: seq<Item>, x: Item)
    requires AllKeyed(s) && Keyed(x)
    ensures multiset(Insert(s, x)) == multiset(s) + multiset{x}
    decreases |s|
  {
    if s != [] && !StampLt(Key(x), Key(s[0])) {
      InsertMultiset(s[1..], x);
      assert s == [s[0]] + s[1..];
    }
  }

  /** Every key of `s` is at least `b`. */
  predicate Above(b: Stamp, s: seq<Item>)
    requires AllKeyed(s)
  {
    forall i | 0 <= i < |s| :: StampLe(b, Key(s[i]))
  }

  lemma {:induction false} InsertAbove(b: Stamp, s: seq<Item>, x: Item)
    requires AllKeyed(s) && Keyed(x) && Above(b, s) && StampLe(b, Key(x))
    ensures Above(b, Insert(s, x))
    decreases |s|
  {
    if s != [] && !StampLt(Key(x), Key(s[0])) {
      InsertAbove(b, s[1..], x);
      var r := Insert(s[1..], x);
      assert Insert(s, x) == [s[0]] + r;
      assert forall i | 1 <= i < |s| :: s[i] == s[1..][i - 1];
    }
  }

  /** A list is sorted when its head is below its sorted tail. */
  lemma SortedCons(a: Item, r: seq<Item>)
    requires Keyed(a) && AllKeyed(r) && SortedByTime(r) && Above(Key(a), r)
    ensures AllKeyed([a] + r) && SortedByTime([a] + r)
  {
    var t := [a] + r;
    assert forall i | 1 <= i < |t| :: t[i] == r[i - 1];
  }

  lemma {:induction false} InsertSorted(s: seq<Item>, x: Item)
    requires AllKeyed(s) && Keyed(x) && SortedByTime(s)
    ensures SortedByTime(Insert(s, x))
    decreases |s|
  {
    if s == [] {
      SortedCons(x, s);
    } else if StampLt(Key(x), Key(s[0])) {
      StampLeTotal(Key(x), Key(s[0]));
      forall i | 0 <= i < |s|
        ensures StampLe(Key(x), Key(s[i]))
      {
        if i > 0 {
          StampLeTrans(Key(x), Key(s[0]), Key(s[i]));
        }
      }
      SortedCons(x, s);
    } else {
      var t := s[1..];
      assert SortedByTime(t) && Above(Key(s[0]), t) by {
        assert forall i | 0 <= i < |t| :: t[i] == s[i + 1];
      }
      InsertSorted(t, x);
      InsertAbove(Key(s[0]), t, x);
      SortedCons(s[0], Insert(t, x));
    }
  }

  lemma {:induction false} InsertionSortSorted(s: seq<Item>)
    requires AllKeyed(s)
    ensures SortedByTime(InsertionSort(s))
    ensures multiset(InsertionSort(s)) == multiset(s)
    decreases |s|
  {
    if s != [] {
      var init := s[..|s| - 1];
      InsertionSortSorted(init);
      InsertSorted(InsertionSort(init), s[|s| - 1]);
      InsertMultiset(InsertionSort(init), s[|s| - 1]);
      assert s == init + [s[|s| - 1]];
    }
  }

  lemma {:induction false} SlotAfterAll(s: seq<Item>, x: Item)
    requires AllKeyed(s) && Keyed(x)
    requires forall j | 0 <= j < |s| :: StampLe(Key(s[j]), Key(x))
    ensures Slot(s, x) == |s|
    decreases |s|
  {
    if s != [] {
      SlotAfterAll(s[1..], x);
    }
  }

  /** A list that is already sorted is left as it is. */
  lemma {:induction false} SortedUnchanged(s: seq<Item>)
    requires AllKeyed(s) && SortedByTime(s)
    ensures InsertionSort(s) == s
    decreases |s|
  {
    if s != [] {
      var init := s[..|s| - 1];
      var x := s[|s| - 1];
      SortedUnchanged(init);
      InsertSplices(init, x);
      SlotAfterAll(init, x);
      assert s == init + [x];
    }
  }

  /** Appending a post's tuple to a sorted activity list and sorting again
      splices the tuple in after every entry of the same or earlier time: the
      list grows by exactly that tuple, keeps the old entries in their order,
      and stays sorted. */
  lemma AppendThenSort(s: seq<Item>, x: Item)
    requires Joins(s, x) && SortedByTime(s)
    ensures SortByTime(s + [x]) == Ok(Insert(s, x))
    ensures Insert(s, x) == s[..Slot(s, x)] + [x] + s[Slot(s, x)..]
    ensures SortedByTime(Insert(s, x))
    ensures multiset(Insert(s, x)) == multiset(s) + multiset{x}
  {
    SortAppended(s, x);
    SortedUnchanged(s);
    InsertSplices(s, x);
    InsertSorted(s, x);
    InsertMultiset(s, x);
  }

  /** Sorting `s + [x]`, whose keys are all of `x`'s class, inserts `x`
      into the sorted `s`. */
  lemma SortAppended(s: seq<Item>, x: Item)
    requires Joins(s, x)
    ensures SortByTime(s + [x]) == Ok(Insert(InsertionSort(s), x))
  {
    var t := s + [x];
    assert AllKeyed(t);
    assert OneClass(t) by {
      assert forall i | 0 <= i < |t| :: Key(t[i]).Num? == Key(x).Num?;
    }
    assert forall i | 0 <= i < |t| :: t[i].Act?;
    assert t[..|t| - 1] == s;
    if s == [] {
      assert t == [x];
      assert SortByTime(t) == Ok(t);
      assert InsertionSort(s) == [];
      assert [x] + [] == [x];
      assert Insert(InsertionSort(s), x) == [x];
    } else {
      assert SortByTime(t) == Ok(InsertionSort(t));
    }
  }

  /** Whatever `SortByTime` accepts holds the same tuples, and comes out
      ordered by time whenever every key is one it can order (always so for
      two or more tuples). */
  lemma SortByTimeCorrect(s: seq<Item>)
    requires SortByTime(s).Ok?
    ensures multiset(SortByTime(s).value) == multiset(s)
    ensures |s| >= 2 ==> AllKeyed(s)
    ensures AllKeyed(s) ==> AllKeyed(SortByTime(s).value) && SortedByTime(SortByTime(s).value)
  {
    if |s| >= 2 {
      InsertionSortSorted(s);
    }
  }
}

=== FILE: codec.dfy ===
/** The identifier codec: an integer id, its base-36 text, and the
    type-prefixed fullname (`t1_` comment, `t2_` redditor, `t3_` submission,
    `t4_` message, `t5_` subreddit, `t6_` award). */
module Codec {
  import opened PyValues

  /** The digit alphabet of base 36, lower case. */
  const Alphabet: string := "0123456789abcdefghijklmnopqrstuvwxyz"

  // ---------------------------------------------------------------- digits

  function DigitChar(d: nat): (c: char)
    requires d < 36
  {
    if d < 10 then ('0' as int + d) as char else ('a' as int + d - 10) as char
  }

  predicate IsDigit(c: char) {
    ('0' <= c <= '9') || ('a' <= c <= 'z')
  }

  function DigitValue(c: char): (d: nat)
    requires IsDigit(c)
    ensures d < 36
  {
    if '0' <= c <= '9' then c as int - '0' as int else c as int - 'a' as int + 10
  }

  lemma DigitRoundTrip(d: nat)
    requires d < 36
    ensures IsDigit(DigitChar(d)) && DigitValue(DigitChar(d)) == d
  {
  }

  lemma CharRoundTrip(c: char)
    requires IsDigit(c)
    ensures DigitChar(DigitValue(c)) == c
  {
  }

  lemma AlphabetIsDigits(d: nat)
    requires d < 36
    ensures Alphabet[d] == DigitChar(d)
  {
  }

  predicate AllDigits(s: string) {
    forall i | 0 <= i < |s| :: IsDigit(s[i])
  }

  /** The number a string of base-36 digits denotes (most significant first). */
  function DigitsValue(s: string): nat
    requires AllDigits(s)
  {
    if s == [] then 0 else DigitsValue(s[..|s| - 1]) * 36 + DigitValue(s[|s| - 1])
  }

  /** The base-36 digits of a positive number, with no leading zero. */
  function Digits(n: nat): (s: string)
    requires n > 0
    decreases n
  {
    (if n < 36 then "" else Digits(n / 36)) + [DigitChar(n % 36)]
  }

  // --------------------------------------------------------------- encode

  /** `int2base(x, 36)`: "0" for zero, a leading "-" for a negative number,
      otherwise the digits with no leading zero. */
  function Int2Base(x: int): (s: string)
  {
    if x == 0 then "0" else if x < 0 then "-" + Digits(-x) else Digits(x)
  }

  // --------------------------------------------------------------- decode

  /** A character `int(_, 36)` reads as a digit: either case. */
  predicate IsDigitAnyCase(c: char) {
    IsDigit(c) || ('A' <= c <= 'Z')
  }

  function Lower(c: char): (l: char)
    requires IsDigitAnyCase(c)
    ensures IsDigit(l) && (IsDigit(c) ==> l == c)
  {
    if 'A' <= c <= 'Z' then (c as int - 'A' as int + 'a' as int) as char else c
  }

  /** Digit text as Python's `int` reads it: non-empty, digits of either case,
      and single underscores only between two digits. */
  predicate Spelled(t: string)
    decreases |t|
  {
    && |t| > 0 && IsDigitAnyCase(t[0])
    && (|t| == 1 || Spelled(t[1..]) || (t[1] == '_' && Spelled(t[2..])))
  }

  /** The digits of spelled text, lower-cased, with the underscores dropped. */
  function Strip(t: string): (s: string)
    requires Spelled(t)
    ensures AllDigits(s) && s != []
    decreases |t|
  {
    if |t| == 1 then [Lower(t[0])]
    else if t[1] == '_' then
      assert !Spelled(t[1..]) by { assert t[1..][0] == '_'; }
      [Lower(t[0])] + Strip(t[2..])
    else [Lower(t[0])] + Strip(t[1..])
  }

  /** Plain lower-case digit text is spelled and strips to itself. */
  lemma {:induction false} PlainSpelled(s: string)
    requires s != [] && AllDigits(s)
    ensures Spelled(s) && Strip(s) == s
    decreases |s|
  {
    if |s| > 1 {
      PlainSpelled(s[1..]);
      assert s == [s[0]] + s[1..];
    }
  }

  /** The characters `str.isspace` accepts: the ones `int()` strips from
      both ends of its argument. */
  predicate PySpace(c: char) {
    || c == ' ' || ('\t' <= c && c <= '\r') || ('\U{1c}' <= c && c <= '\U{1f}')
    || c == '\U{85}' || c == '\U{a0}' || c == '\U{1680}' || ('\U{2000}' <= c && c <= '\U{200a}')
    || c == '\U{2028}' || c == '\U{2029}' || c == '\U{202f}' || c == '\U{205f}' || c == '\U{3000}'
  }

  predicate AllSpace(s: string) {
    forall i | 0 <= i < |s| :: PySpace(s[i])
  }

  function TrimLeft(s: string): (r: string)
    ensures r == [] || !PySpace(r[0])
    decreases |s|
  {
    if s != [] && PySpace(s[0]) then TrimLeft(s[1..]) else s
  }

  function TrimRight(s: string): (r: string)
    ensures r == [] || !PySpace(r[|r| - 1])
    decreases |s|
  {
    if s != [] && PySpace(s[|s| - 1]) then TrimRight(s[..|s| - 1]) else s
  }

  /** `s.strip()`. */
  function Trim(s: string): string {
    TrimRight(TrimLeft(s))
  }

  /** The signed text `int()` reads once the whitespace is stripped: an
      optional sign, then digits of either case with single underscores
      between them. Anything else raises ValueError. */
  function DecodeSigned(s: string): (r: Result<int>)
  {
    var signed := |s| > 0 && (s[0] == '-' || s[0] == '+');
    var t := if signed then s[1..] else s;
    if Spelled(t) then
      var n := DigitsValue(Strip(t));
      Ok(if signed && s[0] == '-' then 0 - n else n)
    else Err(ValueError)
  }

  /** `int(s, 36)`: surrounding whitespace is ignored. */
  function Decode36(s: string): (r: Result<int>)
  {
    DecodeSigned(Trim(s))
  }

  /** Canonical base-36 text: what `Int2Base` can produce. */
  predicate CanonicalDigits(s: string) {
    s != [] && AllDigits(s) && (s[0] != '0' || s == "0")
  }

  predicate Canonical(s: string) {
    CanonicalDigits(s) || (|s| > 1 && s[0] == '-' && CanonicalDigits(s[1..]) && s[1..] != "0")
  }

  // --------------------------------------------------------------- lemmas

  lemma DigitNotSpace(c: char)
    requires IsDigit(c) || c == '-'
    ensures !PySpace(c)
  {
  }

  /** Digit text has no whitespace to strip. */
  lemma DigitsPlain(s: string)
    requires s != [] && AllDigits(s)
    ensures Trim(s) == s && Decode36(s) == DecodeSigned(s)
  {
    DigitNotSpace(s[0]);
    DigitNotSpace(s[|s| - 1]);
    TrimPlain(s);
  }

  /** Text that neither starts nor ends with whitespace is read as it is. */
  lemma TrimPlain(s: string)
    requires s == [] || (!PySpace(s[0]) && !PySpace(s[|s| - 1]))
    ensures Trim(s) == s && Decode36(s) == DecodeSigned(s)
  {
  }

  lemma {:induction false} TrimLeftSpaces(a: string, x: string)
    requires AllSpace(a)
    ensures TrimLeft(a + x) == TrimLeft(x)
    decreases |a|
  {
    if a == [] {
      assert a + x == x;
    } else {
      assert (a + x)[0] == a[0] && (a + x)[1..] == a[1..] + x;
      TrimLeftSpaces(a[1..], x);
    }
  }

  lemma {:induction false} TrimRightSpaces(x: string, b: string)
    requires AllSpace(b)
    ensures TrimRight(x + b) == TrimRight(x)
    decreases |b|
  {
    if b == [] {
      assert x + b == x;
    } else {
      assert (x + b)[|x + b| - 1] == b[|b| - 1];
      assert (x + b)[..|x + b| - 1] == x + b[..|b| - 1];
      TrimRightSpaces(x, b[..|b| - 1]);
    }
  }

  /** Trailing text survives a left trim once something non-blank precedes it. */
  lemma {:induction false} TrimLeftAppend(s: string, b: string)
    ensures TrimLeft(s) != [] ==> TrimLeft(s + b) == TrimLeft(s) + b
    ensures TrimLeft(s) == [] ==> TrimLeft(s + b) == TrimLeft(b)
    decreases |s|
  {
    if s == [] {
      assert s + b == b;
    } else if PySpace(s[0]) {
      assert (s + b)[1..] == s[1..] + b;
      TrimLeftAppend(s[1..], b);
    }
  }

  /** `int(a + s + b, 36) == int(s, 36)` for blank `a` and `b`: padding
      never changes what the text decodes to. */
  lemma Decode36Padded(a: string, s: string, b: string)
    requires AllSpace(a) && AllSpace(b)
    ensures Decode36(a + s + b) == Decode36(s)
  {
    assert a + s + b == a + (s + b);
    TrimLeftSpaces(a, s + b);
    TrimLeftAppend(s, b);
    if TrimLeft(s) != [] {
      TrimRightSpaces(TrimLeft(s), b);
    } else {
      TrimLeftSpaces(b, []);
      assert b + [] == b;
    }
  }

  lemma {:induction false} DigitsShape(n: nat)
    requires n > 0
    ensures AllDigits(Digits(n)) && Digits(n) != [] && Digits(n)[0] != '0'
    decreases n
  {
    if n >= 36 {
      DigitsShape(n / 36);
    }
  }

  lemma {:induction false} DigitsDecode(n: nat)
    requires n > 0
    ensures AllDigits(Digits(n)) && DigitsValue(Digits(n)) == n
    decreases n
  {
    DigitsShape(n);
    var s := Digits(n);
    DigitRoundTrip(n % 36);
    if n < 36 {
      assert s == [DigitChar(n % 36)];
      assert s[..|s| - 1] == [];
    } else {
      DigitsDecode(n / 36);
      assert s[..|s| - 1] == Digits(n / 36);
    }
  }

  /** Encoding then decoding gives back the id, for every integer. */
  lemma Int2BaseRoundTrip(x: int)
    ensures Decode36(Int2Base(x)) == Ok(x)
    ensures Canonical(Int2Base(x))
  {
    if x > 0 {
      PositiveRoundTrip(x);
    } else if x < 0 {
      NegativeRoundTrip(-x);
      assert Int2Base(x) == "-" + Digits(-x);
    } else {
      assert AllDigits("0");
      PlainSpelled("0");
      DigitsPlain("0");
    }
  }

  lemma PositiveRoundTrip(n: nat)
    requires n > 0
    ensures Decode36(Digits(n)) == Ok(n) && CanonicalDigits(Digits(n))
  {
    DigitsDecode(n);
    DigitsShape(n);
    PlainSpelled(Digits(n));
    DigitsPlain(Digits(n));
  }

  lemma NegativeRoundTrip(n: nat)
    requires n > 0
    ensures Decode36("-" + Digits(n)) == Ok(0 - n) && Canonical("-" + Digits(n))
  {
    var d := Digits(n);
    DigitsShape(n);
    DigitsDecode(n);
    assert DigitsValue(d) == n;
    DecodeNegative(d);
    assert Decode36("-" + d) == Ok(0 - n);
    NegativeCanonicalText(d);
  }

  lemma NegativeCanonicalText(d: string)
    requires CanonicalDigits(d) && d[0] != '0'
    ensures Canonical("-" + d)
  {
    var s := "-" + d;
    assert s[1..] == d;
  }

  /** `int("-" + t, 36)` for digit text `t`. */
  lemma DecodeNegative(t: string)
    requires t != [] && AllDigits(t)
    ensures Decode36("-" + t) == Ok(0 - DigitsValue(t))
  {
    NegativeText(t);
    TrimPlain("-" + t);
    SignedNegative(t);
  }

  lemma NegativeText(t: string)
    requires t != [] && AllDigits(t)
    ensures var s := "-" + t; !PySpace(s[0]) && !PySpace(s[|s| - 1])
  {
    var s := "-" + t;
    assert s[|s| - 1] == t[|t| - 1];
    DigitNotSpace(t[|t| - 1]);
  }

  lemma SignedNegative(t: string)
    requires t != [] && AllDigits(t)
    ensures DecodeSigned("-" + t) == Ok(0 - DigitsValue(t))
  {
    var s := "-" + t;
    assert s[1..] == t;
    PlainSpelled(t);
  }

  lemma {:induction false} LeadingDigitPositive(s: string)
    requires s != [] && AllDigits(s) && s[0] != '0'
    ensures DigitsValue(s) > 0
    decreases |s|
  {
    if |s| > 1 {
      LeadingDigitPositive(s[..|s| - 1]);
    }
  }

  lemma {:induction false} DigitsOfValue(s: string)
    requires s != [] && AllDigits(s) && s[0] != '0'
    ensures DigitsValue(s) > 0 && Digits(DigitsValue(s)) == s
    decreases |s|
  {
    LeadingDigitPositive(s);
    var init := s[..|s| - 1];
    var last := s[|s| - 1];
    var d := DigitValue(last);
    var n := DigitsValue(s);
    assert n == DigitsValue(init) * 36 + d;
    CharRoundTrip(last);
    assert s == init + [last];
    if |s| == 1 {
      assert init == [];
      assert n == d && 0 < n < 36;
      assert Digits(n) == [DigitChar(n % 36)];
    } else {
      assert init[0] == s[0];
      DigitsOfValue(init);
      var m := DigitsValue(init);
      assert n == m * 36 + d && m > 0;
      assert n / 36 == m && n % 36 == d by {
        assert 0 <= d < 36;
      }
      assert n >= 36;
      assert Digits(n) == Digits(m) + [DigitChar(d)];
    }
  }

  /** Decoding canonical text then encoding gives back the same text. */
  lemma Decode36Canonical(s: string)
    requires Canonical(s)
    ensures Decode36(s).Ok? && Int2Base(Decode36(s).value) == s
  {
    if s == "0" {
      PlainSpelled(s);
      DigitsPlain(s);
    } else if s[0] == '-' {
      NegativeCanonical(s);
    } else {
      PositiveCanonical(s);
    }
  }

  lemma PositiveCanonical(s: string)
    requires CanonicalDigits(s) && s != "0"
    ensures Decode36(s) == Ok(DigitsValue(s)) && DigitsValue(s) > 0 && Digits(DigitsValue(s)) == s
  {
    PlainSpelled(s);
    DigitsPlain(s);
    DigitsOfValue(s);
  }

  lemma NegativeCanonical(s: string)
    requires |s| > 1 && s[0] == '-' && CanonicalDigits(s[1..]) && s[1..] != "0"
    ensures Decode36(s).Ok? && Int2Base(Decode36(s).value) == s
  {
    var t := s[1..];
    PositiveCanonical(t);
    assert s == "-" + t;
    DecodeNegative(t);
  }

  // --------------------------------------------------------------- prefixes

  /** `prefix_map_id2type`. */
  const PrefixToType: map<string, string> := map[
    "t1_" := "comment", "t2_" := "redditor", "t3_" := "submission",
    "t4_" := "message", "t5_" := "subreddit", "t6_" := "award"]

  /** `prefix_map_type2id`, the inversion of `PrefixToType`. */
  const TypeToPrefix: map<string, string> := map[
    "comment" := "t1_", "redditor" := "t2_", "submission" := "t3_",
    "message" := "t4_", "subreddit" := "t5_", "award" := "t6_"]

  /** The six prefixes and six type names are distinct, so the two maps are
      mutual inverses, and every prefix is three characters long. */
  lemma PrefixMapsInverse()
    ensures forall p | p in PrefixToType :: PrefixToType[p] in TypeToPrefix && TypeToPrefix[PrefixToType[p]] == p
    ensures forall n | n in TypeToPrefix :: TypeToPrefix[n] in PrefixToType && PrefixToType[TypeToPrefix[n]] == n
    ensures forall p | p in PrefixToType :: |p| == 3
  {
  }

  /** `prefix_map_type2id[object_type]`; absent (a KeyError in Python)
      for comment trees and the base class. */
  function KindPrefix(k: Kind): Option<string> {
    match k
    case Comment => Some("t1_")
    case Redditor => Some("t2_")
    case Submission => Some("t3_")
    case Subreddit => Some("t5_")
    case CommentTree => None
    case RedditObject => None
  }

  /** The four classes with a `process_id`: the ones with a fullname prefix. */
  predicate HasIdPrefix(k: Kind) {
    k != CommentTree && k != RedditObject
  }

  /** `KindPrefix` is the lookup of the class's `object_type` in
      `prefix_map_type2id`, and the prefix names the class back through
      `prefix_map_id2type`. */
  lemma KindPrefixAgrees(k: Kind)
    ensures KindPrefix(k).Some? <==> KindName(k) in TypeToPrefix
    ensures KindPrefix(k).Some? ==> KindPrefix(k).value == TypeToPrefix[KindName(k)]
    ensures KindPrefix(k).Some? ==> PrefixToType[KindPrefix(k).value] == KindName(k)
    ensures KindPrefix(k).Some? <==> HasIdPrefix(k)
  {
  }

  predicate HasPrefix(s: string, p: string) {
    |p| <= |s| && s[..|p|] == p
  }
}

=== FILE: id_processing.dfy ===
/** The `process_*id` functions: turn a raw id field into the integer id, its
    base-36 text and its fullname. */
module IdProcessing {
  import opened PyValues
  import opened Codec

  datatype IdTriple = IdTriple(id: int, id36: string, fullname: string)

  /** `CreateObject.process_id`: a string loses the requested type's prefix
      (if it carries it) and is decoded; an int passes through, and so does a
      bool, which Python counts as the int 0 or 1; anything else is a
      ValueError. A string for a type without prefix is a KeyError. */
  function ProcessId(v: Value, k: Kind): (r: Result<int>)
    ensures v.VInt? ==> r == Ok(v.i)
    ensures v.VBool? ==> r == Ok(if v.b then 1 else 0)
    ensures !v.VInt? && !v.VBool? && !v.VStr? ==> r == Err(ValueError)
    ensures v.VStr? && KindPrefix(k).None? ==> r == Err(KeyError)
    ensures v.VStr? && KindPrefix(k).Some? && HasPrefix(v.s, KindPrefix(k).value) ==>
      r == Decode36(v.s[|KindPrefix(k).value|..])
    ensures v.VStr? && KindPrefix(k).Some? && !HasPrefix(v.s, KindPrefix(k).value) ==>
      r == Decode36(v.s)
  {
    match v
    case VStr(s) =>
      (match KindPrefix(k)
       case None => Err(KeyError)
       case Some(p) => if HasPrefix(s, p) then Decode36(s[|p|..]) else Decode36(s))
    case VInt(i) => Ok(i)
    case VBool(b) => Ok(if b then 1 else 0)
    case _ => Err(ValueError)
  }

  /** The static decoders `process_author_id`, `process_subreddit_id` and
      `process_submission_id`: prefix `p` is stripped when present, and the
      fullname is always `p` followed by the base-36 text. */
  function ForeignId(v: Value, p: string): (r: Result<IdTriple>)
  {
    match v
    case VStr(s) =>
      if HasPrefix(s, p) then
        var t := s[|p|..];
        (match Decode36(t)
         case Ok(n) => Ok(IdTriple(n, t, s))
         case Err(e) => Err(e))
      else
        (match Decode36(s)
         case Ok(n) => Ok(IdTriple(n, s, p + s))
         case Err(e) => Err(e))
    case VInt(i) => Ok(IdTriple(i, Int2Base(i), p + Int2Base(i)))
    case VBool(b) => var i := if b then 1 else 0; Ok(IdTriple(i, Int2Base(i), p + Int2Base(i)))
    case _ => Err(ValueError)
  }

  /** `process_parent_id`: both `t1_` and `t3_` are stripped and the given
      fullname kept; otherwise the fullname gets the comment prefix. */
  function ParentId(v: Value): (r: Result<IdTriple>)
  {
    match v
    case VStr(s) =>
      if HasPrefix(s, "t1_") || HasPrefix(s, "t3_") then
        var t := s[3..];
        (match Decode36(t)
         case Ok(n) => Ok(IdTriple(n, t, s))
         case Err(e) => Err(e))
      else
        (match Decode36(s)
         case Ok(n) => Ok(IdTriple(n, s, "t1_" + s))
         case Err(e) => Err(e))
    case VInt(i) => Ok(IdTriple(i, Int2Base(i), "t1_" + Int2Base(i)))
    case VBool(b) => var i := if b then 1 else 0; Ok(IdTriple(i, Int2Base(i), "t1_" + Int2Base(i)))
    case _ => Err(ValueError)
  }

  /** The three projections of a triple agree: the fullname is a prefix
      followed by the base-36 text, and the text decodes to the id. */
  predicate Synced(t: IdTriple, p: string) {
    t.fullname == p + t.id36 && Decode36(t.id36) == Ok(t.id)
  }

  lemma ForeignIdSynced(v: Value, p: string)
    ensures ForeignId(v, p).Ok? ==> Synced(ForeignId(v, p).value, p)
    ensures ForeignId(v, p).Err? <==>
      !(v.VStr? || v.VInt? || v.VBool?) ||
      (v.VStr? && HasPrefix(v.s, p) && Decode36(v.s[|p|..]).Err?) ||
      (v.VStr? && !HasPrefix(v.s, p) && Decode36(v.s).Err?)
    ensures ForeignId(v, p).Err? ==> ForeignId(v, p).error == ValueError
  {
    match v
    case VStr(s) =>
      if HasPrefix(s, p) {
        assert s == p + s[|p|..];
      }
    case VInt(i) => Int2BaseRoundTrip(i);
    case VBool(b) => Int2BaseRoundTrip(if b then 1 else 0);
    case _ =>
  }

  lemma ParentIdSynced(v: Value)
    ensures ParentId(v).Ok? ==>
      Synced(ParentId(v).value, "t1_") || Synced(ParentId(v).value, "t3_")
    ensures v.VInt? ==> ParentId(v).Ok? && Synced(ParentId(v).value, "t1_")
    ensures ParentId(v).Err? ==> ParentId(v).error == ValueError
  {
    match v
    case VStr(s) =>
      if HasPrefix(s, "t1_") {
        assert s == "t1_" + s[3..];
      } else if HasPrefix(s, "t3_") {
        assert s == "t3_" + s[3..];
      }
    case VInt(i) => Int2BaseRoundTrip(i);
    case VBool(b) => Int2BaseRoundTrip(if b then 1 else 0);
    case _ =>
  }

  lemma PrefixShape(k: Kind)
    requires KindPrefix(k).Some?
    ensures |KindPrefix(k).value| == 3 && KindPrefix(k).value[2] == '_'
  {
  }

  lemma DigitsNotPrefixed(t: string, p: string)
    requires AllDigits(t) && |p| == 3 && p[2] == '_'
    ensures !HasPrefix(t, p)
  {
    if |p| <= |t| {
      assert IsDigit(t[2]);
    }
  }

  /** A fullname made from an id decodes back to the id under every type,
      and so does the bare base-36 text of a non-negative id. */
  lemma ProcessIdRoundTrip(n: int, k: Kind)
    requires KindPrefix(k).Some?
    ensures ProcessId(VStr(KindPrefix(k).value + Int2Base(n)), k) == Ok(n)
    ensures n >= 0 ==> ProcessId(VStr(Int2Base(n)), k) == Ok(n)
  {
    var p := KindPrefix(k).value;
    var s := p + Int2Base(n);
    Int2BaseRoundTrip(n);
    assert s[..|p|] == p && s[|p|..] == Int2Base(n);
    if n >= 0 {
      PrefixShape(k);
      if n > 0 {
        DigitsShape(n);
      }
      DigitsNotPrefixed(Int2Base(n), p);
    }
  }

  /** The id, `id_36` and `fullname` fields of a field map agree: the text
      decodes to the id. */
  predicate FieldsSynced(f: Fields) {
    && "id" in f && "id_36" in f && "fullname" in f
    && f["id"].VInt? && f["id_36"].VStr?
    && Decode36(f["id_36"].s) == Ok(f["id"].i)
  }

  /** The string branch of the class `process_id` for prefix `p`. The fields
      come out synced, and the fullname is the prefixed text unless the id
      carried the prefix and a truthy fullname was already present. */
  function StringId(d: Fields, h: Heap, s: string, p: string): (r: Result<Fields>)
    requires FieldsClosed(d, |h|) && "id" in d && d["id"] == VStr(s)
    ensures r.Ok? ==> FieldsClosed(r.value, |h|) && FieldsSynced(r.value)
    ensures r.Ok? ==>
      r.value["fullname"] == VStr(p + r.value["id_36"].s) ||
      (HasPrefix(s, p) && "fullname" in d && r.value["fullname"] == d["fullname"])
    ensures r.Err? ==> r.error == ValueError
  {
    if HasPrefix(s, p) then
      var full := if Truthy(Get(d, "fullname"), h) then d["fullname"] else VStr(s);
      var t := s[|p|..];
      assert s == p + t;
      (match Decode36(t)
       case Ok(n) => Ok(d["fullname" := full]["id_36" := VStr(t)]["id" := VInt(n)])
       case Err(e) => Err(e))
    else
      (match Decode36(s)
       case Ok(n) => Ok(d["fullname" := VStr(p + s)]["id_36" := VStr(s)]["id" := VInt(n)])
       case Err(e) => Err(e))
  }

  /** A truthy id that passes `isinstance(id, int)`: a non-zero int, or
      True, which Python's bool subclass of int lets through as 1. */
  predicate TruthyIntId(v: Value) {
    (v.VInt? && v.i != 0) || v == VBool(true)
  }

  /** The class `process_id` of Submission, Comment, Redditor and Subreddit,
      over the field map `d`. A non-empty string id is decoded; a truthy int
      (True included) gets its text and fullname and keeps its value;
      anything else leaves a submission unchanged and is a ValueError for
      the other three classes. */
  function ClassProcessId(k: Kind, d: Fields, h: Heap): (r: Result<Fields>)
    requires HasIdPrefix(k)
    requires FieldsClosed(d, |h|)
    ensures r.Ok? ==> FieldsClosed(r.value, |h|)
    ensures r.Ok? && (Get(d, "id").VInt? || Get(d, "id").VBool?) ==> "id" in r.value && r.value["id"] == d["id"]
  {
    var p := KindPrefix(k).value;
    var v := Get(d, "id");
    if v.VStr? && v.s != "" then StringId(d, h, v.s, p)
    else if TruthyIntId(v) then
      var n := if v.VInt? then v.i else 1;
      Ok(d["id_36" := VStr(Int2Base(n))]["fullname" := VStr(p + Int2Base(n))])
    else if k == Submission then Ok(d)
    else Err(ValueError)
  }

  /** A non-zero int id keeps its value and gains its base-36 text and fullname. */
  lemma ClassProcessIdInt(k: Kind, d: Fields, h: Heap)
    requires HasIdPrefix(k)
    requires FieldsClosed(d, |h|)
    requires "id" in d && d["id"].VInt? && d["id"].i != 0
    ensures var r := ClassProcessId(k, d, h);
      && r.Ok? && FieldsSynced(r.value) && r.value["id"] == d["id"]
      && r.value["fullname"] == VStr(KindPrefix(k).value + r.value["id_36"].s)
  {
    Int2BaseRoundTrip(d["id"].i);
  }

  /** A True id is taken as the int 1: its text is "1", its fullname the
      class prefix followed by "1", and the stored id stays True. That text
      decodes to 1, what `CreateObject.process_id` makes of True
      (`Codec.Int2BaseRoundTrip`). */
  lemma ClassProcessIdTrue(k: Kind, d: Fields, h: Heap)
    requires HasIdPrefix(k)
    requires FieldsClosed(d, |h|)
    requires "id" in d && d["id"] == VBool(true)
    ensures var r := ClassProcessId(k, d, h);
      && r.Ok? && r.value["id"] == VBool(true) && r.value["id_36"] == VStr("1")
      && r.value["fullname"] == VStr(KindPrefix(k).value + "1")
  {
    assert Int2Base(1) == [DigitChar(1)];
  }

  /** Any other id is rejected, except that a submission is left unchanged. */
  lemma ClassProcessIdOther(k: Kind, d: Fields, h: Heap)
    requires HasIdPrefix(k)
    requires FieldsClosed(d, |h|)
    requires var v := Get(d, "id"); !((v.VStr? && v.s != "") || TruthyIntId(v))
    ensures k == Submission ==> ClassProcessId(k, d, h) == Ok(d)
    ensures k != Submission ==> ClassProcessId(k, d, h) == Err(ValueError)
  {
  }

  /** On an int id the class `process_id` succeeds exactly for a non-zero id
      or a submission, and the id is kept. */
  lemma ClassProcessIdOnInt(k: Kind, d: Fields, h: Heap)
    requires HasIdPrefix(k)
    requires FieldsClosed(d, |h|)
    requires "id" in d && d["id"].VInt?
    ensures ClassProcessId(k, d, h).Ok? <==> k == Submission || d["id"].i != 0
    ensures ClassProcessId(k, d, h).Ok? ==> ClassProcessId(k, d, h).value["id"] == d["id"]
    ensures ClassProcessId(k, d, h).Err? ==> ClassProcessId(k, d, h).error == ValueError
  {
    if d["id"].i != 0 {
      ClassProcessIdInt(k, d, h);
    } else {
      ClassProcessIdOther(k, d, h);
    }
  }
}

=== FILE: load.dfy ===
/** The in-memory part of the loaders (load.py): the insertion-ordered dicts
    built from a JSON export, the time cutoff of `convert_to_object`, id
    lookup in `__getitem__`, and the dict merge of `__add__` / `__iadd__`.
    Reading the file is left to the caller: a loader is given the parsed
    JSON value. */
module Load {
  import opened PyValues

  // ------------------------------------------------------------ ordered dicts

  /** A Python dict as its entries in insertion order. */
  type Dict<K, V> = seq<(K, V)>

  /** `d.get(k)`. */
  function Get<K(==), V>(d: Dict<K, V>, k: K): Option<V> {
    if |d| == 0 then None else if d[0].0 == k then Some(d[0].1) else Get(d[1..], k)
  }

  function Keys<K, V>(d: Dict<K, V>): (ks: seq<K>)
    ensures |ks| == |d|
  {
    if |d| == 0 then [] else [d[0].0] + Keys(d[1..])
  }

  /** No key is listed twice, as in every Python dict. */
  predicate Distinct<K(==), V>(d: Dict<K, V>) {
    |d| == 0 || (Get(d[1..], d[0].0).None? && Distinct(d[1..]))
  }

  /** `d[k] = v`: an existing key keeps its place, a new one goes last. */
  function Put<K(==), V>(d: Dict<K, V>, k: K, v: V): Dict<K, V> {
    if |d| == 0 then [(k, v)]
    else if d[0].0 == k then [(k, v)] + d[1..]
    else [d[0]] + Put(d[1..], k, v)
  }

  lemma {:induction false} GetPut<K, V>(d: Dict<K, V>, k: K, v: V, k': K)
    ensures Get(Put(d, k, v), k') == if k' == k then Some(v) else Get(d, k')
  {
    if |d| > 0 && d[0].0 != k {
      GetPut(d[1..], k, v, k');
    }
  }

  lemma {:induction false} KeysPut<K, V>(d: Dict<K, V>, k: K, v: V)
    ensures Get(d, k).Some? ==> Keys(Put(d, k, v)) == Keys(d)
    ensures Get(d, k).None? ==> Keys(Put(d, k, v)) == Keys(d) + [k]
  {
    if |d| > 0 && d[0].0 != k {
      KeysPut(d[1..], k, v);
      assert [d[0].0] + (Keys(d[1..]) + [k]) == ([d[0].0] + Keys(d[1..])) + [k];
    }
  }

  lemma {:induction false} DistinctPut<K, V>(d: Dict<K, V>, k: K, v: V)
    requires Distinct(d)
    ensures Distinct(Put(d, k, v))
  {
    if |d| > 0 && d[0].0 != k {
      DistinctPut(d[1..], k, v);
      GetPut(d[1..], k, v, d[0].0);
    }
  }

  /** `a.update(b)`: the entries of `b` are put in order. */
  function Update<K(==), V>(a: Dict<K, V>, b: Dict<K, V>): Dict<K, V>
    decreases |b|
  {
    if |b| == 0 then a else Update(Put(a, b[0].0, b[0].1), b[1..])
  }

  /** The right operand wins on a shared key, a key of neither is absent,
      and the keys of `a` keep their order in front. */
  lemma {:induction false} UpdateSpec<K, V>(a: Dict<K, V>, b: Dict<K, V>, k: K)
    requires Distinct(a) && Distinct(b)
    ensures Distinct(Update(a, b))
    ensures Get(Update(a, b), k) == if Get(b, k).Some? then Get(b, k) else Get(a, k)
    ensures |Keys(a)| <= |Keys(Update(a, b))| && Keys(Update(a, b))[..|a|] == Keys(a)
    decreases |b|
  {
    if |b| > 0 {
      var a' := Put(a, b[0].0, b[0].1);
      DistinctPut(a, b[0].0, b[0].1);
      UpdateSpec(a', b[1..], k);
      GetPut(a, b[0].0, b[0].1, k);
      KeysPut(a, b[0].0, b[0].1);
      if k == b[0].0 {
        assert Get(b[1..], k).None?;
      }
      assert Keys(Update(a, b))[..|a|] == Keys(Update(a', b[1..]))[..|a'|][..|a|];
    }
  }

  /** `a + b` on loaders (load.py:85-89): a new dict updated with `a`, then `b`. */
  function Add<K(==), V>(a: Dict<K, V>, b: Dict<K, V>): Dict<K, V> {
    Update(Update([], a), b)
  }

  /** `b + a` reaching `a.__radd__(b)` (load.py:91-95). */
  function Radd<K(==), V>(a: Dict<K, V>, b: Dict<K, V>): Dict<K, V> {
    Update(Update([], b), a)
  }

  /** `a += b` (load.py:97-99): `a` is updated in place. */
  function Iadd<K(==), V>(a: Dict<K, V>, b: Dict<K, V>): Dict<K, V> {
    Update(a, b)
  }

  lemma {:induction false} GetAppend<K, V>(p: Dict<K, V>, s: Dict<K, V>, k: K)
    ensures Get(p + s, k) == if Get(p, k).Some? then Get(p, k) else Get(s, k)
  {
    if |p| == 0 {
      assert p + s == s;
    } else {
      assert (p + s)[1..] == p[1..] + s;
      GetAppend(p[1..], s, k);
    }
  }

  lemma {:induction false} GetNoneAppend<K, V>(p: Dict<K, V>, s: Dict<K, V>)
    requires Distinct(p + s) && |s| > 0
    ensures Get(p, s[0].0).None?
  {
    if |p| > 0 {
      assert (p + s)[1..] == p[1..] + s;
      assert (p + s)[0] == p[0];
      GetAppend(p[1..], s, s[0].0);
      GetNoneAppend(p[1..], s);
    }
  }

  lemma {:induction false} PutAbsent<K, V>(p: Dict<K, V>, k: K, v: V)
    requires Get(p, k).None?
    ensures Put(p, k, v) == p + [(k, v)]
  {
    if |p| > 0 {
      PutAbsent(p[1..], k, v);
    }
  }

  /** Updating with entries none of which is present appends them. */
  lemma {:induction false} UpdateAppends<K, V>(p: Dict<K, V>, s: Dict<K, V>)
    requires Distinct(p + s)
    ensures Update(p, s) == p + s
    decreases |s|
  {
    if |s| > 0 {
      GetNoneAppend(p, s);
      PutAbsent(p, s[0].0, s[0].1);
      assert (p + [s[0]]) + s[1..] == p + s;
      UpdateAppends(p + [s[0]], s[1..]);
    } else {
      assert p + s == p;
    }
  }

  /** A new dict updated with `a` is `a`: `a + b` builds the dict that
      `a += b` leaves in `a`, and `b + a` through `__radd__` is `b + a`
      through `__add__`. */
  lemma AddIsIadd<K, V>(a: Dict<K, V>, b: Dict<K, V>)
    requires Distinct(a)
    ensures Add(a, b) == Iadd(a, b)
    ensures Radd(b, a) == Add(a, b)
  {
    var e: Dict<K, V> := [];
    assert e + a == a;
    UpdateAppends(e, a);
  }

  // ------------------------------------------------------------ comprehensions

  /** What a comprehension stores for item `i`: its index, or one of its fields. */
  datatype Target = Index | Field(name: string)

  /** The fields a comprehension reads from an item. */
  predicate Present(item: Fields, key: string, t: Target) {
    key in item && (t.Field? ==> t.name in item)
  }

  function Entry(item: Fields, i: nat, t: Target): Value
    requires t.Field? ==> t.name in item
  {
    match t
    case Index => VInt(i)
    case Field(f) => item[f]
  }

  /** `{it[key]: <t> for i, it in enumerate(items[..n])}`: the key is read
      before the value, so the first item missing either is a KeyError. */
  function Comp(items: seq<Fields>, key: string, t: Target, n: nat): (r: Result<Dict<Value, Value>>)
    requires n <= |items|
    ensures r.Err? ==> r.error == KeyError
  {
    if n == 0 then Ok([])
    else
      var d :- Comp(items, key, t, n - 1);
      var it := items[n - 1];
      if !Present(it, key, t) then Err(KeyError) else Ok(Put(d, it[key], Entry(it, n - 1, t)))
  }

  lemma {:induction false} CompFails(items: seq<Fields>, key: string, t: Target, i: nat, n: nat)
    requires i < n <= |items| && !Present(items[i], key, t)
    ensures Comp(items, key, t, n) == Err(KeyError)
    decreases n
  {
    if n > i + 1 {
      CompFails(items, key, t, i, n - 1);
    }
  }

  predicate AllPresent(items: seq<Fields>, key: string, t: Target) {
    forall j | 0 <= j < |items| :: Present(items[j], key, t)
  }

  /** The comprehension as the loop it is (load.py:112, 151-153). */
  method Comprehend(items: seq<Fields>, key: string, t: Target) returns (r: Result<Dict<Value, Value>>)
    ensures r.Ok? <==> AllPresent(items, key, t)
    ensures r.Err? ==> r.error == KeyError
    ensures r == Comp(items, key, t, |items|)
  {
    var d: Dict<Value, Value> := [];
    var i := 0;
    while i < |items|
      invariant 0 <= i <= |items|
      invariant Comp(items, key, t, i) == Ok(d)
      invariant forall j | 0 <= j < i :: Present(items[j], key, t)
    {
      var it := items[i];
      if !Present(it, key, t) {
        CompFails(items, key, t, i, |items|);
        return Err(KeyError);
      }
      d := Put(d, it[key], Entry(it, i, t));
      i := i + 1;
    }
    r := Ok(d);
  }

  /** No item after `j` (and before `n`) has the key of item `j`. */
  predicate LastAt(items: seq<Fields>, key: string, j: nat, n: nat)
    requires j < n <= |items| && key in items[j]
  {
    forall l | j < l < n && key in items[l] :: items[l][key] != items[j][key]
  }

  /** Every item read carries the fields, the dict lists each key once, and
      it holds the entry of the last item with a given key: a later
      duplicate wins. */
  lemma {:induction false} CompSpec(items: seq<Fields>, key: string, t: Target, n: nat, j: nat)
    requires j < n <= |items| && Comp(items, key, t, n).Ok?
    ensures Present(items[j], key, t)
    ensures Distinct(Comp(items, key, t, n).value)
    ensures LastAt(items, key, j, n) ==>
      Get(Comp(items, key, t, n).value, items[j][key]) == Some(Entry(items[j], j, t))
    decreases n
  {
    if j < n - 1 {
      CompSpec(items, key, t, n - 1, j);
    } else if n - 1 > 0 {
      CompSpec(items, key, t, n - 1, 0);
    }
    var d := Comp(items, key, t, n - 1).value;
    var it := items[n - 1];
    DistinctPut(d, it[key], Entry(it, n - 1, t));
    GetPut(d, it[key], Entry(it, n - 1, t), items[j][key]);
  }

  /** A key the comprehension holds is the key of some item. */
  lemma {:induction false} CompKeys(items: seq<Fields>, key: string, t: Target, n: nat, k: Value)
    requires n <= |items| && Comp(items, key, t, n).Ok? && Get(Comp(items, key, t, n).value, k).Some?
    ensures exists j | 0 <= j < n :: key in items[j] && items[j][key] == k
    decreases n
  {
    var d := Comp(items, key, t, n - 1).value;
    var it := items[n - 1];
    GetPut(d, it[key], Entry(it, n - 1, t), k);
    if k != it[key] {
      CompKeys(items, key, t, n - 1, k);
    }
  }

  // ------------------------------------------------------------ loaders

  /** `[c for cs in comments.values() for c in cs]`: the per-submission lists
      concatenated in key order. */
  function Flatten(d: Dict<string, seq<Fields>>): seq<Fields> {
    if |d| == 0 then [] else d[0].1 + Flatten(d[1..])
  }

  /** A comment is in the flat list exactly when some submission's list
      holds it. */
  lemma {:induction false} FlattenMember(d: Dict<string, seq<Fields>>, c: Fields)
    ensures c in Flatten(d) <==> exists i | 0 <= i < |d| :: c in d[i].1
  {
    if |d| > 0 {
      FlattenMember(d[1..], c);
      if c in Flatten(d[1..]) {
        var i :| 0 <= i < |d[1..]| && c in d[1..][i].1;
        assert c in d[i + 1].1;
      }
      if exists i | 0 <= i < |d| :: c in d[i].1 {
        var i :| 0 <= i < |d| && c in d[i].1;
        if i > 0 {
          assert c in d[1..][i - 1].1;
        }
      }
    }
  }

  lemma {:induction false} DistinctPrefix<K, V>(p: Dict<K, V>, s: Dict<K, V>)
    requires Distinct(p + s)
    ensures Distinct(p)
  {
    if |p| > 0 {
      assert (p + s)[1..] == p[1..] + s;
      GetAppend(p[1..], s, p[0].0);
      DistinctPrefix(p[1..], s);
    }
  }

  lemma {:induction false} FlattenAppend(a: Dict<string, seq<Fields>>, b: Dict<string, seq<Fields>>)
    ensures Flatten(a + b) == Flatten(a) + Flatten(b)
  {
    if a == [] {
      assert a + b == b;
    } else {
      assert (a + b)[1..] == a[1..] + b;
      FlattenAppend(a[1..], b);
    }
  }

  /** Merging two comment exports about different submissions concatenates
      their flat lists. */
  lemma FlattenAdd(a: Dict<string, seq<Fields>>, b: Dict<string, seq<Fields>>)
    requires Distinct(a + b)
    ensures Flatten(Add(a, b)) == Flatten(a) + Flatten(b)
  {
    var e: Dict<string, seq<Fields>> := [];
    assert e + a == a;
    DistinctPrefix(a, b);
    UpdateAppends(e, a);
    UpdateAppends(a, b);
    FlattenAppend(a, b);
  }

  /** A loader's dicts: the items in order and, by item id, its index, and
      for comments its `link_id` and its `parent_id`. */
  datatype Loaded = Loaded(items: seq<Fields>, ids: Dict<Value, Value>,
                           links: Dict<Value, Value>, parents: Dict<Value, Value>)

  /** `LoadSubmissions.load` on a parsed list of submissions (load.py:110-113). */
  method LoadSubmissions(data: seq<Fields>) returns (r: Result<Loaded>)
    ensures r.Ok? <==> forall j | 0 <= j < |data| :: "id" in data[j]
    ensures r.Err? ==> r.error == KeyError
    ensures r.Ok? ==> r.value.items == data && Comp(data, "id", Index, |data|) == Ok(r.value.ids)
  {
    var ids :- Comprehend(data, "id", Index);
    r := Ok(Loaded(data, ids, [], []));
  }

  /** The fields `LoadComments.load` reads from every comment. */
  predicate AllShaped(cs: seq<Fields>) {
    forall j | 0 <= j < |cs| :: "id" in cs[j] && "link_id" in cs[j] && "parent_id" in cs[j]
  }

  lemma ShapedIff(cs: seq<Fields>)
    ensures AllShaped(cs) <==>
      AllPresent(cs, "id", Index) && AllPresent(cs, "id", Field("link_id")) && AllPresent(cs, "id", Field("parent_id"))
  {
    if !AllShaped(cs) {
      var j :| 0 <= j < |cs| && !("id" in cs[j] && "link_id" in cs[j] && "parent_id" in cs[j]);
      if "id" !in cs[j] {
        assert !Present(cs[j], "id", Index);
      } else if "link_id" !in cs[j] {
        assert !Present(cs[j], "id", Field("link_id"));
      } else {
        assert !Present(cs[j], "id", Field("parent_id"));
      }
    }
  }

  /** `LoadComments.load` on a parsed dict from submission id to comments
      (load.py:147-154). */
  method LoadComments(data: Dict<string, seq<Fields>>) returns (r: Result<Loaded>)
    ensures r.Ok? <==> AllShaped(Flatten(data))
    ensures r.Err? ==> r.error == KeyError
    ensures r.Ok? ==> r.value.items == Flatten(data)
    ensures r.Ok? ==> Comp(r.value.items, "id", Index, |r.value.items|) == Ok(r.value.ids)
    ensures r.Ok? ==> Comp(r.value.items, "id", Field("link_id"), |r.value.items|) == Ok(r.value.links)
    ensures r.Ok? ==> Comp(r.value.items, "id", Field("parent_id"), |r.value.items|) == Ok(r.value.parents)
  {
    var cs := Flatten(data);
    ShapedIff(cs);
    var ids :- Comprehend(cs, "id", Index);
    var links :- Comprehend(cs, "id", Field("link_id"));
    var parents :- Comprehend(cs, "id", Field("parent_id"));
    r := Ok(Loaded(cs, ids, links, parents));
  }

  /** `loader.__getitem__(idx, id)` (load.py:118-123, 159-164): neither given
      is a ValueError; an id alone goes through the id-to-index dict, a
      missing id being a KeyError; the index then reads the list. */
  function GetItem(l: Loaded, idx: Option<int>, id: Option<Value>): (r: Result<Fields>)
    ensures idx.None? && id.None? ==> r == Err(ValueError)
    ensures idx.Some? ==> r == PyIndex(l.items, idx.value)
    ensures idx.None? && id.Some? && Get(l.ids, id.value).None? ==> r == Err(KeyError)
  {
    if idx.None? && id.None? then Err(ValueError)
    else if idx.Some? then PyIndex(l.items, idx.value)
    else match Get<Value, Value>(l.ids, id.value)
      case None => Err(KeyError)
      case Some(VInt(i)) => PyIndex(l.items, i)
      case Some(_) => Err(TypeError)
  }

  /** The last index at or after `j` whose item has id `id`. */
  lemma {:induction false} LastFrom(items: seq<Fields>, id: Value, j: nat) returns (k: nat)
    requires j < |items| && "id" in items[j] && items[j]["id"] == id
    ensures j <= k < |items| && "id" in items[k] && items[k]["id"] == id
    ensures LastAt(items, "id", k, |items|)
    decreases |items| - j
  {
    if LastAt(items, "id", j, |items|) {
      k := j;
    } else {
      var l :| j < l < |items| && "id" in items[l] && items[l]["id"] == id;
      k := LastFrom(items, id, l);
    }
  }

  /** Looking up an id the loader holds returns the last item carrying it. */
  lemma GetItemById(l: Loaded, id: Value)
    requires Comp(l.items, "id", Index, |l.items|) == Ok(l.ids) && Get(l.ids, id).Some?
    ensures GetItem(l, None, Some(id)).Ok?
    ensures exists j | 0 <= j < |l.items| ::
      && GetItem(l, None, Some(id)).value == l.items[j]
      && "id" in l.items[j] && l.items[j]["id"] == id
      && LastAt(l.items, "id", j, |l.items|)
  {
    var n := |l.items|;
    CompKeys(l.items, "id", Index, n, id);
    var j0 :| 0 <= j0 < n && "id" in l.items[j0] && l.items[j0]["id"] == id;
    var j := LastFrom(l.items, id, j0);
    CompSpec(l.items, "id", Index, n, j);
  }

  // ------------------------------------------------------------ time cutoff

  /** Whether the module-wide `global_time_max` (None or an integer time)
      is truthy. */
  predicate CutoffOn(cutoff: Option<int>) {
    cutoff.Some? && cutoff.value != 0
  }

  /** Whether `convert_to_object` converts an item (load.py:34-37, 40-43):
      with a truthy cutoff, only items whose `created_utc` does not exceed
      it; a missing `created_utc` is a KeyError, one that cannot be compared
      with an integer a TypeError. With no cutoff, every item. */
  function TimeKept(item: Fields, cutoff: Option<int>): (r: Result<bool>)
    ensures !CutoffOn(cutoff) ==> r == Ok(true)
    ensures CutoffOn(cutoff) && "created_utc" !in item ==> r == Err(KeyError)
    ensures CutoffOn(cutoff) && "created_utc" in item && item["created_utc"].VInt? ==>
      r == Ok(item["created_utc"].i <= cutoff.value)
    ensures r.Err? ==> CutoffOn(cutoff) && r.error != ValueError
  {
    if !CutoffOn(cutoff) then Ok(true)
    else if "created_utc" !in item then Err(KeyError)
    else match item["created_utc"]
      case VInt(t) => Ok(!(t > cutoff.value))
      case VBool(b) => Ok(!((if b then 1 else 0) > cutoff.value))
      case _ => Err(TypeError)
  }
}

=== FILE: objects.dfy ===
/** The entity constructors and `CreateObject.create_object`.

  `CreateObject` fetches the registered instance of an id or constructs a new
  one; constructors resolve related instances through `CreateObject` again,
  so the two are mutually recursive. The nesting depth `n` stands for
  Python's recursion limit: running out of it is a RecursionError. Real
  records nest at most three constructions deep. */
module Objects {
  import opened PyValues
  import opened Codec
  import opened IdProcessing
  import opened Registry
  import opened Activity
  import opened ObjectSteps

  /** `CreateObject.create_object(d, k)`: the id is decoded; a registered id
      gets `dict.update` of its fields and nothing else happens; an unseen id
      is constructed and ends up registered under the decoded id. */
  method CreateObject(st: Store, d: Fields, k: Kind, n: nat) returns (r: Step<int>)
    requires Valid(st) && FieldsClosed(d, |st.heap|) && Buildable(k)
    ensures Valid(r.st) && Grows(st, r.st)
    ensures r.res.Ok? ==> Registered(r.st, k, r.res.value)
    ensures "id" !in d ==> r == Step(st, Err(KeyError))
    ensures "id" in d && ProcessId(d["id"], k).Err? ==> r == Step(st, Err(ProcessId(d["id"], k).error))
    ensures "id" in d && ProcessId(d["id"], k).Ok? ==>
      var id := ProcessId(d["id"], k).value;
      && (Registered(st, k, id) ==> r == Step(Merge(st, k, id, d["id" := VInt(id)]), Ok(id)))
      && (!Registered(st, k, id) && n == 0 ==> r == Step(st, Err(RecursionError)))
      && (r.res.Ok? ==> r.res.value == id)
    decreases n, 0
  {
    if "id" !in d {
      return Step(st, Err(KeyError));
    }
    match ProcessId(d["id"], k)
    case Err(e) =>
      r := Step(st, Err(e));
    case Ok(id) =>
      var d1 := d["id" := VInt(id)];
      if Registered(st, k, id) {
        r := Step(Merge(st, k, id, d1), Ok(id));
      } else if n == 0 {
        r := Step(st, Err(RecursionError));
      } else {
        r := Construct(st, d1, k, id, n - 1);
      }
  }

  /** `object_type2class[k](d)` for an unregistered id. Every class
      registers the new instance before anything can raise, so the id stays
      registered even when a later step fails; only the id 0, which the
      `process_id` of a redditor, subreddit or comment rejects, raises
      ValueError with nothing changed. */
  method Construct(st: Store, d: Fields, k: Kind, id: int, n: nat) returns (r: Step<int>)
    requires Valid(st) && FieldsClosed(d, |st.heap|) && Buildable(k)
    requires "id" in d && d["id"] == VInt(id) && !Registered(st, k, id)
    ensures Valid(r.st) && Grows(st, r.st)
    ensures r.res.Ok? ==> r.res.value == id && Registered(r.st, k, id)
    ensures (k == Redditor || k == Subreddit || k == Comment) && id == 0 ==> r == Step(st, Err(ValueError))
    ensures k == Submission || k == CommentTree || id != 0 ==> Registered(r.st, k, id)
    ensures (k == Redditor || k == Subreddit) && id != 0 ==> r.res == Ok(id)
    decreases n, 5
  {
    match k
    case Submission => r := SubmissionNew(st, d, id, n);
    case Comment => r := CommentNew(st, d, id, n);
    case Redditor => r := RedditorNew(st, d, id);
    case Subreddit => r := SubredditNew(st, d, id);
    case CommentTree => r := TreeNew(st, d, id, n);
  }

  // ------------------------------------------------------------ redditors and subreddits

  /** `self._data = self.process_id(d)` followed by `self._record[id] = self`:
      an int id that `process_id` accepts (any id for a submission, a
      non-zero one otherwise) joins its class's table with the processed
      fields, at the end of the insertion order. */
  function Admit(st: Store, k: Kind, d: Fields, id: int): (st': Store)
    requires Valid(st) && FieldsClosed(d, |st.heap|) && HasIdPrefix(k)
    requires "id" in d && d["id"] == VInt(id) && !Registered(st, k, id)
    requires k == Submission || id != 0
    ensures Valid(st') && Grows(st, st') && st'.heap == st.heap && Registered(st', k, id)
    ensures Tab(st', k).ents.Keys == Tab(st, k).ents.Keys + {id}
    ensures Tab(st', k).order == Tab(st, k).order + [id]
    ensures forall k' | k' != k :: Tab(st', k') == Tab(st, k')
  {
    ClassProcessIdOnInt(k, d, st.heap);
    Register(st, k, id, Bare(ClassProcessId(k, d, st.heap).value))
  }

  /** `Redditor(d)` (objects.py:752-767): an id of 0 is rejected before
      registration; otherwise exactly one instance joins the redditor table,
      at the end of its insertion order, and no other table changes. */
  function RedditorNew(st: Store, d: Fields, id: int): (r: Step<int>)
    requires Valid(st) && FieldsClosed(d, |st.heap|)
    requires "id" in d && d["id"] == VInt(id) && !Registered(st, Redditor, id)
    ensures Valid(r.st) && Grows(st, r.st)
    ensures id == 0 ==> r == Step(st, Err(ValueError))
    ensures id != 0 ==> r.res == Ok(id)
    ensures id != 0 ==>
      && Tab(r.st, Redditor).ents.Keys == Tab(st, Redditor).ents.Keys + {id}
      && Tab(r.st, Redditor).order == Tab(st, Redditor).order + [id]
      && forall k | k != Redditor :: Tab(r.st, k).ents.Keys == Tab(st, k).ents.Keys
  {
    if id == 0 then Step(st, Err(ValueError))
    else Step(RedditorDefaults(Admit(st, Redditor, d, id), id), Ok(id))
  }

  /** The four aggregates of a fresh redditor, each a new list (or a dict of
      two new lists) when missing or falsy. */
  function RedditorDefaults(st: Store, id: int): (st': Store)
    requires Valid(st) && Registered(st, Redditor, id)
    ensures Valid(st') && Grows(st, st') && SameKeys(st, st') && Registered(st', Redditor, id)
  {
    var st1 := FreshIfFalsy(st, Redditor, id, "comments_id");
    var st2 := FreshIfFalsy(st1, Redditor, id, "submissions_id");
    var st3 := FollowIfFalsy(st2, id);
    FreshIfFalsy(st3, Redditor, id, "activity")
  }

  /** `Subreddit(d)` (objects.py:793-802): as for a redditor, with two
      aggregates. */
  function SubredditNew(st: Store, d: Fields, id: int): (r: Step<int>)
    requires Valid(st) && FieldsClosed(d, |st.heap|)
    requires "id" in d && d["id"] == VInt(id) && !Registered(st, Subreddit, id)
    ensures Valid(r.st) && Grows(st, r.st)
    ensures id == 0 ==> r == Step(st, Err(ValueError))
    ensures id != 0 ==> r.res == Ok(id)
    ensures id != 0 ==>
      && Tab(r.st, Subreddit).ents.Keys == Tab(st, Subreddit).ents.Keys + {id}
      && Tab(r.st, Subreddit).order == Tab(st, Subreddit).order + [id]
      && forall k | k != Subreddit :: Tab(r.st, k).ents.Keys == Tab(st, k).ents.Keys
  {
    if id == 0 then Step(st, Err(ValueError))
    else Step(SubredditDefaults(Admit(st, Subreddit, d, id), id), Ok(id))
  }

  function SubredditDefaults(st: Store, id: int): (st': Store)
    requires Valid(st) && Registered(st, Subreddit, id)
    ensures Valid(st') && Grows(st, st') && SameKeys(st, st') && Registered(st', Subreddit, id)
  {
    FreshIfFalsy(FreshIfFalsy(st, Subreddit, id, "submissions_id"), Subreddit, id, "comments_id")
  }

  // ------------------------------------------------------------ posts

  /** The author link of a fresh post (objects.py:202-220 and 443-458): the
      redditor is fetched or created from the argument dict (no dict at all is
      a TypeError), then the post contributes to it. A ValueError, KeyError or
      TypeError anywhere leaves `_author` None; nothing else is caught. */
  method AuthorLink(st: Store, k: Kind, id: int, args: Option<Fields>, n: nat) returns (r: Step<()>)
    requires Valid(st) && Registered(st, k, id)
    requires args.Some? ==> FieldsClosed(args.value, |st.heap|)
    ensures Valid(r.st) && Grows(st, r.st)
    ensures r.res.Err? ==> !Caught(ValueKeyType, r.res.error)
    ensures args.None? ==> r == Step(SetRel(st, k, id, AuthorOf, None), Ok(()))
    decreases n, 1
  {
    if args.None? {
      return Settle(st, k, id, AuthorOf, ValueKeyType, Err(TypeError));
    }
    var c := CreateObject(st, args.value, Redditor, n);
    GrowsKeys(st, c.st, k);
    if c.res.Err? {
      assert SlotKind(AuthorOf) == Redditor;
      return Settle(c.st, k, id, AuthorOf, ValueKeyType, c.res);
    }
    r := AuthorAttach(c.st, k, id, c.res.value);
  }

  /** The author is stored, then the post is contributed to it; an exception
      while contributing is caught, and the author is reset to None. */
  method AuthorAttach(st: Store, k: Kind, id: int, rid: int) returns (r: Step<()>)
    requires Valid(st) && Registered(st, k, id) && Registered(st, Redditor, rid)
    ensures Valid(r.st) && Grows(st, r.st) && |r.st.heap| == |st.heap|
    ensures r.res.Err? ==> !Caught(ValueKeyType, r.res.error)
    ensures r.res.Ok? && Ent(r.st, k, id).author.Some? ==> Ent(r.st, k, id).author == Some(rid)
  {
    var st1 := SetRel(st, k, id, AuthorOf, Some(rid));
    var s := Contribute(st1, k, id, rid);
    r := if s.res.Err? then Settle(s.st, k, id, AuthorOf, ValueKeyType, Err(s.res.error)) else s;
  }

  /** The subreddit link (objects.py:232-237 and 477-488): as for the author,
      except that a submission only catches ValueError, so a submission
      without subreddit arguments raises TypeError. */
  method SubredditLink(st: Store, k: Kind, id: int, args: Option<Fields>, n: nat) returns (r: Step<()>)
    requires Valid(st) && Registered(st, k, id)
    requires args.Some? ==> FieldsClosed(args.value, |st.heap|)
    ensures Valid(r.st) && Grows(st, r.st)
    ensures r.res.Err? ==> !Caught(SubredditGuard(k), r.res.error)
    ensures args.None? && k == Submission ==> r == Step(st, Err(TypeError))
    ensures args.None? && k != Submission ==> r == Step(SetRel(st, k, id, SubredditOf, None), Ok(()))
    decreases n, 1
  {
    var g := SubredditGuard(k);
    if args.None? {
      return Settle(st, k, id, SubredditOf, g, Err(TypeError));
    }
    var c := CreateObject(st, args.value, Subreddit, n);
    GrowsKeys(st, c.st, k);
    if c.res.Err? {
      assert SlotKind(SubredditOf) == Subreddit;
      return Settle(c.st, k, id, SubredditOf, g, c.res);
    }
    r := SubredditAttach(c.st, k, id, c.res.value);
  }

  /** The subreddit is stored, then lists the post; an exception while
      listing it is handled by the same guard. */
  method SubredditAttach(st: Store, k: Kind, id: int, sid: int) returns (r: Step<()>)
    requires Valid(st) && Registered(st, k, id) && Registered(st, Subreddit, sid)
    ensures Valid(r.st) && Grows(st, r.st) && |r.st.heap| == |st.heap|
    ensures r.res.Err? ==> !Caught(SubredditGuard(k), r.res.error)
    ensures r.res.Ok? && Ent(r.st, k, id).subreddit.Some? ==> Ent(r.st, k, id).subreddit == Some(sid)
  {
    var st1 := SetRel(st, k, id, SubredditOf, Some(sid));
    var s := AppendField(st1, Subreddit, sid, PostList(k), Id(id));
    r := if s.res.Err? then Settle(s.st, k, id, SubredditOf, SubredditGuard(k), Err(s.res.error)) else s;
  }

  /** `Submission(d)` (objects.py:185-278) for an unregistered id: the
      submission is registered, as its own `_submission`, before anything can
      raise. */
  method SubmissionNew(st: Store, d: Fields, id: int, n: nat) returns (r: Step<int>)
    requires Valid(st) && FieldsClosed(d, |st.heap|)
    requires "id" in d && d["id"] == VInt(id) && !Registered(st, Submission, id)
    ensures Valid(r.st) && Grows(st, r.st)
    ensures Registered(r.st, Submission, id)
    ensures r.res.Ok? ==> r.res.value == id
    decreases n, 4
  {
    var st1 := Admit(st, Submission, d, id);
    var st2 := SetRel(st1, Submission, id, SubmissionOf, Some(id));
    var (st3, args) := AuthorDecode(st2, Submission, id);
    var s4 := AuthorLink(st3, Submission, id, args, n);
    if s4.res.Err? {
      return Step(s4.st, Err(s4.res.error));
    }
    var s5 := SubredditDecode(s4.st, Submission, id);
    if s5.res.Err? {
      return Step(s5.st, Err(s5.res.error));
    }
    var s6 := SubredditLink(s5.st, Submission, id, s5.res.value, n);
    if s6.res.Err? {
      return Step(s6.st, Err(s6.res.error));
    }
    var s7 := SubmissionDefaults(s6.st, id);
    if s7.res.Err? {
      return Step(s7.st, Err(s7.res.error));
    }
    var s8 := SubmissionTree(s7.st, id, n);
    r := Step(s8.st, if s8.res.Err? then Err(s8.res.error) else Ok(id));
  }

  /** The submission's comment tree (objects.py:268-278): a tree keyed by the
      submission's id that shares its two lists; only a ValueError is
      caught. */
  method SubmissionTree(st: Store, id: int, n: nat) returns (r: Step<()>)
    requires Valid(st) && Registered(st, Submission, id)
    ensures Valid(r.st) && Grows(st, r.st) && Registered(r.st, Submission, id)
    ensures r.res.Err? ==> r.res.error != ValueError
    ensures var d := Ent(st, Submission, id).data;
      !("id_36" in d && "fullname" in d && "comments_id" in d && "comments_total_id" in d) ==>
      r == Step(st, Err(KeyError))
    decreases n, 1
  {
    var d := Ent(st, Submission, id).data;
    if !("id_36" in d && "fullname" in d && "comments_id" in d && "comments_total_id" in d) {
      return Step(st, Err(KeyError));
    }
    var c := CreateObject(st, SubmissionTreeArgs(st, id), CommentTree, n);
    GrowsKeys(st, c.st, Submission);
    assert SlotKind(TreeOf) == CommentTree;
    r := Settle(c.st, Submission, id, TreeOf, ValueOnly, c.res);
  }

  /** `Comment(d)` (objects.py:398-555) for an unregistered id; an id of 0 is
      rejected before registration. */
  method CommentNew(st: Store, d: Fields, id: int, n: nat) returns (r: Step<int>)
    requires Valid(st) && FieldsClosed(d, |st.heap|)
    requires "id" in d && d["id"] == VInt(id) && !Registered(st, Comment, id)
    ensures Valid(r.st) && Grows(st, r.st)
    ensures id == 0 ==> r == Step(st, Err(ValueError))
    ensures id != 0 ==> Registered(r.st, Comment, id)
    ensures r.res.Ok? ==> r.res.value == id
    decreases n, 4
  {
    if id == 0 {
      return Step(st, Err(ValueError));
    }
    var st1 := Admit(st, Comment, d, id);
    var s2 := LinkSubmission(st1, id, n);
    if s2.res.Err? {
      return Step(s2.st, Err(s2.res.error));
    }
    var (st3, args) := AuthorDecode(s2.st, Comment, id);
    var s4 := AuthorLink(st3, Comment, id, args, n);
    if s4.res.Err? {
      return Step(s4.st, Err(s4.res.error));
    }
    var s5 := CommentRelations(s4.st, id, n);
    r := Step(s5.st, if s5.res.Err? then Err(s5.res.error) else Ok(id));
  }

  /** The rest of `Comment(d)` after its author (objects.py:462-555): the
      subreddit, the parent chain and the parent, two new lists, the tree. */
  method CommentRelations(st: Store, id: int, n: nat) returns (r: Step<()>)
    requires Valid(st) && Registered(st, Comment, id)
    ensures Valid(r.st) && Grows(st, r.st) && Registered(r.st, Comment, id)
    decreases n, 3
  {
    var s1 := SubredditDecode(st, Comment, id);
    var s2 := SubredditLink(s1.st, Comment, id, s1.res.value, n);
    if s2.res.Err? {
      return s2;
    }
    var st3 := ParentDecode(s2.st, id);
    var s4 := Thread(st3, id);
    if s4.res.Err? {
      return Step(s4.st, Err(s4.res.error));
    }
    var s5 := ParentLink(s4.st, id, n);
    if s5.res.Err? {
      return s5;
    }
    r := CommentLists(s5.st, id, n);
  }

  /** A comment's own two lists start empty (objects.py:535-537), then its
      tree is linked. */
  method CommentLists(st: Store, id: int, n: nat) returns (r: Step<()>)
    requires Valid(st) && Registered(st, Comment, id)
    ensures Valid(r.st) && Grows(st, r.st) && Registered(r.st, Comment, id)
    decreases n, 2
  {
    var st1 := FreshList(st, Comment, id, "comments_id");
    var st2 := FreshList(st1, Comment, id, "comments_total_id");
    r := CommentTreeLink(st2, id, n);
  }

  /** The comment's submission (objects.py:400-419): a falsy or undecodable
      `link_id` leaves none; a registered submission is taken as it is;
      otherwise a skeleton `{"id": link_id}` is created, and only a ValueError
      from that is caught. */
  method LinkSubmission(st: Store, id: int, n: nat) returns (r: Step<()>)
    requires Valid(st) && Registered(st, Comment, id)
    ensures Valid(r.st) && Grows(st, r.st) && Registered(r.st, Comment, id)
    ensures r.res.Err? ==> r.res.error != ValueError
    ensures var lv := FieldOf(st, Comment, id, "link_id");
      !Truthy(lv, st.heap) || ForeignId(lv, "t3_").Err? ==>
      r == Step(SetRel(st, Comment, id, SubmissionOf, None), Ok(()))
    ensures var lv := FieldOf(st, Comment, id, "link_id");
      Truthy(lv, st.heap) && ForeignId(lv, "t3_").Ok? && Registered(st, Submission, ForeignId(lv, "t3_").value.id) ==>
      var x := ForeignId(lv, "t3_").value;
      r.res.Ok? && Ent(r.st, Comment, id).submission == Some(x.id)
    decreases n, 1
  {
    var lv := FieldOf(st, Comment, id, "link_id");
    if !Truthy(lv, st.heap) || ForeignId(lv, "t3_").Err? {
      return Settle(st, Comment, id, SubmissionOf, ValueOnly, Err(ValueError));
    }
    var x := ForeignId(lv, "t3_").value;
    var st1 := SetTriple(st, Comment, id, LinkKeys, Some(x));
    if Registered(st1, Submission, x.id) {
      return Settle(st1, Comment, id, SubmissionOf, ValueOnly, Ok(x.id));
    }
    var c := CreateObject(st1, map["id" := VInt(x.id)], Submission, n);
    GrowsKeys(st1, c.st, Comment);
    assert SlotKind(SubmissionOf) == Submission;
    r := Settle(c.st, Comment, id, SubmissionOf, ValueOnly, c.res);
  }

  /** The comment's parent (objects.py:519-533): the submission when the
      parent id is falsy or is the submission's id (with no submission, a
      truthy parent id raises AttributeError), else the comment of that id,
      which then lists this comment in both of its lists. */
  method ParentLink(st: Store, id: int, n: nat) returns (r: Step<()>)
    requires Valid(st) && Registered(st, Comment, id)
    ensures Valid(r.st) && Grows(st, r.st) && Registered(r.st, Comment, id)
    ensures r.res.Err? ==> !Caught(ValueKey, r.res.error)
    ensures var e := Ent(st, Comment, id);
      ChooseParent(FieldOf(st, Comment, id, "parent_id"), e.submission, st.heap) == ToSubmission ==>
      r == Step(SetRel(st, Comment, id, ParentOf(Submission), e.submission), Ok(()))
    ensures var e := Ent(st, Comment, id);
      ChooseParent(FieldOf(st, Comment, id, "parent_id"), e.submission, st.heap) == NoSubmission ==>
      r == Step(st, Err(AttributeError))
    ensures var e := Ent(st, Comment, id);
      var pv := FieldOf(st, Comment, id, "parent_id");
      ChooseParent(pv, e.submission, st.heap) == ToComment ==> ParentCommentSpec(st, id, pv, r)
    decreases n, 2
  {
    EntOk(st, Comment, id);
    var sub := Ent(st, Comment, id).submission;
    var pv := FieldOf(st, Comment, id, "parent_id");
    match ChooseParent(pv, sub, st.heap)
    case ToSubmission =>
      r := Step(SetRel(st, Comment, id, ParentOf(Submission), sub), Ok(()));
    case NoSubmission =>
      r := Step(st, Err(AttributeError));
    case ToComment =>
      r := ParentComment(st, id, pv, n);
  }

  /** The parent comment of id `pv` is fetched or created; a ValueError or
      KeyError from that leaves the parent None. */
  method ParentComment(st: Store, id: int, pv: Value, n: nat) returns (r: Step<()>)
    requires Valid(st) && Registered(st, Comment, id) && ValueClosed(pv, |st.heap|)
    ensures Valid(r.st) && Grows(st, r.st) && Registered(r.st, Comment, id)
    ensures r.res.Err? ==> !Caught(ValueKey, r.res.error)
    ensures ParentCommentSpec(st, id, pv, r)
    decreases n, 1
  {
    var d := map["id" := pv];
    var c := CreateObject(st, d, Comment, n);
    var pr := ProcessId(pv, Comment);
    if pr.Ok? && Registered(st, Comment, pr.value) {
      MergeIdNoop(st, Comment, pr.value);
      assert d["id" := VInt(pr.value)] == map["id" := VInt(pr.value)];
    }
    assert Fetched(st, pv, c);
    assert Registered(c.st, Comment, id);
    if c.res.Err? {
      r := ParentDropped(st, id, pv, c);
    } else {
      r := ParentAdopted(st, id, pv, c);
    }
  }

  /** The comment's own tree (objects.py:539-555), sharing its two lists; a
      comment missing one of the tree's fields gets no tree. */
  method CommentTreeLink(st: Store, id: int, n: nat) returns (r: Step<()>)
    requires Valid(st) && Registered(st, Comment, id)
    ensures Valid(r.st) && Grows(st, r.st)
    ensures r.res.Err? ==> !Caught(ValueKey, r.res.error)
    ensures !CommentTreeReady(st, id) ==> r == Step(SetRel(st, Comment, id, TreeOf, None), Ok(()))
    decreases n, 1
  {
    if !CommentTreeReady(st, id) {
      return Settle(st, Comment, id, TreeOf, ValueKey, Err(KeyError));
    }
    var c := CreateObject(st, CommentTreeArgs(st, id), CommentTree, n);
    GrowsKeys(st, c.st, Comment);
    assert SlotKind(TreeOf) == CommentTree;
    r := Settle(c.st, Comment, id, TreeOf, ValueKey, c.res);
  }

  // ------------------------------------------------------------ comment trees

  /** `CommentTree(d)` (objects.py:828-883); the tree class has no
      `process_id`, so its fields are kept as given, and it is registered
      before anything can raise. */
  method TreeNew(st: Store, d: Fields, id: int, n: nat) returns (r: Step<int>)
    requires Valid(st) && FieldsClosed(d, |st.heap|)
    requires "id" in d && d["id"] == VInt(id) && !Registered(st, CommentTree, id)
    ensures Valid(r.st) && Grows(st, r.st)
    ensures Registered(r.st, CommentTree, id)
    ensures r.res.Ok? ==> r.res.value == id
    decreases n, 4
  {
    var st1 := Register(st, CommentTree, id, Bare(d));
    var s2 := Inherit(st1, id, "comments_id", n);
    if s2.res.Err? {
      return Step(s2.st, Err(s2.res.error));
    }
    var s3 := Inherit(s2.st, id, "comments_total_id", n);
    if s3.res.Err? {
      return Step(s3.st, Err(s3.res.error));
    }
    var s4 := TreeHead(s3.st, id, n);
    if s4.res.Err? {
      return Step(s4.st, Err(s4.res.error));
    }
    var s5 := TreeSubmission(s4.st, id, n);
    r := Step(s5.st, if s5.res.Err? then Err(s5.res.error) else Ok(id));
  }

  /** A tree with a falsy list takes its head's list by reference
      (objects.py:831-851): the submission's when `HeadSource` names it (a
      ValueError creating it gives a new empty list instead), the registered
      comment's, or else a new empty list. A truthy list is kept. */
  method Inherit(st: Store, tid: int, key: string, n: nat) returns (r: Step<()>)
    requires Valid(st) && Registered(st, CommentTree, tid) && key != "id"
    ensures Valid(r.st) && Grows(st, r.st) && Registered(r.st, CommentTree, tid)
    ensures r.res.Err? ==> r.res.error != ValueError
    ensures FieldTruthy(st, CommentTree, tid, key) ==> r == Step(st, Ok(()))
    ensures !FieldTruthy(st, CommentTree, tid, key) && HeadSource(st, tid).Err? ==> r == Step(st, Err(KeyError))
    ensures !FieldTruthy(st, CommentTree, tid, key) && HeadSource(st, tid) == Ok(Some(Comment)) ==>
      r == Borrow(st, tid, Comment, tid, key)
    ensures !FieldTruthy(st, CommentTree, tid, key) && HeadSource(st, tid) == Ok(None) ==>
      r == Step(FreshList(st, CommentTree, tid, key), Ok(()))
    ensures !FieldTruthy(st, CommentTree, tid, key) && Registered(st, Submission, tid) ==>
      r == Borrow(Merge(st, Submission, tid, map["id" := VInt(tid)]), tid, Submission, tid, key)
    decreases n, 2
  {
    if FieldTruthy(st, CommentTree, tid, key) {
      return Step(st, Ok(()));
    }
    match HeadSource(st, tid)
    case Err(e) =>
      r := Step(st, Err(e));
    case Ok(None) =>
      r := Step(FreshList(st, CommentTree, tid, key), Ok(()));
    case Ok(Some(hk)) =>
      if hk == Comment {
        return Borrow(st, tid, Comment, tid, key);
      }
      r := InheritSubmission(st, tid, key, n);
  }

  /** The submission branch of `Inherit`: `create_submission({"id": tid})`,
      whose list is taken; a ValueError gives a new empty list instead. */
  method InheritSubmission(st: Store, tid: int, key: string, n: nat) returns (r: Step<()>)
    requires Valid(st) && Registered(st, CommentTree, tid) && key != "id"
    ensures Valid(r.st) && Grows(st, r.st) && Registered(r.st, CommentTree, tid)
    ensures r.res.Err? ==> r.res.error != ValueError
    ensures Registered(st, Submission, tid) ==>
      r == Borrow(Merge(st, Submission, tid, map["id" := VInt(tid)]), tid, Submission, tid, key)
    decreases n, 1
  {
    var d := map["id" := VInt(tid)];
    assert d["id" := VInt(tid)] == d;
    var c := CreateObject(st, d, Submission, n);
    if c.res.Ok? {
      r := Borrow(c.st, tid, Submission, c.res.value, key);
    } else if c.res.error == ValueError {
      r := Step(FreshList(c.st, CommentTree, tid, key), Ok(()));
    } else {
      r := Step(c.st, Err(c.res.error));
    }
  }

  /** The tree's head (objects.py:853-878): the submission of the same id when
      `submission_id` equals the tree id, else the comment of the same id;
      only a ValueError creating it is caught. A falsy `submission_id`
      reaches `id in record.get("submission_id")`, a TypeError. */
  method TreeHead(st: Store, tid: int, n: nat) returns (r: Step<()>)
    requires Valid(st) && Registered(st, CommentTree, tid)
    ensures Valid(r.st) && Grows(st, r.st) && Registered(r.st, CommentTree, tid)
    ensures r.res.Err? ==> r.res.error != ValueError
    ensures !FieldTruthy(st, CommentTree, tid, "submission_id") ==> r == Step(st, Err(TypeError))
    decreases n, 2
  {
    var sv := FieldOf(st, CommentTree, tid, "submission_id");
    if !Truthy(sv, st.heap) {
      return Step(st, Err(TypeError));
    }
    var k := if PyEq(sv, VInt(tid), st.heap) then Submission else Comment;
    r := HeadLink(st, tid, k, n);
  }

  /** `self._head = create_object({"id": tid}, k)`, ValueError caught. */
  method HeadLink(st: Store, tid: int, k: Kind, n: nat) returns (r: Step<()>)
    requires Valid(st) && Registered(st, CommentTree, tid) && Buildable(k)
    ensures Valid(r.st) && Grows(st, r.st) && Registered(r.st, CommentTree, tid)
    ensures r.res.Err? ==> r.res.error != ValueError
    ensures Registered(st, k, tid) ==> r.res.Ok? && Ent(r.st, CommentTree, tid).head == Some(Ref(k, tid))
    decreases n, 1
  {
    assert ProcessId(VInt(tid), k) == Ok(tid);
    var c := CreateObject(st, map["id" := VInt(tid)], k, n);
    GrowsKeys(st, c.st, CommentTree);
    assert SlotKind(HeadOf(k)) == k;
    r := Settle(c.st, CommentTree, tid, HeadOf(k), ValueOnly, c.res);
  }

  /** `self._submission = create_submission({"id": self._data["submission_id"]})`
      (objects.py:880-883); only a ValueError is caught. */
  method TreeSubmission(st: Store, tid: int, n: nat) returns (r: Step<()>)
    requires Valid(st) && Registered(st, CommentTree, tid)
    ensures Valid(r.st) && Grows(st, r.st)
    ensures r.res.Err? ==> r.res.error != ValueError
    ensures "submission_id" !in Ent(st, CommentTree, tid).data ==> r == Step(st, Err(KeyError))
    decreases n, 1
  {
    if "submission_id" !in Ent(st, CommentTree, tid).data {
      return Step(st, Err(KeyError));
    }
    var c := CreateObject(st, map["id" := FieldOf(st, CommentTree, tid, "submission_id")], Submission, n);
    GrowsKeys(st, c.st, CommentTree);
    assert SlotKind(SubmissionOf) == Submission;
    r := Settle(c.st, CommentTree, tid, SubmissionOf, ValueOnly, c.res);
  }
}

=== FILE: pipeline.dfy ===
/** The driver (data_processor.py): `access_attribute`, the ingest-then-repair
    order of `generate_data_objects`, the loaders' `convert_to_object`
    passes it runs, and the per-type views of `DataProcessorReddit`. */
module Pipeline {
  import opened PyValues
  import opened Registry
  import opened Objects
  import opened Repair
  import opened TreeUpdate
  import opened IdProcessing
  import Load

  // ------------------------------------------------------------ access_attribute

  /** A Python object reached from the registry: an instance, or a field value. */
  datatype Obj = OEntity(ref: Ref) | OValue(v: Value)

  function RelObj(k: Kind, id: Option<int>): Option<Obj> {
    if id.Some? then Some(OEntity(Ref(k, id.value))) else None
  }

  function RefObj(r: Option<Ref>): Option<Obj> {
    if r.Some? then Some(OEntity(r.value)) else None
  }

  /** The attribute names an instance or its class defines itself, which
      `getattr` finds before it falls back to `__getattr__` and the fields. */
  const InstanceAttrs: set<string> :=
    {"_submission", "_author", "_subreddit", "_comment_tree", "_parent", "_head", "processed", "object_type"}

  /** `getattr(o, name, None)`, with `None` for Python's None: the relation
      attributes, the `processed` flag, the class attribute `object_type`,
      and otherwise the field of that name through `__getattr__`. The
      registered instance is always the first one built for its id
      (objects.py:73-88), so its `processed` flag is still False. */
  function Attr(st: Store, o: Obj, name: string): (r: Option<Obj>)
    ensures r.Some? ==> r.value != OValue(VNone)
    ensures o.OEntity? && Registered(st, o.ref.kind, o.ref.id) && name == "processed" ==> r == Some(OValue(VBool(false)))
    ensures o.OEntity? && Registered(st, o.ref.kind, o.ref.id) && name !in InstanceAttrs ==>
      var d := Ent(st, o.ref.kind, o.ref.id).data;
      (r.Some? <==> name in d && d[name] != VNone) && (r.Some? ==> r.value == OValue(d[name]))
  {
    match o
    case OValue(_) => None
    case OEntity(ref) =>
      if !Registered(st, ref.kind, ref.id) then None
      else
        var e := Ent(st, ref.kind, ref.id);
        if name == "_submission" then RelObj(Submission, e.submission)
        else if name == "_author" then RelObj(Redditor, e.author)
        else if name == "_subreddit" then RelObj(Subreddit, e.subreddit)
        else if name == "_comment_tree" then RelObj(CommentTree, e.tree)
        else if name == "_parent" then RefObj(e.parent)
        else if name == "_head" then RefObj(e.head)
        else if name == "processed" then Some(OValue(VBool(false)))
        else if name == "object_type" then Some(OValue(VStr(KindName(ref.kind))))
        else if name in e.data && e.data[name] != VNone then Some(OValue(e.data[name]))
        else None
  }

  /** The chain `o.a1.a2...` read attribute by attribute, None as soon as a
      link is None. */
  function Access(st: Store, o: Option<Obj>, attrs: seq<string>): (r: Option<Obj>)
    ensures attrs == [] ==> r == o
    ensures attrs != [] && o.None? ==> r.None?
    decreases |attrs|
  {
    if attrs == [] then o
    else if o.None? then None
    else Access(st, Attr(st, o.value, attrs[0]), attrs[1..])
  }

  /** `access_attribute(obj, attributes)` (data_processor.py:21-25), the loop
      that stops at the first None. */
  method AccessAttribute(st: Store, obj: Option<Obj>, attributes: seq<string>) returns (r: Option<Obj>)
    ensures r == Access(st, obj, attributes)
    ensures attributes == [] ==> r == obj
  {
    var cur := obj;
    var i := 0;
    while i < |attributes|
      invariant 0 <= i <= |attributes|
      invariant Access(st, obj, attributes) == Access(st, cur, attributes[i..])
    {
      assert attributes[i..][1..] == attributes[i + 1..];
      cur := if cur.None? then None else Attr(st, cur.value, attributes[i]);
      if cur.None? {
        return None;
      }
      i := i + 1;
    }
    r := cur;
  }

  /** `access_attribute(obj, a + b)` is `access_attribute(access_attribute(obj, a), b)`:
      a chain reads as nested attribute access. */
  lemma {:induction false} AccessCompose(st: Store, o: Option<Obj>, a: seq<string>, b: seq<string>)
    ensures Access(st, o, a + b) == Access(st, Access(st, o, a), b)
    decreases |a|
  {
    if a == [] {
      assert a + b == b;
    } else if o.Some? {
      assert (a + b)[0] == a[0];
      assert (a + b)[1..] == a[1..] + b;
      AccessCompose(st, Attr(st, o.value, a[0]), a[1..], b);
    }
  }

  /** Once a prefix of the chain is None, so is every longer chain: the
      lookup never raises for a missing attribute. */
  lemma AccessStops(st: Store, o: Option<Obj>, a: seq<string>, b: seq<string>)
    requires a != [] && Access(st, o, a).None?
    ensures Access(st, o, a + b).None?
  {
    AccessCompose(st, o, a, b);
  }

  /** `access_attribute(post, ["_author", "id"])` is the author's id when the
      post has an author. */
  lemma AccessAuthorId(st: Store, k: Kind, pid: int)
    requires Valid(st) && Registered(st, k, pid) && Ent(st, k, pid).author.Some?
    ensures Access(st, Some(OEntity(Ref(k, pid))), ["_author", "id"])
         == Some(OValue(VInt(Ent(st, k, pid).author.value)))
  {
    var rid := Ent(st, k, pid).author.value;
    EntOk(st, k, pid);
    EntOk(st, Redditor, rid);
    assert ["_author", "id"][1..] == ["id"];
  }

  // ------------------------------------------------------------ convert_to_object

  /** Whether item `j` passes the time cutoff. */
  predicate Kept(items: seq<Fields>, cutoff: Option<int>, j: int) {
    0 <= j < |items| && Load.TimeKept(items[j], cutoff) == Ok(true)
  }

  predicate AllItemsPlain(items: seq<Fields>) {
    forall j | 0 <= j < |items| :: AllPlain(items[j])
  }

  /** One iteration of `convert_to_object`: the cutoff test, then the
      converter; `None` when the item is skipped. */
  method ConvertOne(st: Store, item: Fields, cutoff: Option<int>, k: Kind, n: nat) returns (r: Step<Option<int>>)
    requires Valid(st) && AllPlain(item) && (k == Submission || k == Comment)
    ensures Valid(r.st) && Grows(st, r.st)
    ensures Load.TimeKept(item, cutoff).Err? ==> r == Step(st, Err(Load.TimeKept(item, cutoff).error))
    ensures Load.TimeKept(item, cutoff) == Ok(false) ==> r == Step(st, Ok(None))
    ensures r.res.Ok? ==> (r.res.value.Some? <==> Load.TimeKept(item, cutoff) == Ok(true))
    ensures r.res.Ok? && r.res.value.Some? ==>
      && Load.TimeKept(item, cutoff) == Ok(true)
      && "id" in item && ProcessId(item["id"], k) == Ok(r.res.value.value)
      && Registered(r.st, k, r.res.value.value)
  {
    match Load.TimeKept(item, cutoff)
    case Err(e) =>
      r := Step(st, Err(e));
    case Ok(keep) =>
      if !keep {
        return Step(st, Ok(None));
      }
      var c := CreateObject(st, item, k, n);
      if c.res.Err? {
        return Step(c.st, Err(c.res.error));
      }
      r := Step(c.st, Ok(Some(c.res.value)));
  }

  /** `submissions.convert_to_object(create_submission)` (load.py:28-44): the
      result maps each converted item's position in the list to its
      registry id, so a skipped item leaves a gap. */
  method ConvertSubmissions(st: Store, items: seq<Fields>, cutoff: Option<int>, n: nat) returns (r: Step<map<int, int>>)
    requires Valid(st) && AllItemsPlain(items)
    ensures Valid(r.st) && Grows(st, r.st)
    ensures r.res.Ok? ==> forall j :: j in r.res.value <==> Kept(items, cutoff, j)
    ensures r.res.Ok? ==> forall j | j in r.res.value && 0 <= j < |items| ::
      && "id" in items[j] && ProcessId(items[j]["id"], Submission) == Ok(r.res.value[j])
      && Registered(r.st, Submission, r.res.value[j])
  {
    var cur := st;
    var objs: map<int, int> := map[];
    var i := 0;
    while i < |items|
      invariant 0 <= i <= |items|
      invariant Valid(cur) && Grows(st, cur)
      invariant KeptBelow(objs, items, cutoff, i)
      invariant forall j | j in objs && 0 <= j < |items| ::
        && "id" in items[j] && ProcessId(items[j]["id"], Submission) == Ok(objs[j])
        && Registered(cur, Submission, objs[j])
    {
      var c := ConvertOne(cur, items[i], cutoff, Submission, n);
      if c.res.Err? {
        return Step(c.st, Err(c.res.error));
      }
      cur := c.st;
      if c.res.value.Some? {
        KeptStep(objs, items, cutoff, i, c.res.value.value);
        objs := objs[i := c.res.value.value];
      } else {
        KeptSkip(objs, items, cutoff, i);
      }
      i := i + 1;
    }
    r := Step(cur, Ok(objs));
  }

  /** `objects_dict[link].append(obj)`, creating the list on first use. */
  function Group(d: Load.Dict<Value, seq<int>>, key: Value, x: int): Load.Dict<Value, seq<int>> {
    Load.Put(d, key, (if Load.Get(d, key).Some? then Load.Get(d, key).value else []) + [x])
  }

  /** The number of objects held in all the groups. */
  function Total(d: Load.Dict<Value, seq<int>>): nat {
    if |d| == 0 then 0 else |d[0].1| + Total(d[1..])
  }

  /** Grouping one more object adds one to the total, whatever its key. */
  lemma {:induction false} TotalGroup(d: Load.Dict<Value, seq<int>>, key: Value, x: int)
    ensures Total(Group(d, key, x)) == Total(d) + 1
  {
    var s := if Load.Get(d, key).Some? then Load.Get(d, key).value else [];
    TotalPut(d, key, s + [x]);
  }

  lemma {:induction false} TotalPut(d: Load.Dict<Value, seq<int>>, key: Value, v: seq<int>)
    ensures Load.Get(d, key).Some? ==> Total(Load.Put(d, key, v)) == Total(d) - |Load.Get(d, key).value| + |v|
    ensures Load.Get(d, key).None? ==> Total(Load.Put(d, key, v)) == Total(d) + |v|
  {
    if |d| > 0 && d[0].0 != key {
      TotalPut(d[1..], key, v);
    }
  }

  /** What `comments.convert_to_object` leaves behind: the converted
      objects by position, and `objects_dict`, the objects grouped by the
      `link_id` of their comment. */
  datatype Converted = Converted(objs: map<int, int>, groups: Load.Dict<Value, seq<int>>)

  /** The grouping step after a comment is converted (load.py:179-182): its
      `id_36` is read from the object, then looked up among the loaded
      comments' link ids; a miss at either is a KeyError. */
  function GroupComment(st: Store, l: Load.Loaded, groups: Load.Dict<Value, seq<int>>, id: int): (r: Result<Load.Dict<Value, seq<int>>>)
    requires Registered(st, Comment, id)
    ensures r.Ok? ==> Total(r.value) == Total(groups) + 1
    ensures "id_36" !in Ent(st, Comment, id).data ==> r == Err(KeyError)
    ensures r.Err? ==> r.error == KeyError
  {
    var id36 :- Lookup(Ent(st, Comment, id).data, "id_36");
    match Load.Get<Value, Value>(l.links, id36)
    case None => Err(KeyError)
    case Some(link) =>
      TotalGroup(groups, link, id);
      Ok(Group(groups, link, id))
  }

  /** The converted positions below `i` are exactly those that pass the cutoff. */
  predicate KeptBelow(objs: map<int, int>, items: seq<Fields>, cutoff: Option<int>, i: int) {
    && (forall j | j in objs :: j < i && Kept(items, cutoff, j))
    && (forall j | 0 <= j < i && Kept(items, cutoff, j) :: j in objs)
  }

  lemma KeptStep(objs: map<int, int>, items: seq<Fields>, cutoff: Option<int>, i: int, id: int)
    requires KeptBelow(objs, items, cutoff, i) && Kept(items, cutoff, i)
    ensures i !in objs && |objs[i := id]| == |objs| + 1
    ensures KeptBelow(objs[i := id], items, cutoff, i + 1)
  {
  }

  lemma KeptSkip(objs: map<int, int>, items: seq<Fields>, cutoff: Option<int>, i: int)
    requires KeptBelow(objs, items, cutoff, i) && !Kept(items, cutoff, i)
    ensures KeptBelow(objs, items, cutoff, i + 1)
  {
  }

  /** One iteration of the comment pass: the conversion, then the grouping. */
  method ConvertGrouped(st: Store, l: Load.Loaded, item: Fields, groups: Load.Dict<Value, seq<int>>,
                        cutoff: Option<int>, n: nat)
    returns (r: Step<Option<(int, Load.Dict<Value, seq<int>>)>>)
    requires Valid(st) && AllPlain(item)
    ensures Valid(r.st) && Grows(st, r.st)
    ensures r.res.Ok? ==> (r.res.value.Some? <==> Load.TimeKept(item, cutoff) == Ok(true))
    ensures r.res.Ok? && r.res.value.Some? ==>
      && "id" in item && ProcessId(item["id"], Comment) == Ok(r.res.value.value.0)
      && Registered(r.st, Comment, r.res.value.value.0)
      && Total(r.res.value.value.1) == Total(groups) + 1
  {
    var c := ConvertOne(st, item, cutoff, Comment, n);
    if c.res.Err? {
      return Step(c.st, Err(c.res.error));
    }
    if c.res.value.None? {
      return Step(c.st, Ok(None));
    }
    var id := c.res.value.value;
    var g := GroupComment(c.st, l, groups, id);
    if g.Err? {
      return Step(c.st, Err(g.error));
    }
    r := Step(c.st, Ok(Some((id, g.value))));
  }

  /** `comments.convert_to_object(create_comment)` (load.py:169-192): as for
      submissions, and each converted object also joins the group of its
      submission, so the groups hold one entry per converted item. */
  method ConvertComments(st: Store, l: Load.Loaded, cutoff: Option<int>, n: nat) returns (r: Step<Converted>)
    requires Valid(st) && AllItemsPlain(l.items)
    ensures Valid(r.st) && Grows(st, r.st)
    ensures r.res.Ok? ==> forall j :: j in r.res.value.objs <==> Kept(l.items, cutoff, j)
    ensures r.res.Ok? ==> forall j | j in r.res.value.objs && 0 <= j < |l.items| ::
      && "id" in l.items[j] && ProcessId(l.items[j]["id"], Comment) == Ok(r.res.value.objs[j])
      && Registered(r.st, Comment, r.res.value.objs[j])
    ensures r.res.Ok? ==> Total(r.res.value.groups) == |r.res.value.objs|
  {
    var items := l.items;
    var cur := st;
    var objs: map<int, int> := map[];
    var groups: Load.Dict<Value, seq<int>> := [];
    var i := 0;
    while i < |items|
      invariant 0 <= i <= |items|
      invariant Valid(cur) && Grows(st, cur)
      invariant KeptBelow(objs, items, cutoff, i)
      invariant forall j | j in objs && 0 <= j < |items| ::
        && "id" in items[j] && ProcessId(items[j]["id"], Comment) == Ok(objs[j])
        && Registered(cur, Comment, objs[j])
      invariant Total(groups) == |objs|
    {
      var c := ConvertGrouped(cur, l, items[i], groups, cutoff, n);
      if c.res.Err? {
        return Step(c.st, Err(c.res.error));
      }
      cur := c.st;
      if c.res.value.Some? {
        KeptStep(objs, items, cutoff, i, c.res.value.value.0);
        objs := objs[i := c.res.value.value.0];
        groups := c.res.value.value.1;
      } else {
        KeptSkip(objs, items, cutoff, i);
      }
      i := i + 1;
    }
    r := Step(cur, Ok(Converted(objs, groups)));
  }

  // ------------------------------------------------------------ repair passes

  /** A comment with a submission has a parent. */
  predicate Parented(st: Store, c: int)
    requires Registered(st, Comment, c)
  {
    Ent(st, Comment, c).parent.Some? || Ent(st, Comment, c).submission.None?
  }

  /** `for comment in record["comment"].values(): comment.update_parent()`
      (data_processor.py:44-46). No comment is added, so the dict iteration
      never fails, and afterwards every comment with a submission has a
      parent. */
  method UpdateParentAll(st: Store) returns (r: Step<()>)
    requires Valid(st)
    ensures Valid(r.st) && Grows(st, r.st) && SameKeys(st, r.st)
    ensures r.res.Ok? ==> forall c | c in Tab(st, Comment).ents ::
      Registered(r.st, Comment, c) && Parented(r.st, c)
  {
    ValidTab(st, Comment);
    var order := Tab(st, Comment).order;
    var cur := st;
    var i := 0;
    while i < |order|
      invariant 0 <= i <= |order|
      invariant Valid(cur) && Grows(st, cur) && SameKeys(st, cur)
      invariant AllParented(cur, order[..i])
    {
      assert order[i] in Tab(st, Comment).ents;
      var s := UpdateParent(cur, order[i]);
      if s.res.Err? {
        return s;
      }
      UpdateParentLinks(cur, order[i]);
      ParentedStep(cur, s.st, order, i);
      cur := s.st;
      i := i + 1;
    }
    assert order[..i] == order;
    r := Step(cur, Ok(()));
  }

  predicate AllParented(st: Store, cs: seq<int>) {
    forall j | 0 <= j < |cs| :: Registered(st, Comment, cs[j]) && Parented(st, cs[j])
  }

  /** `update_parent` on one more comment keeps the comments already
      repaired repaired. */
  lemma ParentedStep(st: Store, st': Store, order: seq<int>, i: nat)
    requires i < |order| && NoDups(order) && AllParented(st, order[..i])
    requires OthersKept(st, st', order[i])
    requires Registered(st', Comment, order[i]) && Parented(st', order[i])
    ensures AllParented(st', order[..i + 1])
  {
    forall j | 0 <= j < i + 1
      ensures Registered(st', Comment, order[j]) && Parented(st', order[j])
    {
      if j < i {
        assert order[j] != order[i];
        assert order[..i][j] == order[j];
      }
    }
    assert forall j | 0 <= j < i + 1 :: order[..i + 1][j] == order[j];
  }

  lemma {:induction false} SeqSetCard(s: seq<int>)
    requires NoDups(s)
    ensures |set x | x in s| == |s|
  {
    if s != [] {
      SeqSetCard(s[1..]);
      assert (set x | x in s) == {s[0]} + (set x | x in s[1..]);
    }
  }

  /** A table holds as many instances as its insertion order lists. */
  lemma TableCard(t: Table, h: nat)
    requires TableOk(t, h)
    ensures |t.ents| == |t.order|
  {
    SeqSetCard(t.order);
    forall x | x in (set y | y in t.order)
      ensures x in t.ents.Keys
    {
      var i :| 0 <= i < |t.order| && t.order[i] == x;
    }
    forall x | x in t.ents.Keys
      ensures x in (set y | y in t.order)
    {
      assert x in t.ents;
    }
    assert t.ents.Keys == set x | x in t.order;
  }

  lemma SubsetCard(a: set<int>, b: set<int>)
    requires a <= b && |a| == |b|
    ensures a == b
  {
    assert a * b == a && a + b == b;
    assert |b - a| == 0;
    assert b - a == {};
  }

  /** `for tree in record["comment_tree"].values(): tree.update_attr()`
      (data_processor.py:47-49). An `update_attr` that registers a new tree
      changes the size of the dict being iterated, which Python reports as a
      RuntimeError at the next step of the loop; a pass that succeeds has
      therefore created no tree. */
  method UpdateAttrAll(st: Store, fuel: nat, n: nat) returns (r: Step<()>)
    requires Valid(st)
    ensures Valid(r.st) && Grows(st, r.st)
    ensures r.res.Ok? ==> Tab(r.st, CommentTree).ents.Keys == Tab(st, CommentTree).ents.Keys
    ensures Tab(st, CommentTree).order == [] ==> r == Step(st, Ok(()))
  {
    ValidTab(st, CommentTree);
    var order := Tab(st, CommentTree).order;
    var size := |Tab(st, CommentTree).ents|;
    var cur := st;
    var i := 0;
    while i < |order|
      invariant 0 <= i <= |order|
      invariant Valid(cur) && Grows(st, cur)
      invariant |Tab(cur, CommentTree).ents| == size
      invariant i == 0 ==> cur == st
    {
      assert order[i] in Tab(st, CommentTree).ents;
      var s := UpdateAttr(cur, order[i], fuel, n);
      if s.res.Err? {
        return s;
      }
      cur := s.st;
      if |Tab(cur, CommentTree).ents| != size {
        return Step(cur, Err(RuntimeError));
      }
      i := i + 1;
    }
    GrowsKeys(st, cur, CommentTree);
    SubsetCard(Tab(st, CommentTree).ents.Keys, Tab(cur, CommentTree).ents.Keys);
    r := Step(cur, Ok(()));
  }

  // ------------------------------------------------------------ generate_data_objects

  /** The loaders' results once the registry is built. */
  datatype Outcome = Outcome(submissions: map<int, int>, comments: Converted)

  /** `generate_data_objects(submissions, comments)` (data_processor.py:37-50):
      every submission is converted before any comment, then every comment
      is repaired, then every comment tree; the registry is the result. */
  method GenerateDataObjects(st: Store, subs: Load.Loaded, coms: Load.Loaded, cutoff: Option<int>, fuel: nat, n: nat)
    returns (r: Step<Outcome>)
    requires Valid(st) && AllItemsPlain(subs.items) && AllItemsPlain(coms.items)
    ensures Valid(r.st) && Grows(st, r.st)
    ensures r.res.Ok? ==> forall j :: j in r.res.value.submissions <==> Kept(subs.items, cutoff, j)
    ensures r.res.Ok? ==> forall j :: j in r.res.value.comments.objs <==> Kept(coms.items, cutoff, j)
    ensures r.res.Ok? ==> forall j | j in r.res.value.submissions :: Registered(r.st, Submission, r.res.value.submissions[j])
    ensures r.res.Ok? ==> forall j | j in r.res.value.comments.objs :: Registered(r.st, Comment, r.res.value.comments.objs[j])
    ensures r.res.Ok? ==> Total(r.res.value.comments.groups) == |r.res.value.comments.objs|
  {
    var a := ConvertSubmissions(st, subs.items, cutoff, n);
    if a.res.Err? {
      return Step(a.st, Err(a.res.error));
    }
    var b := ConvertComments(a.st, coms, cutoff, n);
    if b.res.Err? {
      return Step(b.st, Err(b.res.error));
    }
    var c := UpdateParentAll(b.st);
    if c.res.Err? {
      return Step(c.st, Err(c.res.error));
    }
    var d := UpdateAttrAll(c.st, fuel, n);
    if d.res.Err? {
      return Step(d.st, Err(d.res.error));
    }
    r := Step(d.st, Ok(Outcome(a.res.value, b.res.value)));
  }

  // ------------------------------------------------------------ DataProcessorReddit

  /** `record[return_type]`: the table of the object type so named, or a
      KeyError for a name no class registered. */
  function ReturnKind(name: string): (r: Result<Kind>)
    ensures r.Ok? ==> KindName(r.value) == name
    ensures r.Err? ==> r.error == KeyError && forall k: Kind :: KindName(k) != name
  {
    if name == "submission" then Ok(Submission)
    else if name == "comment" then Ok(Comment)
    else if name == "redditor" then Ok(Redditor)
    else if name == "subreddit" then Ok(Subreddit)
    else if name == "comment_tree" then Ok(CommentTree)
    else if name == "reddit_object" then Ok(RedditObject)
    else Err(KeyError)
  }

  /** The integer a dict key hashes and compares as, if any. */
  function IntKey(v: Value): Option<int> {
    match v
    case VInt(i) => Some(i)
    case VBool(b) => Some(if b then 1 else 0)
    case _ => None
  }

  /** Whether Python can hash the value as a dict key: a list or a dict
      cannot be. */
  predicate Hashable(v: Value) {
    !v.VList? && !v.VFollow?
  }

  /** `processor[item]` (data_processor.py:139-140): the registered instance
      of the chosen type under that id. An unknown type name is KeyError
      before the item is looked at; an unhashable item is then TypeError,
      and a hashable one that is no registered id is KeyError. */
  function ProcessorGetItem(st: Store, name: string, item: Value): (r: Result<Ref>)
    ensures r.Ok? ==> KindName(r.value.kind) == name && Registered(st, r.value.kind, r.value.id)
    ensures r.Ok? ==> IntKey(item) == Some(r.value.id)
    ensures ReturnKind(name).Ok? && IntKey(item).Some? ==>
      (r.Ok? <==> Registered(st, ReturnKind(name).value, IntKey(item).value))
    ensures r.Err? ==> r.error == KeyError || r.error == TypeError
    ensures r == Err(TypeError) <==> ReturnKind(name).Ok? && !Hashable(item)
  {
    var k :- ReturnKind(name);
    if !Hashable(item) then Err(TypeError)
    else match IntKey(item)
    case None => Err(KeyError)
    case Some(id) => if Registered(st, k, id) then Ok(Ref(k, id)) else Err(KeyError)
  }

  /** `len(processor)` (data_processor.py:142-143). */
  function ProcessorLen(st: Store, name: string): (r: Result<nat>)
    ensures r.Err? ==> r.error == KeyError
    ensures r.Ok? <==> ReturnKind(name).Ok?
  {
    var k :- ReturnKind(name);
    Ok(|Tab(st, k).ents|)
  }

  /** `iter(processor)` (data_processor.py:145-146): iterating a dict yields
      its keys, so this is the ids in insertion order. */
  function ProcessorIter(st: Store, name: string): (r: Result<seq<int>>)
    requires Valid(st)
    ensures r.Err? ==> r.error == KeyError
    ensures r.Ok? ==> ReturnKind(name).Ok? && forall id :: id in r.value <==> Registered(st, ReturnKind(name).value, id)
    ensures r.Ok? ==> NoDups(r.value)
  {
    var k :- ReturnKind(name);
    ValidTab(st, k);
    Ok(Tab(st, k).order)
  }

  /** The length, indexing and iteration views agree: iteration yields as
      many ids as the length says, and each one can be looked up. */
  lemma ProcessorViewsAgree(st: Store, name: string)
    requires Valid(st) && ReturnKind(name).Ok?
    ensures ProcessorLen(st, name).value == |ProcessorIter(st, name).value|
    ensures forall id | id in ProcessorIter(st, name).value ::
      ProcessorGetItem(st, name, VInt(id)) == Ok(Ref(ReturnKind(name).value, id))
  {
    var k := ReturnKind(name).value;
    ValidTab(st, k);
    TableCard(Tab(st, k), |st.heap|);
  }
}

=== FILE: py_values.dfy ===
/** Python-level values as the object engine sees them.

  Every entity keeps its attributes in a field map (`_data`), whose values are
  either JSON scalars read from an export record, or references to mutable
  Python lists. Lists live in a heap (a sequence of cells) so that two field
  maps holding the same list see each other's appends, exactly as two Python
  names bound to one list object do.
 */
module PyValues {

  datatype Option<+T> = None | Some(value: T)

  /** The Python exception classes the engine raises or catches. */
  datatype Exc = ValueError | KeyError | TypeError | AttributeError | IndexError | RecursionError | RuntimeError

  datatype Result<+T> = Ok(value: T) | Err(error: Exc) {
    predicate IsFailure() { Err? }
    function PropagateFailure<U>(): Result<U> requires Err? { Err(error) }
    function Extract(): T requires Ok? { value }
  }

  /** The `object_type` of each class; `RedditObject` is the base class, whose
      registry table exists but is never filled. */
  datatype Kind = Submission | Comment | Redditor | Subreddit | CommentTree | RedditObject

  function KindName(k: Kind): string {
    match k
    case Submission => "submission"
    case Comment => "comment"
    case Redditor => "redditor"
    case Subreddit => "subreddit"
    case CommentTree => "comment_tree"
    case RedditObject => "reddit_object"
  }

  /** A field value. `VOpaque` stands for any other JSON value (floats, nested
      arrays and objects); its code is zero exactly when the value is falsy.
      `VList` is a Python list held in the heap; `VFollow` is a redditor's
      `no_follow` dict, whose two members are heap lists. */
  datatype Value =
    | VNone
    | VBool(b: bool)
    | VInt(i: int)
    | VStr(s: string)
    | VOpaque(code: int)
    | VList(ref: nat)
    | VFollow(subs: nat, coms: nat)

  /** An element of a heap list: an id, an activity tuple
      `(created_utc, id, object_type)`, or a parent-chain pair `(id, object_type)`. */
  datatype Item = Id(id: int) | Act(time: Value, aid: int, kind: Kind) | Link(lid: int, lkind: Kind)

  type Fields = map<string, Value>
  type Heap = seq<seq<Item>>

  /** A value that can come out of a JSON record: no heap reference. */
  predicate Plain(v: Value) {
    !v.VList? && !v.VFollow?
  }

  predicate AllPlain(d: Fields) {
    forall k | k in d :: Plain(d[k])
  }

  /** Every heap reference in `v` points into a heap of `n` cells. */
  predicate ValueClosed(v: Value, n: nat) {
    match v
    case VList(r) => r < n
    case VFollow(a, b) => a < n && b < n
    case _ => true
  }

  predicate FieldsClosed(d: Fields, n: nat) {
    forall k | k in d :: ValueClosed(d[k], n)
  }

  lemma FieldsClosedMono(d: Fields, n: nat, m: nat)
    requires FieldsClosed(d, n) && n <= m
    ensures FieldsClosed(d, m)
  {
  }

  /** Python truthiness of a plain value. */
  predicate TruthyPlain(v: Value)
    requires Plain(v)
  {
    match v
    case VNone => false
    case VBool(b) => b
    case VInt(i) => i != 0
    case VStr(s) => s != ""
    case VOpaque(c) => c != 0
  }

  /** Python truthiness: a list is truthy when non-empty, a dict of two keys always. */
  predicate Truthy(v: Value, h: Heap)
    requires ValueClosed(v, |h|)
  {
    match v
    case VList(r) => h[r] != []
    case VFollow(_, _) => true
    case _ => TruthyPlain(v)
  }

  /** `d.get(k)`: the stored value, or None when the key is absent. */
  function Get(d: Fields, k: string): (v: Value)
    ensures k !in d ==> v == VNone
    ensures k in d ==> v == d[k]
  {
    if k in d then d[k] else VNone
  }

  /** `d[k]`: the stored value, or KeyError when the key is absent. */
  function Lookup(d: Fields, k: string): (r: Result<Value>)
    ensures r.Ok? <==> k in d
    ensures r.Ok? ==> r.value == d[k]
    ensures r.Err? ==> r.error == KeyError
  {
    if k in d then Ok(d[k]) else Err(KeyError)
  }

  /** `s[i]` on a Python list: a negative index counts from the end; an
      index outside the list is an IndexError. */
  function PyIndex<T>(s: seq<T>, i: int): (r: Result<T>)
    ensures r.Ok? <==> -|s| <= i < |s|
    ensures r.Err? ==> r.error == IndexError
    ensures 0 <= i < |s| ==> r == Ok(s[i])
    ensures -|s| <= i < 0 ==> r == Ok(s[|s| + i])
  {
    if 0 <= i < |s| then Ok(s[i])
    else if -|s| <= i < 0 then Ok(s[|s| + i])
    else Err(IndexError)
  }

  /** Python `==` between two values: `True == 1` and `False == 0`, lists by content. */
  predicate PyEq(a: Value, b: Value, h: Heap)
    requires ValueClosed(a, |h|) && ValueClosed(b, |h|)
  {
    match (a, b)
    case (VList(r), VList(s)) => h[r] == h[s]
    case (VInt(i), VBool(c)) => i == (if c then 1 else 0)
    case (VBool(c), VInt(i)) => i == (if c then 1 else 0)
    case _ => a == b
  }
}

=== FILE: registry.dfy ===
/** The process-wide registry `record`: one table per object type mapping an
    integer id to the single live instance, plus the heap of Python lists the
    instances' fields refer to. The registry is passed and returned as a value. */
module Registry {
  import opened PyValues

  /** A non-owning reference to a registered instance. */
  datatype Ref = Ref(kind: Kind, id: int)

  /** One instance: its `_data` field map and its object attributes
      (`_submission`, `_author`, `_subreddit`, `_parent`, `_comment_tree`,
      `_head`), each holding the registry key of the related instance. */
  datatype Entity = Entity(
    data: Fields,
    submission: Option<int>,
    author: Option<int>,
    subreddit: Option<int>,
    parent: Option<Ref>,
    tree: Option<int>,
    head: Option<Ref>)

  function Bare(d: Fields): Entity {
    Entity(d, None, None, None, None, None, None)
  }

  /** `record[object_type]`: the instances by id, and the order in which the ids
      were inserted (the iteration order of the Python dict). */
  datatype Table = Table(ents: map<int, Entity>, order: seq<int>)

  datatype Store = Store(
    submissions: Table,
    comments: Table,
    redditors: Table,
    subreddits: Table,
    trees: Table,
    base: Table,
    heap: Heap)

  const EmptyTable: Table := Table(map[], [])

  /** The registry at module load: every class has registered an empty table. */
  const EmptyStore: Store := Store(EmptyTable, EmptyTable, EmptyTable, EmptyTable, EmptyTable, EmptyTable, [])

  function Tab(st: Store, k: Kind): Table {
    match k
    case Submission => st.submissions
    case Comment => st.comments
    case Redditor => st.redditors
    case Subreddit => st.subreddits
    case CommentTree => st.trees
    case RedditObject => st.base
  }

  function WithTab(st: Store, k: Kind, t: Table): (st': Store)
    ensures Tab(st', k) == t && st'.heap == st.heap
    ensures forall k' | k' != k :: Tab(st', k') == Tab(st, k')
  {
    match k
    case Submission => st.(submissions := t)
    case Comment => st.(comments := t)
    case Redditor => st.(redditors := t)
    case Subreddit => st.(subreddits := t)
    case CommentTree => st.(trees := t)
    case RedditObject => st.(base := t)
  }

  predicate Registered(st: Store, k: Kind, id: int) {
    id in Tab(st, k).ents
  }

  function Ent(st: Store, k: Kind, id: int): (e: Entity)
    requires Registered(st, k, id)
  {
    Tab(st, k).ents[id]
  }

  // ------------------------------------------------------------ well-formedness

  predicate NoDups<T(==)>(s: seq<T>) {
    forall i, j | 0 <= i < j < |s| :: s[i] != s[j]
  }

  /** An instance stored under `id`: its `id` field is that integer and its
      fields only refer to existing heap lists. */
  predicate EntityOk(e: Entity, id: int, n: nat) {
    "id" in e.data && e.data["id"] == VInt(id) && FieldsClosed(e.data, n)
  }

  /** The insertion order lists every key exactly once. */
  predicate TableOk(t: Table, n: nat) {
    && NoDups(t.order)
    && (forall i | 0 <= i < |t.order| :: t.order[i] in t.ents)
    && (forall id | id in t.ents :: id in t.order)
    && (forall id {:trigger t.ents[id]} | id in t.ents :: EntityOk(t.ents[id], id, n))
  }

  /** Every relation attribute of `e` names an instance registered in `st`. */
  predicate RelsIn(e: Entity, st: Store) {
    && (e.submission.Some? ==> Registered(st, Submission, e.submission.value))
    && (e.author.Some? ==> Registered(st, Redditor, e.author.value))
    && (e.subreddit.Some? ==> Registered(st, Subreddit, e.subreddit.value))
    && (e.parent.Some? ==> Registered(st, e.parent.value.kind, e.parent.value.id))
    && (e.tree.Some? ==> Registered(st, CommentTree, e.tree.value))
    && (e.head.Some? ==> Registered(st, e.head.value.kind, e.head.value.id))
  }

  predicate TablesOk(st: Store) {
    forall k: Kind :: TableOk(Tab(st, k), |st.heap|)
  }

  predicate Linked(st: Store) {
    forall k: Kind, id {:trigger Tab(st, k).ents[id]} | id in Tab(st, k).ents :: RelsIn(Tab(st, k).ents[id], st)
  }

  /** The registry invariant: well-formed tables, and no instance refers to an
      unregistered one. */
  predicate Valid(st: Store) {
    TablesOk(st) && Linked(st)
  }

  lemma ValidTab(st: Store, k: Kind)
    requires Valid(st)
    ensures TableOk(Tab(st, k), |st.heap|)
  {
  }

  /** What the invariant says about one registered instance. */
  lemma EntOk(st: Store, k: Kind, id: int)
    requires Valid(st) && Registered(st, k, id)
    ensures EntityOk(Ent(st, k, id), id, |st.heap|) && RelsIn(Ent(st, k, id), st)
  {
  }

  lemma EmptyStoreValid()
    ensures Valid(EmptyStore)
    ensures forall k :: Tab(EmptyStore, k).ents == map[]
  {
    forall k: Kind ensures TableOk(Tab(EmptyStore, k), 0) {
    }
  }

  /** No instance is ever removed and the heap only grows. */
  ghost predicate Grows(st: Store, st': Store) {
    && |st.heap| <= |st'.heap|
    && forall k: Kind, id | Registered(st, k, id) :: Registered(st', k, id)
  }

  /** The same instances in the same insertion order; only fields, relation
      attributes and the heap may differ. */
  predicate SameKeys(st: Store, st': Store) {
    forall k: Kind :: Tab(st', k).ents.Keys == Tab(st, k).ents.Keys && Tab(st', k).order == Tab(st, k).order
  }

  /** Two steps in a row keep the instances of the first state. */
  lemma SameKeysTrans(a: Store, b: Store, c: Store)
    requires Grows(a, b) && SameKeys(a, b) && Grows(b, c) && SameKeys(b, c)
    ensures Grows(a, c) && SameKeys(a, c)
  {
  }

  lemma GrowsKeys(st: Store, st': Store, k: Kind)
    requires Grows(st, st')
    ensures Tab(st, k).ents.Keys <= Tab(st', k).ents.Keys
  {
    forall id | id in Tab(st, k).ents
      ensures id in Tab(st', k).ents
    {
      assert Registered(st, k, id);
    }
  }

  lemma RelsInMono(e: Entity, st: Store, st': Store)
    requires RelsIn(e, st) && Grows(st, st')
    ensures RelsIn(e, st')
  {
    if e.parent.Some? {
      GrowsKeys(st, st', e.parent.value.kind);
    }
    if e.head.Some? {
      GrowsKeys(st, st', e.head.value.kind);
    }
  }

  lemma TableOkMono(t: Table, n: nat, m: nat)
    requires TableOk(t, n) && n <= m
    ensures TableOk(t, m)
  {
    forall id | id in t.ents
      ensures EntityOk(t.ents[id], id, m)
    {
      FieldsClosedMono(t.ents[id].data, n, m);
    }
  }

  // ------------------------------------------------------------ steps

  /** The outcome of an operation on the registry: the registry afterwards
      (Python keeps every mutation made before an exception) and either a
      value or the exception raised. */
  datatype Step<+T> = Step(st: Store, res: Result<T>) {
    predicate IsFailure() { res.Err? }
    function PropagateFailure<U>(): Step<U> requires res.Err? { Step(st, Err(res.error)) }
    function Extract(): (Store, T) requires res.Ok? { (st, res.value) }
  }

  // ------------------------------------------------------------ mutations

  /** `self._record[id] = self`: a fresh id joins its table at the end of the
      insertion order. */
  function Register(st: Store, k: Kind, id: int, e: Entity): (st': Store)
    requires Valid(st) && !Registered(st, k, id) && EntityOk(e, id, |st.heap|) && RelsIn(e, st)
    ensures Valid(st') && Grows(st, st') && st'.heap == st.heap
    ensures Tab(st', k).ents == Tab(st, k).ents[id := e]
    ensures Tab(st', k).order == Tab(st, k).order + [id]
    ensures forall k' | k' != k :: Tab(st', k') == Tab(st, k')
  {
    var t := Tab(st, k);
    var t' := Table(t.ents[id := e], t.order + [id]);
    ValidTab(st, k);
    TableOkAdd(t, id, e, |st.heap|);
    var st' := WithTab(st, k, t');
    LinkedUpdate(st, st', k, id, e);
    st'
  }

  /** Changing or adding one instance whose relations are registered keeps the
      registry linked. */
  lemma LinkedUpdate(st: Store, st': Store, k: Kind, id: int, e: Entity)
    requires Linked(st) && RelsIn(e, st)
    requires Tab(st', k).ents == Tab(st, k).ents[id := e]
    requires forall k' | k' != k :: Tab(st', k') == Tab(st, k')
    ensures Linked(st')
  {
    assert forall k' :: Tab(st, k').ents.Keys <= Tab(st', k').ents.Keys by {
      forall k' ensures Tab(st, k').ents.Keys <= Tab(st', k').ents.Keys {
        if k' == k {
        }
      }
    }
    forall k', i | i in Tab(st', k').ents
      ensures RelsIn(Tab(st', k').ents[i], st')
    {
      if k' == k && i == id {
        RelsInMono0(e, st, st');
      } else {
        assert Tab(st', k').ents[i] == Tab(st, k').ents[i];
        RelsInMono0(Tab(st, k').ents[i], st, st');
      }
    }
  }

  /** Linkage only depends on the tables, not on the heap. */
  lemma LinkedSameTables(st: Store, st': Store)
    requires Linked(st) && forall k: Kind :: Tab(st', k) == Tab(st, k)
    ensures Linked(st')
  {
    forall k: Kind, i | i in Tab(st', k).ents
      ensures RelsIn(Tab(st', k).ents[i], st')
    {
      RelsInMono0(Tab(st, k).ents[i], st, st');
    }
  }

  lemma RelsInMono0(e: Entity, st: Store, st': Store)
    requires RelsIn(e, st) && forall k: Kind :: Tab(st, k).ents.Keys <= Tab(st', k).ents.Keys
    ensures RelsIn(e, st')
  {
  }

  lemma TableOkAdd(t: Table, id: int, e: Entity, n: nat)
    requires TableOk(t, n) && id !in t.ents && EntityOk(e, id, n)
    ensures TableOk(Table(t.ents[id := e], t.order + [id]), n)
  {
    var o := t.order + [id];
    forall i, j | 0 <= i < j < |o|
      ensures o[i] != o[j]
    {
      if j == |o| - 1 {
        assert o[i] == t.order[i] && o[i] in t.ents;
      }
    }
    forall x | x in t.ents[id := e]
      ensures x in o
    {
      if x != id {
        assert x in t.order;
      } else {
        assert o[|o| - 1] == id;
      }
    }
  }

  /** Replace a registered instance by an updated one with the same id. */
  function Put(st: Store, k: Kind, id: int, e: Entity): (st': Store)
    requires Valid(st) && Registered(st, k, id) && EntityOk(e, id, |st.heap|) && RelsIn(e, st)
    ensures Valid(st') && Grows(st, st') && st'.heap == st.heap && SameKeys(st, st')
    ensures Tab(st', k).ents == Tab(st, k).ents[id := e]
    ensures forall k' | k' != k :: Tab(st', k') == Tab(st, k')
  {
    var t := Tab(st, k);
    ValidTab(st, k);
    var st' := WithTab(st, k, Table(t.ents[id := e], t.order));
    LinkedUpdate(st, st', k, id, e);
    st'
  }

  /** `self._data[key] = v` on a registered instance. */
  function SetField(st: Store, k: Kind, id: int, key: string, v: Value): (st': Store)
    requires Valid(st) && Registered(st, k, id) && key != "id" && ValueClosed(v, |st.heap|)
    ensures Valid(st') && Grows(st, st') && st'.heap == st.heap
    ensures Registered(st', k, id) && Ent(st', k, id) == Ent(st, k, id).(data := Ent(st, k, id).data[key := v])
    ensures SameKeys(st, st')
    ensures forall k' | k' != k :: Tab(st', k') == Tab(st, k')
  {
    var e := Ent(st, k, id);
    ValidTab(st, k);
    EntOk(st, k, id);
    Put(st, k, id, e.(data := e.data[key := v]))
  }

  /** `dict.update`: every key of `d` overwrites the instance's field. */
  function Merge(st: Store, k: Kind, id: int, d: Fields): (st': Store)
    requires Valid(st) && Registered(st, k, id) && FieldsClosed(d, |st.heap|)
    requires "id" in d ==> d["id"] == VInt(id)
    ensures Valid(st') && Grows(st, st') && st'.heap == st.heap
    ensures Registered(st', k, id) && Ent(st', k, id) == Ent(st, k, id).(data := Ent(st, k, id).data + d)
    ensures SameKeys(st, st')
    ensures forall k' | k' != k :: Tab(st', k') == Tab(st, k')
  {
    var e := Ent(st, k, id);
    ValidTab(st, k);
    EntOk(st, k, id);
    Put(st, k, id, e.(data := e.data + d))
  }

  /** Replace a registered instance's whole field map. */
  function SetData(st: Store, k: Kind, id: int, d: Fields): (st': Store)
    requires Valid(st) && Registered(st, k, id) && FieldsClosed(d, |st.heap|)
    requires "id" in d && d["id"] == VInt(id)
    ensures Valid(st') && Grows(st, st') && st'.heap == st.heap && SameKeys(st, st')
    ensures Registered(st', k, id) && Ent(st', k, id) == Ent(st, k, id).(data := d)
    ensures forall k' | k' != k :: Tab(st', k') == Tab(st, k')
  {
    EntOk(st, k, id);
    Put(st, k, id, Ent(st, k, id).(data := d))
  }

  /** A new, empty Python list. */
  function Alloc(st: Store): (p: (Store, nat))
    requires Valid(st)
    ensures Valid(p.0) && Grows(st, p.0)
    ensures p.1 == |st.heap| && p.0.heap == st.heap + [[]]
    ensures forall k :: Tab(p.0, k) == Tab(st, k)
  {
    var st' := st.(heap := st.heap + [[]]);
    var n := |st.heap|;
    forall k: Kind ensures TableOk(Tab(st', k), n + 1) {
      TableOkMono(Tab(st, k), n, n + 1);
    }
    LinkedSameTables(st, st');
    (st', n)
  }

  /** A new Python list holding `s`, such as the result of `a + b` on lists. */
  function AllocWith(st: Store, s: seq<Item>): (p: (Store, nat))
    requires Valid(st)
    ensures Valid(p.0) && Grows(st, p.0)
    ensures p.1 == |st.heap| && p.0.heap == st.heap + [s]
    ensures forall k :: Tab(p.0, k) == Tab(st, k)
  {
    var st' := st.(heap := st.heap + [s]);
    var n := |st.heap|;
    forall k: Kind ensures TableOk(Tab(st', k), n + 1) {
      TableOkMono(Tab(st, k), n, n + 1);
    }
    LinkedSameTables(st, st');
    (st', n)
  }

  /** The heap after `x` is appended to list `p`. */
  function Pushed(h: Heap, p: nat, x: Item): (h': Heap)
    requires p < |h|
    ensures |h'| == |h| && h'[p] == h[p] + [x]
    ensures forall q | 0 <= q < |h| && q != p :: h'[q] == h[q]
  {
    h[p := h[p] + [x]]
  }

  /** List `p` after an in-place change to contents `s`. */
  function Rewrite(st: Store, p: nat, s: seq<Item>): (st': Store)
    requires Valid(st) && p < |st.heap|
    ensures Valid(st') && Grows(st, st') && |st'.heap| == |st.heap|
    ensures st'.heap == st.heap[p := s]
    ensures forall k :: Tab(st', k) == Tab(st, k)
  {
    var st' := st.(heap := st.heap[p := s]);
    LinkedSameTables(st, st');
    st'
  }

  /** `v.append(x)`: only a list has `append`. */
  function Append(st: Store, v: Value, x: Item): (r: Step<()>)
    requires Valid(st) && ValueClosed(v, |st.heap|)
    ensures Valid(r.st) && Grows(st, r.st) && |r.st.heap| == |st.heap|
    ensures forall k :: Tab(r.st, k) == Tab(st, k)
    ensures r.res.Ok? <==> v.VList?
    ensures r.res.Err? ==> r.res.error == AttributeError && r.st == st
    ensures v.VList? ==> r.st == st.(heap := Pushed(st.heap, v.ref, x))
  {
    match v
    case VList(p) =>
      var st' := st.(heap := Pushed(st.heap, p, x));
      LinkedSameTables(st, st');
      Step(st', Ok(()))
    case _ => Step(st, Err(AttributeError))
  }

  /** `obj._data[key].append(x)`: a KeyError when the field is missing. */
  function AppendField(st: Store, k: Kind, id: int, key: string, x: Item): (r: Step<()>)
    requires Valid(st) && Registered(st, k, id)
    ensures Valid(r.st) && Grows(st, r.st) && |r.st.heap| == |st.heap|
    ensures forall k' :: Tab(r.st, k') == Tab(st, k')
    ensures key !in Ent(st, k, id).data ==> r == Step(st, Err(KeyError))
    ensures key in Ent(st, k, id).data ==> r == Append(st, Ent(st, k, id).data[key], x)
  {
    ValidTab(st, k);
    var d := Ent(st, k, id).data;
    if key in d then Append(st, d[key], x) else Step(st, Err(KeyError))
  }

  /** Replace an instance's relation attributes, keeping its fields. */
  function Relate(st: Store, k: Kind, id: int, e: Entity): (st': Store)
    requires Valid(st) && Registered(st, k, id) && e.data == Ent(st, k, id).data && RelsIn(e, st)
    ensures Valid(st') && Grows(st, st') && st'.heap == st.heap && SameKeys(st, st')
    ensures Registered(st', k, id) && Ent(st', k, id) == e
    ensures Tab(st', k).ents == Tab(st, k).ents[id := e]
    ensures forall k' | k' != k :: Tab(st', k') == Tab(st, k')
  {
    EntOk(st, k, id);
    Put(st, k, id, e)
  }

  /** `self._data.get(key)` of a registered instance. */
  function FieldOf(st: Store, k: Kind, id: int, key: string): (v: Value)
    requires Valid(st) && Registered(st, k, id)
    ensures ValueClosed(v, |st.heap|)
    ensures key in Ent(st, k, id).data ==> v == Ent(st, k, id).data[key]
    ensures key !in Ent(st, k, id).data ==> v == VNone
  {
    EntOk(st, k, id);
    Get(Ent(st, k, id).data, key)
  }

  /** `if self._data.get(key):` */
  predicate FieldTruthy(st: Store, k: Kind, id: int, key: string)
    requires Valid(st) && Registered(st, k, id)
  {
    Truthy(FieldOf(st, k, id, key), st.heap)
  }

  /** Updating an instance's field map with itself changes nothing. */
  lemma MergeSelf(st: Store, k: Kind, id: int)
    requires Valid(st) && Registered(st, k, id)
    ensures Merge(st, k, id, Ent(st, k, id).data) == st
  {
    EntOk(st, k, id);
    var e := Ent(st, k, id);
    assert e.data + e.data == e.data;
    var t := Tab(st, k);
    assert t.ents[id := e] == t.ents;
    assert Table(t.ents[id := e], t.order) == t;
    match k
    case Submission =>
    case Comment =>
    case Redditor =>
    case Subreddit =>
    case CommentTree =>
    case RedditObject =>
  }

  /** `create_*({"id": id})` on a registered id updates its fields with its
      own id, which changes nothing. */
  lemma MergeIdNoop(st: Store, k: Kind, id: int)
    requires Valid(st) && Registered(st, k, id)
    ensures Merge(st, k, id, map["id" := VInt(id)]) == st
  {
    EntOk(st, k, id);
    var d := Ent(st, k, id).data;
    assert d + map["id" := VInt(id)] == d;
    MergeSelf(st, k, id);
  }

  /** A registered instance whose field `key` holds a list. */
  predicate HasList(st: Store, k: Kind, id: int, key: string) {
    Registered(st, k, id) && key in Ent(st, k, id).data && Ent(st, k, id).data[key].VList?
  }

  /** The heap cell of that list. */
  function ListRef(st: Store, k: Kind, id: int, key: string): (p: nat)
    requires Valid(st) && HasList(st, k, id, key)
    ensures p < |st.heap| && Ent(st, k, id).data[key] == VList(p)
  {
    EntOk(st, k, id);
    Ent(st, k, id).data[key].ref
  }

  lemma ValueClosedIn(st: Store, k: Kind, id: int, key: string)
    requires Valid(st) && Registered(st, k, id) && key in Ent(st, k, id).data
    ensures ValueClosed(Ent(st, k, id).data[key], |st.heap|)
  {
    ValidTab(st, k);
  }

  /** `CreateObject.if_record`. */
  predicate IfRecord(st: Store, id: int, k: Kind) {
    Registered(st, k, id)
  }

  /** `CreateObject.get_record`: the instance, or ValueError when unregistered. */
  function GetRecord(st: Store, id: int, k: Kind): (r: Result<Entity>)
    ensures r.Ok? <==> IfRecord(st, id, k)
    ensures r.Ok? ==> r.value == Ent(st, k, id)
    ensures r.Err? ==> r.error == ValueError
  {
    if Registered(st, k, id) then Ok(Ent(st, k, id)) else Err(ValueError)
  }
}

=== FILE: repair.dfy ===
/** The repair pass over comments: `is_ignore` (objects.py:170-177, 383-390,
    720-728), `Comment.update_parent` (objects.py:705-718) and
    `Comment.generate_parent_chain` (objects.py:730-744). */
module Repair {
  import opened PyValues
  import opened Registry
  import opened ObjectSteps

  // ------------------------------------------------------------ default tables

  /** A value of `default_attributes_values`: None, `[]`, `""`, `0`, `False`. */
  datatype Default = DNone | DEmpty | DText | DZero | DFalse

  /** `default_attributes_in_data[object_type]` (objects.py:37-46). Only its
      length is ever consulted. */
  function DefaultKeys(k: Kind): seq<string> {
    match k
    case RedditObject => ["id"]
    case Submission =>
      ["id", "id_36", "fullname", "body", "title", "selftext", "score", "created_utc", "no_follow",
       "num_comments", "comments_id", "comments_id_total", "subreddit_id", "subreddit_id_36",
       "subreddit_fullname"]
    case Comment =>
      ["id", "id_36", "fullname", "comments_id", "comments_id_total", "parent_id", "parent_id_36",
       "parent_fullname", "subreddit_id", "subreddit_id_36", "subreddit_fullname"]
    case Redditor => ["id", "id_36", "fullname", "activity", "no_follow", "submissions_id", "comments_id"]
    case Subreddit => ["id", "id_36", "fullname", "submissions_id", "comments_id"]
    case CommentTree => ["id", "comments_id", "comments_id_total", "submission_id"]
  }

  /** `default_attributes_values[object_type]` (objects.py:48-58), in dict
      order. Note the key `comments_id_total`, which no constructor writes. */
  function DefaultValues(k: Kind): seq<(string, Default)> {
    match k
    case RedditObject => []
    case Submission =>
      [("body", DText), ("title", DText), ("selftext", DText), ("score", DZero), ("created_utc", DZero),
       ("no_follow", DFalse), ("num_comments", DZero), ("comments_id", DEmpty), ("comments_id_total", DEmpty),
       ("subreddit_id", DNone), ("subreddit_id_36", DNone), ("subreddit_fullname", DNone)]
    case Comment =>
      [("comments_id", DEmpty), ("comments_id_total", DEmpty), ("parent_id", DNone), ("parent_id_36", DNone),
       ("parent_fullname", DNone), ("subreddit_id", DNone), ("subreddit_id_36", DNone),
       ("subreddit_fullname", DNone)]
    case Redditor => [("activity", DEmpty), ("no_follow", DEmpty), ("submissions_id", DEmpty), ("comments_id", DEmpty)]
    case Subreddit => [("submissions_id", DEmpty), ("comments_id", DEmpty)]
    case CommentTree => [("comments_id", DEmpty), ("comments_id_total", DEmpty), ("submission_id", DNone)]
  }

  /** Python `v == default`: `0 == False`, and a list equals `[]` when empty. */
  predicate IsDefault(v: Value, dv: Default, h: Heap)
    requires ValueClosed(v, |h|)
  {
    match dv
    case DNone => v == VNone
    case DEmpty => v.VList? && h[v.ref] == []
    case DText => v == VStr("")
    case DZero => v == VInt(0) || v == VBool(false)
    case DFalse => v == VInt(0) || v == VBool(false)
  }

  /** The two attributes the submission and comment overrides of `is_ignore`
      skip. */
  predicate Exempt(k: Kind, attr: string) {
    IsPost(k) && (attr == "comments_id" || attr == "comments_total_id")
  }

  /** One default attribute passes when it is exempt or holds its default. */
  predicate Passes(k: Kind, d: Fields, h: Heap, a: (string, Default))
    requires FieldsClosed(d, |h|) && a.0 in d
  {
    Exempt(k, a.0) || IsDefault(d[a.0], a.1, h)
  }

  /** The loop of `is_ignore` over the default values, from `dv` on: a
      missing attribute is a KeyError; the first one that is neither exempt
      nor default gives False. */
  function Scan(k: Kind, d: Fields, h: Heap, dv: seq<(string, Default)>): (r: Result<bool>)
    requires FieldsClosed(d, |h|)
    ensures r == Ok(true) <==> forall i | 0 <= i < |dv| :: dv[i].0 in d && Passes(k, d, h, dv[i])
    ensures r.Err? ==> r.error == KeyError && exists i | 0 <= i < |dv| :: dv[i].0 !in d
    ensures r == Ok(false) ==> exists i | 0 <= i < |dv| :: dv[i].0 in d && !Passes(k, d, h, dv[i])
  {
    if dv == [] then Ok(true)
    else if dv[0].0 !in d then Err(KeyError)
    else if !Passes(k, d, h, dv[0]) then Ok(false)
    else
      var r := Scan(k, d, h, dv[1..]);
      assert forall i | 1 <= i < |dv| :: dv[i] == dv[1..][i - 1];
      r
  }

  /** `obj.is_ignore()`: an instance is a never-ingested placeholder when it
      has exactly as many fields as the class's default list and every
      default attribute holds its default value. */
  function IsIgnore(k: Kind, d: Fields, h: Heap): (r: Result<bool>)
    requires FieldsClosed(d, |h|)
    ensures |d| != |DefaultKeys(k)| ==> r == Ok(false)
    ensures r == Ok(true) <==>
      && |d| == |DefaultKeys(k)|
      && forall i | 0 <= i < |DefaultValues(k)| :: DefaultValues(k)[i].0 in d && Passes(k, d, h, DefaultValues(k)[i])
    ensures r.Err? ==> r.error == KeyError
  {
    if |d| != |DefaultKeys(k)| then Ok(false) else Scan(k, d, h, DefaultValues(k))
  }

  /** A comment with as many fields as the default list, holding
      `comments_id` but not `comments_id_total` (constructors write
      `comments_total_id`), makes `is_ignore` raise KeyError. */
  lemma CommentIgnoreKeyError(d: Fields, h: Heap)
    requires FieldsClosed(d, |h|) && |d| == 11
    requires "comments_id" in d && "comments_id_total" !in d
    ensures IsIgnore(Comment, d, h) == Err(KeyError)
  {
    var dv := DefaultValues(Comment);
    assert Passes(Comment, d, h, dv[0]);
    assert Scan(Comment, d, h, dv[1..]) == Err(KeyError);
  }

  // ------------------------------------------------------------ update_parent

  /** `obj.<key>.append(x)` through `__getattr__`: a missing field or a value
      without `append` is an AttributeError. */
  function AttrAppend(st: Store, k: Kind, id: int, key: string, x: Item): (r: Step<()>)
    requires Valid(st) && Registered(st, k, id)
    ensures Valid(r.st) && Grows(st, r.st) && |r.st.heap| == |st.heap|
    ensures forall k' :: Tab(r.st, k') == Tab(st, k')
    ensures r.res.Ok? <==> HasList(st, k, id, key)
    ensures r.res.Err? ==> r == Step(st, Err(AttributeError))
    ensures r.res.Ok? ==> r.st == st.(heap := Pushed(st.heap, ListRef(st, k, id, key), x))
  {
    var a := AppendField(st, k, id, key, x);
    if a.res.Err? then Step(st, Err(AttributeError)) else a
  }

  /** Every comment other than `id` is registered in `st'` as it was in `st`. */
  predicate OthersKept(st: Store, st': Store, id: int) {
    forall c | c in Tab(st, Comment).ents && c != id :: c in Tab(st', Comment).ents && Tab(st', Comment).ents[c] == Tab(st, Comment).ents[c]
  }

  /** `self._parent = self._submission`, then the comment's id goes to the
      end of both of the submission's lists. The parent is re-pointed even
      when an append then raises. */
  function Repoint(st: Store, id: int, sid: int): (r: Step<()>)
    requires Valid(st) && Registered(st, Comment, id) && Registered(st, Submission, sid)
    ensures Valid(r.st) && Grows(st, r.st) && SameKeys(st, r.st) && |r.st.heap| == |st.heap|
    ensures Registered(r.st, Comment, id) && Ent(r.st, Comment, id).parent == Some(Ref(Submission, sid))
    ensures Ent(r.st, Comment, id).submission == Ent(st, Comment, id).submission
    ensures OthersKept(st, r.st, id)
    ensures r.res.Err? ==> r.res.error == AttributeError
    ensures HasList(st, Submission, sid, "comments_id") && HasList(st, Submission, sid, "comments_total_id") ==>
      r.res.Ok? && r.st.heap == Pushed(Pushed(st.heap, ListRef(st, Submission, sid, "comments_id"), Id(id)),
                                        ListRef(st, Submission, sid, "comments_total_id"), Id(id))
  {
    var st1 := SetRel(st, Comment, id, ParentOf(Submission), Some(sid));
    var a := AttrAppend(st1, Submission, sid, "comments_id", Id(id));
    if a.res.Err? then a
    else AttrAppend(a.st, Submission, sid, "comments_total_id", Id(id))
  }

  /** The first test of `update_parent`: a parent placeholder is replaced by
      the submission. `is_ignore` runs before the submission is looked at,
      so its KeyError propagates even for a comment without submission. */
  function DropPlaceholder(st: Store, id: int): (r: Step<()>)
    requires Valid(st) && Registered(st, Comment, id)
    ensures Valid(r.st) && Grows(st, r.st) && SameKeys(st, r.st) && Registered(r.st, Comment, id)
    ensures Ent(r.st, Comment, id).submission == Ent(st, Comment, id).submission
    ensures Ent(st, Comment, id).parent.Some? ==> Ent(r.st, Comment, id).parent.Some?
    ensures Ent(st, Comment, id).parent.None? ==> r == Step(st, Ok(()))
    ensures var e := Ent(st, Comment, id);
      e.parent.Some? && Registered(st, e.parent.value.kind, e.parent.value.id) ==>
      var ig := IsIgnore(e.parent.value.kind, Ent(st, e.parent.value.kind, e.parent.value.id).data, st.heap);
      && (ig.Err? ==> r == Step(st, Err(KeyError)))
      && (ig.Ok? && (!ig.value || e.submission.None?) ==> r == Step(st, Ok(())))
      && (ig == Ok(true) && e.submission.Some? ==> Ent(r.st, Comment, id).parent == Some(Ref(Submission, e.submission.value)))
    ensures OthersKept(st, r.st, id)
  {
    var e := Ent(st, Comment, id);
    EntOk(st, Comment, id);
    if e.parent.None? then Step(st, Ok(()))
    else
      var p := e.parent.value;
      EntOk(st, p.kind, p.id);
      match IsIgnore(p.kind, Ent(st, p.kind, p.id).data, st.heap)
      case Err(x) => Step(st, Err(x))
      case Ok(ignore) =>
        if ignore && e.submission.Some? then Repoint(st, id, e.submission.value) else Step(st, Ok(()))
  }

  /** `comment.update_parent()`. */
  function UpdateParent(st: Store, id: int): (r: Step<()>)
    requires Valid(st) && Registered(st, Comment, id)
    ensures Valid(r.st) && Grows(st, r.st) && SameKeys(st, r.st) && Registered(r.st, Comment, id)
    ensures Ent(r.st, Comment, id).submission == Ent(st, Comment, id).submission
    ensures OthersKept(st, r.st, id)
  {
    var s1 := DropPlaceholder(st, id);
    if s1.res.Err? then s1
    else
      var e := Ent(s1.st, Comment, id);
      if e.parent.None? && e.submission.Some? then Repoint(s1.st, id, e.submission.value) else s1
  }

  /** After a successful `update_parent` a comment has a parent whenever it
      has a submission. */
  lemma UpdateParentLinks(st: Store, id: int)
    requires Valid(st) && Registered(st, Comment, id)
    ensures var r := UpdateParent(st, id);
      r.res.Ok? ==> Ent(r.st, Comment, id).parent.Some? || Ent(r.st, Comment, id).submission.None?
  {
  }

  /** A comment without parent whose submission has both lists is re-pointed
      to the submission, and its id lands at the end of both lists. */
  lemma UpdateParentOrphan(st: Store, id: int)
    requires Valid(st) && Registered(st, Comment, id)
    requires Ent(st, Comment, id).parent.None? && Ent(st, Comment, id).submission.Some?
    requires var sid := Ent(st, Comment, id).submission.value;
      HasList(st, Submission, sid, "comments_id") && HasList(st, Submission, sid, "comments_total_id")
    ensures var sid := Ent(st, Comment, id).submission.value;
      var r := UpdateParent(st, id);
      && r.res.Ok?
      && Ent(r.st, Comment, id).parent == Some(Ref(Submission, sid))
      && r.st.heap == Pushed(Pushed(st.heap, ListRef(st, Submission, sid, "comments_id"), Id(id)),
                             ListRef(st, Submission, sid, "comments_total_id"), Id(id))
  {
    EntOk(st, Comment, id);
  }

  /** A comment whose parent is a placeholder (`is_ignore()` is True) and
      whose submission has both lists is re-pointed to the submission, and
      its id lands at the end of both lists. A comment that was already
      counted in `comments_total_id` at construction is counted there twice. */
  lemma UpdateParentPlaceholder(st: Store, id: int)
    requires Valid(st) && Registered(st, Comment, id)
    requires var e := Ent(st, Comment, id);
      && e.parent.Some? && e.submission.Some?
      && Registered(st, e.parent.value.kind, e.parent.value.id)
      && IsIgnore(e.parent.value.kind, Ent(st, e.parent.value.kind, e.parent.value.id).data, st.heap) == Ok(true)
      && HasList(st, Submission, e.submission.value, "comments_id")
      && HasList(st, Submission, e.submission.value, "comments_total_id")
    ensures var sid := Ent(st, Comment, id).submission.value;
      var r := UpdateParent(st, id);
      && r.res.Ok?
      && Ent(r.st, Comment, id).parent == Some(Ref(Submission, sid))
      && r.st.heap == Pushed(Pushed(st.heap, ListRef(st, Submission, sid, "comments_id"), Id(id)),
                             ListRef(st, Submission, sid, "comments_total_id"), Id(id))
  {
    EntOk(st, Comment, id);
    var p := Ent(st, Comment, id).parent.value;
    EntOk(st, p.kind, p.id);
  }

  /** A parent whose field count differs from its class's default list is
      never a placeholder: `update_parent` then changes nothing. */
  lemma UpdateParentKeepsIngested(st: Store, id: int)
    requires Valid(st) && Registered(st, Comment, id)
    requires var p := Ent(st, Comment, id).parent;
      p.Some? && Registered(st, p.value.kind, p.value.id) &&
      |Ent(st, p.value.kind, p.value.id).data| != |DefaultKeys(p.value.kind)|
    ensures UpdateParent(st, id) == Step(st, Ok(()))
  {
    EntOk(st, Comment, id);
    var p := Ent(st, Comment, id).parent.value;
    EntOk(st, p.kind, p.id);
  }

  // ------------------------------------------------------------ parent chain

  /** A chain of `(id, object_type)` pairs in which every element after the
      first is a comment. */
  predicate CommentLinks(c: seq<Item>) {
    (forall i | 0 <= i < |c| :: c[i].Link?) && forall i | 1 <= i < |c| :: c[i].lkind == Comment
  }

  /** `child` is a registered comment whose parent has the id `above`. */
  predicate ChildOf(st: Store, child: int, above: int) {
    Registered(st, Comment, child) && Ent(st, Comment, child).parent.Some? &&
    Ent(st, Comment, child).parent.value.id == above
  }

  /** Every link after the first names a comment whose parent is the link
      before it: the chain is an ancestor path. */
  predicate Ancestry(st: Store, c: seq<Item>)
    requires CommentLinks(c)
  {
    forall i | 1 <= i < |c| :: ChildOf(st, c[i].lid, c[i - 1].lid)
  }

  lemma CommentLinksExtend(c: seq<Item>, pid: int)
    requires CommentLinks(c)
    ensures CommentLinks(c + [Link(pid, Comment)])
  {
    var c' := c + [Link(pid, Comment)];
    assert forall i | 0 <= i < |c| :: c'[i] == c[i];
  }

  /** `comment.generate_parent_chain()`: the ancestors from the top down,
      stored as a new list in the comment's `parent_chain` field. A parent
      with the submission's id ends the chain; any other parent must be a
      comment (a submission has no `generate_parent_chain`, an
      AttributeError) and contributes its own chain first. A comment with a
      parent but no submission raises AttributeError on `None._data`. Each
      recursive call costs one unit of `fuel`, the recursion limit. */
  function ParentChain(st: Store, id: int, fuel: nat): (r: Step<seq<Item>>)
    requires Valid(st) && Registered(st, Comment, id)
    ensures Valid(r.st) && Grows(st, r.st) && SameKeys(st, r.st)
    ensures r.res.Ok? ==> CommentLinks(r.res.value) && |r.res.value| <= fuel + 1
    ensures r.res.Ok? ==>
      HasList(r.st, Comment, id, "parent_chain") && r.st.heap[ListRef(r.st, Comment, id, "parent_chain")] == r.res.value
    ensures r.res.Ok? && Ent(st, Comment, id).parent.None? ==> r.res.value == []
    ensures r.res.Ok? && Ent(st, Comment, id).parent.Some? ==>
      |r.res.value| >= 1 && r.res.value[|r.res.value| - 1].lid == Ent(st, Comment, id).parent.value.id
    ensures r.res.Ok? ==> Ancestry(st, r.res.value)
    decreases fuel, 1
  {
    var e := Ent(st, Comment, id);
    EntOk(st, Comment, id);
    if e.parent.None? then Record(st, id, [])
    else if e.submission.None? then Step(st, Err(AttributeError))
    else if e.parent.value.id == e.submission.value then
      Record(st, id, [Link(e.submission.value, Submission)])
    else if e.parent.value.kind != Comment then Step(st, Err(AttributeError))
    else ChainBelow(st, id, e.parent.value.id, fuel)
  }

  /** The chain of a comment under the parent comment `pid`: the parent's
      own chain followed by the parent. */
  function ChainBelow(st: Store, id: int, pid: int, fuel: nat): (r: Step<seq<Item>>)
    requires Valid(st) && Registered(st, Comment, id) && Registered(st, Comment, pid)
    ensures Valid(r.st) && Grows(st, r.st) && SameKeys(st, r.st)
    ensures r.res.Ok? ==> CommentLinks(r.res.value) && |r.res.value| <= fuel + 1
    ensures r.res.Ok? ==>
      HasList(r.st, Comment, id, "parent_chain") && r.st.heap[ListRef(r.st, Comment, id, "parent_chain")] == r.res.value
    ensures r.res.Ok? ==> |r.res.value| >= 1 && r.res.value[|r.res.value| - 1].lid == pid
    ensures r.res.Ok? ==> Ancestry(st, r.res.value)
    decreases fuel, 0
  {
    if fuel == 0 then Step(st, Err(RecursionError))
    else
      var s := ParentChain(st, pid, fuel - 1);
      if s.res.Err? then Step(s.st, Err(s.res.error))
      else
        assert Registered(s.st, Comment, id);
        AncestryExtend(st, s.res.value, pid);
        var r := Record(s.st, id, s.res.value + [Link(pid, Comment)]);
        SameKeysTrans(st, s.st, r.st);
        r
  }

  /** Appending a registered comment to its own ancestor chain keeps the
      chain an ancestor path. */
  lemma AncestryExtend(st: Store, c: seq<Item>, pid: int)
    requires Registered(st, Comment, pid)
    requires CommentLinks(c) && Ancestry(st, c)
    requires Ent(st, Comment, pid).parent.None? ==> c == []
    requires Ent(st, Comment, pid).parent.Some? ==>
      |c| >= 1 && c[|c| - 1].lid == Ent(st, Comment, pid).parent.value.id
    ensures CommentLinks(c + [Link(pid, Comment)]) && Ancestry(st, c + [Link(pid, Comment)])
  {
    var c' := c + [Link(pid, Comment)];
    CommentLinksExtend(c, pid);
    forall i | 1 <= i < |c'|
      ensures ChildOf(st, c'[i].lid, c'[i - 1].lid)
    {
      if i < |c| {
        assert c'[i] == c[i] && c'[i - 1] == c[i - 1];
      } else {
        assert c'[i] == Link(pid, Comment) && c'[i - 1] == c[|c| - 1];
      }
    }
  }

  /** `self._data["parent_chain"] = chain; return chain`. */
  function Record(st: Store, id: int, c: seq<Item>): (r: Step<seq<Item>>)
    requires Valid(st) && Registered(st, Comment, id)
    ensures Valid(r.st) && Grows(st, r.st) && SameKeys(st, r.st)
    ensures r.res == Ok(c)
    ensures HasList(r.st, Comment, id, "parent_chain") && r.st.heap[ListRef(r.st, Comment, id, "parent_chain")] == c
  {
    var (st1, p) := AllocWith(st, c);
    Step(SetField(st1, Comment, id, "parent_chain", VList(p)), Ok(c))
  }
}

=== FILE: steps.dfy ===
/** The steps the entity constructors are made of: writing decoded id
    triples, filling defaults, building the argument dicts for related
    instances, and appending a fresh post to the aggregates it belongs to. */
module ObjectSteps {
  import opened PyValues
  import opened Codec
  import opened IdProcessing
  import opened Registry
  import opened Activity

  /** The classes in `object_type2class`. */
  predicate Buildable(k: Kind) {
    k != RedditObject
  }

  /** A submission or a comment: the classes with an author and a subreddit. */
  predicate IsPost(k: Kind) {
    k == Submission || k == Comment
  }

  /** The three fields one `process_*_id` result is stored under. */
  datatype TripleKeys = TripleKeys(id: string, id36: string, full: string)

  const AuthorKeys := TripleKeys("author_id", "author_id_36", "author_fullname")
  const SubredditKeys := TripleKeys("subreddit_id", "subreddit_id_36", "subreddit_fullname")
  const LinkKeys := TripleKeys("link_id", "link_id_36", "link_id_fullname")
  const ParentKeys := TripleKeys("parent_id", "parent_id_36", "parent_id_fullname")

  /** The decoded triple, or three Nones when decoding failed. */
  function TripleFields(keys: TripleKeys, t: Option<IdTriple>): Fields {
    match t
    case None => map[keys.id := VNone, keys.id36 := VNone, keys.full := VNone]
    case Some(x) => map[keys.id := VInt(x.id), keys.id36 := VStr(x.id36), keys.full := VStr(x.fullname)]
  }

  // ------------------------------------------------------------ field writes

  function SetTriple(st: Store, k: Kind, id: int, keys: TripleKeys, t: Option<IdTriple>): (st': Store)
    requires Valid(st) && Registered(st, k, id) && "id" !in {keys.id, keys.id36, keys.full}
    ensures Valid(st') && Grows(st, st') && st'.heap == st.heap && SameKeys(st, st')
    ensures Registered(st', k, id)
    ensures Ent(st', k, id) == Ent(st, k, id).(data := Ent(st, k, id).data + TripleFields(keys, t))
  {
    Merge(st, k, id, TripleFields(keys, t))
  }

  /** `self._data[key] = []`: a new list. */
  function FreshList(st: Store, k: Kind, id: int, key: string): (st': Store)
    requires Valid(st) && Registered(st, k, id) && key != "id"
    ensures Valid(st') && Grows(st, st') && SameKeys(st, st')
    ensures Registered(st', k, id)
    ensures st'.heap == st.heap + [[]]
    ensures Ent(st', k, id) == Ent(st, k, id).(data := Ent(st, k, id).data[key := VList(|st.heap|)])
  {
    var (s1, p) := Alloc(st);
    SetField(s1, k, id, key, VList(p))
  }

  /** `if not self._data.get(key): self._data[key] = []` */
  function FreshIfFalsy(st: Store, k: Kind, id: int, key: string): (st': Store)
    requires Valid(st) && Registered(st, k, id) && key != "id"
    ensures Valid(st') && Grows(st, st') && SameKeys(st, st')
    ensures Registered(st', k, id)
    ensures FieldTruthy(st, k, id, key) ==> st' == st
    ensures !FieldTruthy(st, k, id, key) ==>
      st'.heap == st.heap + [[]] &&
      Ent(st', k, id) == Ent(st, k, id).(data := Ent(st, k, id).data[key := VList(|st.heap|)])
    ensures Ent(st', k, id).data.Keys == Ent(st, k, id).data.Keys + {key}
  {
    if FieldTruthy(st, k, id, key) then st else FreshList(st, k, id, key)
  }

  /** A redditor's `no_follow` defaults to `{"submissions": [], "comments": []}`. */
  function FollowIfFalsy(st: Store, id: int): (st': Store)
    requires Valid(st) && Registered(st, Redditor, id)
    ensures Valid(st') && Grows(st, st') && SameKeys(st, st') && Registered(st', Redditor, id)
    ensures FieldTruthy(st, Redditor, id, "no_follow") ==> st' == st
    ensures !FieldTruthy(st, Redditor, id, "no_follow") ==>
      var n := |st.heap|;
      st'.heap == st.heap + [[], []] &&
      Ent(st', Redditor, id) == Ent(st, Redditor, id).(data := Ent(st, Redditor, id).data["no_follow" := VFollow(n, n + 1)])
  {
    if FieldTruthy(st, Redditor, id, "no_follow") then st
    else
      var (s1, p) := Alloc(st);
      var (s2, q) := Alloc(s1);
      SetField(s2, Redditor, id, "no_follow", VFollow(p, q))
  }

  // ------------------------------------------------------------ argument dicts

  function CopyIfTruthy(st: Store, k: Kind, id: int, a: Fields, src: string, dst: string): (a': Fields)
    requires Valid(st) && Registered(st, k, id) && FieldsClosed(a, |st.heap|)
    ensures FieldsClosed(a', |st.heap|)
    ensures a' == if FieldTruthy(st, k, id, src) then a[dst := FieldOf(st, k, id, src)] else a
  {
    if FieldTruthy(st, k, id, src) then a[dst := FieldOf(st, k, id, src)] else a
  }

  /** `process_author_args`, identity fields only: each is copied when truthy.
      The argument dict has an `id` exactly when `author_id` is truthy. */
  function AuthorArgs(st: Store, k: Kind, id: int): (a: Fields)
    requires Valid(st) && Registered(st, k, id)
    ensures FieldsClosed(a, |st.heap|)
    ensures "id" in a <==> FieldTruthy(st, k, id, "author_id")
    ensures "id" in a ==> a["id"] == FieldOf(st, k, id, "author_id")
  {
    var a1 := CopyIfTruthy(st, k, id, map[], "author", "name");
    var a2 := CopyIfTruthy(st, k, id, a1, "author_fullname", "fullname");
    var a3 := CopyIfTruthy(st, k, id, a2, "author_id", "id");
    CopyIfTruthy(st, k, id, a3, "author_id_36", "id_36")
  }

  /** `process_subreddit_args`: the argument dict has an `id` exactly when
      `subreddit_id` is truthy. */
  function SubredditArgs(st: Store, k: Kind, id: int): (a: Fields)
    requires Valid(st) && Registered(st, k, id)
    ensures FieldsClosed(a, |st.heap|)
    ensures "id" in a <==> FieldTruthy(st, k, id, "subreddit_id")
    ensures "id" in a ==> a["id"] == FieldOf(st, k, id, "subreddit_id")
  {
    var a1 := CopyIfTruthy(st, k, id, map[], "subreddit", "name");
    var a2 := CopyIfTruthy(st, k, id, a1, "subreddit_fullname", "fullname");
    var a3 := CopyIfTruthy(st, k, id, a2, "subreddit_id", "id");
    var a4 := CopyIfTruthy(st, k, id, a3, "subreddit_id_36", "id_36");
    var a5 := CopyIfTruthy(st, k, id, a4, "subreddit_type", "type");
    CopyIfTruthy(st, k, id, a5, "subreddit_name_prefixed", "name_prefixed")
  }

  /** `process_author_id(self._data["author_fullname"])` and the argument dict;
      a missing (KeyError) or undecodable (ValueError) fullname clears the
      three author fields and leaves no arguments. */
  function AuthorDecode(st: Store, k: Kind, id: int): (r: (Store, Option<Fields>))
    requires Valid(st) && Registered(st, k, id)
    ensures Valid(r.0) && Grows(st, r.0) && r.0.heap == st.heap && SameKeys(st, r.0)
    ensures Registered(r.0, k, id)
    ensures var d := Ent(st, k, id).data;
      r.1.Some? <==> "author_fullname" in d && ForeignId(d["author_fullname"], "t2_").Ok?
    ensures var d := Ent(st, k, id).data;
      r.1.Some? ==> (FieldsClosed(r.1.value, |r.0.heap|) &&
        ("id" in r.1.value <==> ForeignId(d["author_fullname"], "t2_").value.id != 0))
  {
    var d := Ent(st, k, id).data;
    var t := if "author_fullname" in d then ForeignId(d["author_fullname"], "t2_") else Err(KeyError);
    match t
    case Err(_) => (SetTriple(st, k, id, AuthorKeys, None), None)
    case Ok(x) =>
      var st' := SetTriple(st, k, id, AuthorKeys, Some(x));
      (st', Some(AuthorArgs(st', k, id)))
  }

  /** `process_subreddit_id` on a submission's `subreddit_id` (a missing field
      is a KeyError nobody catches) or on a comment's `subreddit` name field
      (a missing field clears the triple), then the argument dict. */
  function SubredditDecode(st: Store, k: Kind, id: int): (r: Step<Option<Fields>>)
    requires Valid(st) && Registered(st, k, id) && IsPost(k)
    ensures Valid(r.st) && Grows(st, r.st) && r.st.heap == st.heap && SameKeys(st, r.st)
    ensures Registered(r.st, k, id)
    ensures r.res.Err? <==> k == Submission && "subreddit_id" !in Ent(st, k, id).data
    ensures r.res.Err? ==> r.res.error == KeyError
    ensures r.res.Ok? && r.res.value.Some? ==> FieldsClosed(r.res.value.value, |r.st.heap|)
  {
    var d := Ent(st, k, id).data;
    var key := if k == Submission then "subreddit_id" else "subreddit";
    if key !in d then
      if k == Submission then Step(st, Err(KeyError))
      else Step(SetTriple(st, k, id, SubredditKeys, None), Ok(None))
    else
      match ForeignId(d[key], "t5_")
      case Err(_) => Step(SetTriple(st, k, id, SubredditKeys, None), Ok(None))
      case Ok(x) =>
        var st' := SetTriple(st, k, id, SubredditKeys, Some(x));
        Step(st', Ok(Some(SubredditArgs(st', k, id))))
  }

  /** `process_parent_id(self._data["parent_id"])`; any failure clears the triple. */
  function ParentDecode(st: Store, id: int): (st': Store)
    requires Valid(st) && Registered(st, Comment, id)
    ensures Valid(st') && Grows(st, st') && st'.heap == st.heap && SameKeys(st, st')
    ensures Registered(st', Comment, id)
    ensures var d := Ent(st, Comment, id).data;
      var t := if "parent_id" in d then ParentId(d["parent_id"]) else Err(KeyError);
      Ent(st', Comment, id).data == d + TripleFields(ParentKeys, if t.Ok? then Some(t.value) else None)
  {
    var d := Ent(st, Comment, id).data;
    var t := if "parent_id" in d then ParentId(d["parent_id"]) else Err(KeyError);
    SetTriple(st, Comment, id, ParentKeys, if t.Ok? then Some(t.value) else None)
  }

  // ------------------------------------------------------------ aggregates

  /** The author aggregate a post is listed in. */
  function PostList(k: Kind): string {
    if k == Submission then "submissions_id" else "comments_id"
  }

  /** The `no_follow` member a post is listed in. */
  function FollowPick(k: Kind, v: Value): nat
    requires v.VFollow?
  {
    if k == Submission then v.subs else v.coms
  }

  /** Sort a heap list in place by activity time. */
  function SortCell(st: Store, p: nat): (r: Step<()>)
    requires Valid(st) && p < |st.heap|
    ensures Valid(r.st) && Grows(st, r.st) && |r.st.heap| == |st.heap| && SameKeys(st, r.st)
    ensures forall k: Kind :: Tab(r.st, k) == Tab(st, k)
    ensures r.res.Err? ==> r.st == st && r.res.error == TypeError
    ensures r.res.Ok? ==> SortByTime(st.heap[p]).Ok? && r.st.heap == st.heap[p := SortByTime(st.heap[p]).value]
  {
    match SortByTime(st.heap[p])
    case Err(e) => Step(st, Err(e))
    case Ok(s) =>
      var st' := st.(heap := st.heap[p := s]);
      LinkedSameTables(st, st');
      Step(st', Ok(()))
  }

  /** A fresh post's contribution to its author (objects.py:206-209 and
      446-450): the id joins the author's post list, the activity tuple is
      appended and the activity re-sorted, and a `no_follow` post is listed
      under the author's `no_follow`. Only heap lists change. */
  function Contribute(st: Store, k: Kind, id: int, rid: int): (r: Step<()>)
    requires Valid(st) && Registered(st, k, id) && Registered(st, Redditor, rid)
    ensures Valid(r.st) && Grows(st, r.st) && |r.st.heap| == |st.heap|
    ensures forall k': Kind :: Tab(r.st, k') == Tab(st, k')
  {
    var s1 :- AppendField(st, Redditor, rid, PostList(k), Id(id));
    var s2 :- Chronicle(s1.0, k, id, rid);
    FollowList(s2.0, k, id, rid)
  }

  /** `activity.append((created_utc, id, object_type))`, then the sort. */
  function Chronicle(st: Store, k: Kind, id: int, rid: int): (r: Step<()>)
    requires Valid(st) && Registered(st, k, id) && Registered(st, Redditor, rid)
    ensures Valid(r.st) && Grows(st, r.st) && |r.st.heap| == |st.heap|
    ensures forall k': Kind :: Tab(r.st, k') == Tab(st, k')
  {
    var d := Ent(st, k, id).data;
    if "created_utc" !in d then Step(st, Err(KeyError))
    else
      var s1 :- AppendField(st, Redditor, rid, "activity", Act(d["created_utc"], id, k));
      SortCell(s1.0, ListRef(s1.0, Redditor, rid, "activity"))
  }

  /** A `no_follow` post is listed under the author's `no_follow` dict. */
  function FollowList(st: Store, k: Kind, id: int, rid: int): (r: Step<()>)
    requires Valid(st) && Registered(st, k, id) && Registered(st, Redditor, rid)
    ensures Valid(r.st) && Grows(st, r.st) && |r.st.heap| == |st.heap|
    ensures forall k': Kind :: Tab(r.st, k') == Tab(st, k')
    ensures !FieldTruthy(st, k, id, "no_follow") ==> r == Step(st, Ok(()))
  {
    if !FieldTruthy(st, k, id, "no_follow") then Step(st, Ok(()))
    else
      var nf := FieldOf(st, Redditor, rid, "no_follow");
      if "no_follow" !in Ent(st, Redditor, rid).data then Step(st, Err(KeyError))
      else if !nf.VFollow? then Step(st, Err(TypeError))
      else Append(st, VList(FollowPick(k, nf)), Id(id))
  }

  /** `Chronicle` on an author whose activity is cell `pa` is the append to
      that cell followed by the sort of that cell. */
  lemma ChronicleUnfold(st: Store, k: Kind, id: int, rid: int, pa: nat)
    requires Valid(st) && Registered(st, k, id) && Registered(st, Redditor, rid)
    requires "activity" in Ent(st, Redditor, rid).data && Ent(st, Redditor, rid).data["activity"] == VList(pa)
    requires "created_utc" in Ent(st, k, id).data && pa < |st.heap|
    ensures var x := Act(Ent(st, k, id).data["created_utc"], id, k);
      var st1 := st.(heap := Pushed(st.heap, pa, x));
      Valid(st1) && Chronicle(st, k, id, rid) == SortCell(st1, pa)
  {
    var x := Act(Ent(st, k, id).data["created_utc"], id, k);
    var s1 := AppendField(st, Redditor, rid, "activity", x);
    assert ListRef(s1.st, Redditor, rid, "activity") == pa;
  }

  /** Sorting a cell that holds a sorted list plus one new tuple splices the
      tuple in. */
  lemma SortCellInsert(st: Store, pa: nat, s: seq<Item>, x: Item)
    requires Valid(st) && pa < |st.heap| && st.heap[pa] == s + [x]
    requires Joins(s, x) && SortedByTime(s)
    ensures SortCell(st, pa) == Step(st.(heap := st.heap[pa := Insert(s, x)]), Ok(()))
  {
    AppendThenSort(s, x);
  }

  /** With a sorted activity list in cell `pa`, `Chronicle` splices the
      post's tuple in so that the list stays sorted, and changes nothing else. */
  lemma ChronicleSorted(st: Store, k: Kind, id: int, rid: int, pa: nat)
    requires Valid(st) && Registered(st, k, id) && Registered(st, Redditor, rid)
    requires "activity" in Ent(st, Redditor, rid).data && Ent(st, Redditor, rid).data["activity"] == VList(pa)
    requires "created_utc" in Ent(st, k, id).data && pa < |st.heap|
    requires Joins(st.heap[pa], Act(Ent(st, k, id).data["created_utc"], id, k)) && SortedByTime(st.heap[pa])
    ensures var x := Act(Ent(st, k, id).data["created_utc"], id, k);
      Chronicle(st, k, id, rid) == Step(st.(heap := st.heap[pa := Insert(st.heap[pa], x)]), Ok(()))
  {
    var x := Act(Ent(st, k, id).data["created_utc"], id, k);
    ChronicleUnfold(st, k, id, rid, pa);
    var st1 := st.(heap := Pushed(st.heap, pa, x));
    SortCellInsert(st1, pa, st.heap[pa], x);
    assert st1.heap[pa := Insert(st.heap[pa], x)] == st.heap[pa := Insert(st.heap[pa], x)];
  }

  /** A fresh post by an author whose post list and activity are two
      separate lists, the activity sorted, and the post not `no_follow`:
      the post list gains the id, and the activity gains exactly the post's
      tuple, spliced in so that it stays sorted by time. */
  lemma ContributeActivity(st: Store, k: Kind, id: int, rid: int)
    requires Valid(st) && Registered(st, k, id) && IsPost(k)
    requires HasList(st, Redditor, rid, PostList(k)) && HasList(st, Redditor, rid, "activity")
    requires ListRef(st, Redditor, rid, PostList(k)) != ListRef(st, Redditor, rid, "activity")
    requires "created_utc" in Ent(st, k, id).data
    requires var a := st.heap[ListRef(st, Redditor, rid, "activity")];
      Joins(a, Act(Ent(st, k, id).data["created_utc"], id, k)) && SortedByTime(a)
    requires var v := FieldOf(st, k, id, "no_follow"); Plain(v) && !TruthyPlain(v)
    ensures var r := Contribute(st, k, id, rid);
      var pl := ListRef(st, Redditor, rid, PostList(k));
      var pa := ListRef(st, Redditor, rid, "activity");
      var x := Act(Ent(st, k, id).data["created_utc"], id, k);
      && r.res.Ok?
      && r.st.heap == Pushed(st.heap, pl, Id(id))[pa := Insert(st.heap[pa], x)]
      && SortedByTime(r.st.heap[pa])
      && multiset(r.st.heap[pa]) == multiset(st.heap[pa]) + multiset{x}
  {
    var pl := ListRef(st, Redditor, rid, PostList(k));
    var pa := ListRef(st, Redditor, rid, "activity");
    var x := Act(Ent(st, k, id).data["created_utc"], id, k);
    var s1 := AppendField(st, Redditor, rid, PostList(k), Id(id));
    assert s1.st == st.(heap := Pushed(st.heap, pl, Id(id)));
    ChronicleSorted(s1.st, k, id, rid, pa);
    AppendThenSort(st.heap[pa], x);
  }

  /** A comment joins its submission's lists (objects.py:509-514): always the
      total list, and the direct list when it has no parent id or the parent
      id is the submission's own id. */
  function Thread(st: Store, id: int): (r: Step<()>)
    requires Valid(st) && Registered(st, Comment, id)
    ensures Valid(r.st) && Grows(st, r.st) && |r.st.heap| == |st.heap|
    ensures forall k': Kind :: Tab(r.st, k') == Tab(st, k')
    ensures Ent(st, Comment, id).submission.None? ==> r == Step(st, Ok(()))
  {
    EntOk(st, Comment, id);
    match Ent(st, Comment, id).submission
    case None => Step(st, Ok(()))
    case Some(s) =>
      var direct := ChooseParent(FieldOf(st, Comment, id, "parent_id"), Some(s), st.heap) == ToSubmission;
      var s1 :- AppendField(st, Submission, s, "comments_total_id", Id(id));
      if direct then AppendField(s1.0, Submission, s, "comments_id", Id(id)) else Step(s1.0, Ok(()))
  }

  /** A comment with a submission whose two lists exist is appended to the
      total list, and to the direct list exactly when its parent is the
      submission; nothing else changes. */
  lemma ThreadLists(st: Store, id: int)
    requires Valid(st) && Registered(st, Comment, id) && Ent(st, Comment, id).submission.Some?
    requires var s := Ent(st, Comment, id).submission.value;
      HasList(st, Submission, s, "comments_total_id") && HasList(st, Submission, s, "comments_id")
    ensures var e := Ent(st, Comment, id);
      var s := e.submission.value;
      var pt := ListRef(st, Submission, s, "comments_total_id");
      var pc := ListRef(st, Submission, s, "comments_id");
      var total := Pushed(st.heap, pt, Id(id));
      var r := Thread(st, id);
      && r.res.Ok?
      && r.st == st.(heap := if ChooseParent(FieldOf(st, Comment, id, "parent_id"), e.submission, st.heap) == ToSubmission
                             then Pushed(total, pc, Id(id)) else total)
  {
    EntOk(st, Comment, id);
  }

  /** Where a comment's `_parent` points (objects.py:519-522). */
  datatype ParentChoice = ToSubmission | ToComment | NoSubmission

  /** A falsy parent id, or one equal to the submission's id, makes the
      submission the parent; otherwise the parent is a comment, and reading
      the id of a missing submission is an AttributeError. */
  function ChooseParent(pv: Value, sub: Option<int>, h: Heap): ParentChoice
    requires ValueClosed(pv, |h|)
  {
    if !Truthy(pv, h) then ToSubmission
    else if sub.None? then NoSubmission
    else if PyEq(pv, VInt(sub.value), h) then ToSubmission
    else ToComment
  }

  /** Comment `pid` has both of its lists, and each ends with `x`. */
  predicate ListsEndWith(st: Store, pid: int, x: Item)
    requires Valid(st)
  {
    && HasList(st, Comment, pid, "comments_id") && HasList(st, Comment, pid, "comments_total_id")
    && var a := st.heap[ListRef(st, Comment, pid, "comments_id")];
       var b := st.heap[ListRef(st, Comment, pid, "comments_total_id")];
       a != [] && a[|a| - 1] == x && b != [] && b[|b| - 1] == x
  }

  /** After `x` is pushed onto both of comment `pid`'s lists, and its fields
      are otherwise as they were, both lists end with `x`. */
  lemma PushedEndWith(st: Store, st': Store, pid: int, x: Item)
    requires Valid(st) && Valid(st')
    requires HasList(st, Comment, pid, "comments_id") && HasList(st, Comment, pid, "comments_total_id")
    requires Registered(st', Comment, pid) && Ent(st', Comment, pid).data == Ent(st, Comment, pid).data
    requires st'.heap == Pushed(Pushed(st.heap, ListRef(st, Comment, pid, "comments_id"), x),
                                ListRef(st, Comment, pid, "comments_total_id"), x)
    ensures ListsEndWith(st', pid, x)
  {
    var a := ListRef(st, Comment, pid, "comments_id");
    var b := ListRef(st, Comment, pid, "comments_total_id");
    assert ListRef(st', Comment, pid, "comments_id") == a && ListRef(st', Comment, pid, "comments_total_id") == b;
    var h1 := Pushed(st.heap, a, x);
    assert st'.heap[b] == h1[b] + [x];
    assert a != b ==> st'.heap[a] == h1[a];
  }

  /** The parent comment lists the child in both of its lists. */
  function Adopt(st: Store, pid: int, id: int): (r: Step<()>)
    requires Valid(st) && Registered(st, Comment, pid)
    ensures Valid(r.st) && Grows(st, r.st) && |r.st.heap| == |st.heap|
    ensures forall k': Kind :: Tab(r.st, k') == Tab(st, k')
    ensures HasList(st, Comment, pid, "comments_id") && HasList(st, Comment, pid, "comments_total_id") ==>
      r == Step(st.(heap := Pushed(Pushed(st.heap, ListRef(st, Comment, pid, "comments_id"), Id(id)),
                                   ListRef(st, Comment, pid, "comments_total_id"), Id(id))), Ok(()))
    ensures r.res.Ok? ==> HasList(st, Comment, pid, "comments_id") && HasList(st, Comment, pid, "comments_total_id")
  {
    var s1 :- AppendField(st, Comment, pid, "comments_id", Id(id));
    AppendField(s1.0, Comment, pid, "comments_total_id", Id(id))
  }

  // ------------------------------------------------------------ defaults

  /** The defaults of a fresh submission (objects.py:239-266): missing or
      falsy fields get an empty text, a zero, False or a new list. A falsy
      `created_utc` is a ValueError raised after registration, once the text
      defaults are in. */
  function SubmissionDefaults(st: Store, id: int): (r: Step<()>)
    requires Valid(st) && Registered(st, Submission, id)
    ensures Valid(r.st) && Grows(st, r.st) && SameKeys(st, r.st)
    ensures r.res.Err? <==> !FieldTruthy(st, Submission, id, "created_utc")
    ensures r.res.Err? ==> r.res.error == ValueError
    ensures r.res.Ok? ==>
      Ent(r.st, Submission, id).data.Keys == Ent(st, Submission, id).data.Keys + TextKeys + CountKeys
  {
    EntOk(st, Submission, id);
    var d := Ent(st, Submission, id).data;
    var d1 := TextFill(d, st.heap);
    // `created_utc` is not one of the text keys, so it reads the same in `d1`.
    if !Truthy(Get(d, "created_utc"), st.heap) then Step(SetData(st, Submission, id, d1), Err(ValueError))
    else Step(CountsDefaults(st, id, d1), Ok(()))
  }

  /** The flag, count and list defaults, stored with the text defaults `d`. */
  function CountsDefaults(st: Store, id: int, d: Fields): (st': Store)
    requires Valid(st) && Registered(st, Submission, id) && FieldsClosed(d, |st.heap|)
    requires "id" in d && d["id"] == VInt(id)
    ensures Valid(st') && Grows(st, st') && SameKeys(st, st') && Registered(st', Submission, id)
    ensures Ent(st', Submission, id).data.Keys == d.Keys + CountKeys
  {
    var r := CountFill(st, d);
    SetData(r.0, Submission, id, r.1)
  }

  /** The flag, count and list defaults on a field map. */
  function CountFill(st: Store, d: Fields): (r: (Store, Fields))
    requires Valid(st) && FieldsClosed(d, |st.heap|)
    ensures Valid(r.0) && Grows(st, r.0) && forall k :: Tab(r.0, k) == Tab(st, k)
    ensures FieldsClosed(r.1, |r.0.heap|) && r.1.Keys == d.Keys + CountKeys
    ensures "id" in d ==> "id" in r.1 && r.1["id"] == d["id"]
  {
    ListFill(st, FlagFill(d, st.heap))
  }

  /** The two list defaults on a field map. */
  function ListFill(st: Store, d: Fields): (r: (Store, Fields))
    requires Valid(st) && FieldsClosed(d, |st.heap|)
    ensures Valid(r.0) && Grows(st, r.0) && forall k :: Tab(r.0, k) == Tab(st, k)
    ensures FieldsClosed(r.1, |r.0.heap|) && r.1.Keys == d.Keys + ListKeys
    ensures "id" in d ==> r.1["id"] == d["id"]
  {
    var (st1, d1) := FreshData(st, d, "comments_id");
    FreshData(st1, d1, "comments_total_id")
  }

  const TextKeys: set<string> := {"body"} + {"title"} + {"selftext"} + {"score"}
  const FlagKeys: set<string> := {"no_follow"} + {"num_comments"}
  const ListKeys: set<string> := {"comments_id"} + {"comments_total_id"}
  const CountKeys: set<string> := FlagKeys + ListKeys

  /** `if not d.get(key): d[key] = v` on a field map. */
  function FillData(d: Fields, h: Heap, key: string, v: Value): (d': Fields)
    requires FieldsClosed(d, |h|) && ValueClosed(v, |h|)
    ensures FieldsClosed(d', |h|) && d'.Keys == d.Keys + {key}
    ensures forall other | other in d && other != key :: d'[other] == d[other]
    ensures key in d && Truthy(d[key], h) ==> d'[key] == d[key]
    ensures !(key in d && Truthy(d[key], h)) ==> d'[key] == v
  {
    if key in d && Truthy(d[key], h) then d else d[key := v]
  }

  /** `if not d.get(key): d[key] = []` on a field map: a new heap list when
      the field is falsy. */
  function FreshData(st: Store, d: Fields, key: string): (r: (Store, Fields))
    requires Valid(st) && FieldsClosed(d, |st.heap|) && key != "id"
    ensures Valid(r.0) && Grows(st, r.0) && forall k :: Tab(r.0, k) == Tab(st, k)
    ensures FieldsClosed(r.1, |r.0.heap|) && r.1.Keys == d.Keys + {key}
    ensures "id" in d ==> r.1["id"] == d["id"]
    ensures key in d && Truthy(d[key], st.heap) ==> r == (st, d)
    ensures !(key in d && Truthy(d[key], st.heap)) ==>
      r.0.heap == st.heap + [[]] && r.1 == d[key := VList(|st.heap|)]
  {
    if key in d && Truthy(d[key], st.heap) then (st, d)
    else
      var (s1, p) := Alloc(st);
      FieldsClosedMono(d, |st.heap|, |s1.heap|);
      (s1, d[key := VList(p)])
  }

  /** The text and score defaults on a field map. */
  function TextFill(d: Fields, h: Heap): (d': Fields)
    requires FieldsClosed(d, |h|)
    ensures FieldsClosed(d', |h|) && d'.Keys == d.Keys + TextKeys
    ensures "id" in d ==> d'["id"] == d["id"]
  {
    var d1 := FillData(d, h, "body", VStr(""));
    var d2 := FillData(d1, h, "title", VStr(""));
    var d3 := FillData(d2, h, "selftext", VStr(""));
    FillData(d3, h, "score", VInt(0))
  }

  /** The flag and count defaults on a field map. */
  function FlagFill(d: Fields, h: Heap): (d': Fields)
    requires FieldsClosed(d, |h|)
    ensures FieldsClosed(d', |h|) && d'.Keys == d.Keys + FlagKeys
    ensures "id" in d ==> d'["id"] == d["id"]
  {
    FillData(FillData(d, h, "no_follow", VBool(false)), h, "num_comments", VInt(0))
  }

  // ------------------------------------------------------------ relations

  /** The `except` clauses around a step: ValueError only; ValueError and
      KeyError; or ValueError, KeyError and TypeError. */
  datatype Guard = ValueOnly | ValueKey | ValueKeyType

  predicate Caught(g: Guard, e: Exc) {
    match g
    case ValueOnly => e == ValueError
    case ValueKey => e == ValueError || e == KeyError
    case ValueKeyType => e == ValueError || e == KeyError || e == TypeError
  }

  /** Around its subreddit link a submission only catches ValueError, a
      comment all three. */
  function SubredditGuard(k: Kind): Guard {
    if k == Submission then ValueOnly else ValueKeyType
  }

  /** A relation attribute: `_submission`, `_author`, `_subreddit`,
      `_comment_tree`, or a `_parent` or `_head` of the given class. */
  datatype Slot = SubmissionOf | AuthorOf | SubredditOf | TreeOf | ParentOf(pk: Kind) | HeadOf(hk: Kind)

  /** The class a slot refers to. */
  function SlotKind(s: Slot): Kind {
    match s
    case SubmissionOf => Submission
    case AuthorOf => Redditor
    case SubredditOf => Subreddit
    case TreeOf => CommentTree
    case ParentOf(pk) => pk
    case HeadOf(hk) => hk
  }

  /** `e` with slot `s` set to the instance `t`, or to None. */
  function Fill(e: Entity, s: Slot, t: Option<int>): Entity {
    match s
    case SubmissionOf => e.(submission := t)
    case AuthorOf => e.(author := t)
    case SubredditOf => e.(subreddit := t)
    case TreeOf => e.(tree := t)
    case ParentOf(pk) => e.(parent := if t.Some? then Some(Ref(pk, t.value)) else None)
    case HeadOf(hk) => e.(head := if t.Some? then Some(Ref(hk, t.value)) else None)
  }

  /** Filling a slot with a registered instance keeps every relation registered. */
  lemma FillRels(e: Entity, s: Slot, t: Option<int>, st: Store)
    requires RelsIn(e, st) && (t.Some? ==> Registered(st, SlotKind(s), t.value))
    ensures RelsIn(Fill(e, s, t), st) && Fill(e, s, t).data == e.data
  {
    match s
    case SubmissionOf =>
    case AuthorOf =>
    case SubredditOf =>
    case TreeOf =>
    case ParentOf(pk) =>
    case HeadOf(hk) =>
  }

  /** `self.<slot> = <instance or None>`: the only change is that slot. */
  function SetRel(st: Store, k: Kind, id: int, s: Slot, t: Option<int>): (st': Store)
    requires Valid(st) && Registered(st, k, id)
    requires t.Some? ==> Registered(st, SlotKind(s), t.value)
    ensures Valid(st') && Grows(st, st') && st'.heap == st.heap && SameKeys(st, st')
    ensures Registered(st', k, id) && Ent(st', k, id) == Fill(Ent(st, k, id), s, t)
    ensures Tab(st', k).ents == Tab(st, k).ents[id := Fill(Ent(st, k, id), s, t)]
    ensures forall k' | k' != k :: Tab(st', k') == Tab(st, k')
  {
    EntOk(st, k, id);
    FillRels(Ent(st, k, id), s, t, st);
    Relate(st, k, id, Fill(Ent(st, k, id), s, t))
  }

  /** `try: self.<slot> = <step>` followed by `except <guard>: self.<slot> =
      None`, where `res` is what the step produced: an instance is stored, a
      caught exception stores None, any other exception propagates with
      nothing changed. */
  function Settle(st: Store, k: Kind, id: int, s: Slot, g: Guard, res: Result<int>): (r: Step<()>)
    requires Valid(st) && Registered(st, k, id)
    requires res.Ok? ==> Registered(st, SlotKind(s), res.value)
    ensures Valid(r.st) && Grows(st, r.st) && r.st.heap == st.heap && SameKeys(st, r.st)
    ensures r.res.Err? <==> res.Err? && !Caught(g, res.error)
    ensures r.res.Err? ==> r == Step(st, Err(res.error))
    ensures r.res.Ok? ==>
      Registered(r.st, k, id) && Ent(r.st, k, id) == Fill(Ent(st, k, id), s, if res.Ok? then Some(res.value) else None)
  {
    match res
    case Ok(x) => Step(SetRel(st, k, id, s, Some(x)), Ok(()))
    case Err(e) => if Caught(g, e) then Step(SetRel(st, k, id, s, None), Ok(())) else Step(st, Err(e))
  }

  // ------------------------------------------------------------ parent comments

  /** What `try: self._parent = create_comment({"id": pv}) ...` promises: a
      parent id that does not decode leaves the parent None; a parent
      comment that already holds both lists becomes the parent and gains the
      id at the end of each; otherwise, on success, the parent is either
      None or the comment of the decoded id, whose two lists end with this
      comment's id. */
  ghost predicate ParentCommentSpec(st: Store, id: int, pv: Value, r: Step<()>)
    requires Valid(st) && Valid(r.st) && Registered(st, Comment, id) && Registered(r.st, Comment, id)
  {
    && (ProcessId(pv, Comment).Err? ==> r.res.Ok? && Ent(r.st, Comment, id).parent.None?)
    && (r.res.Ok? ==>
         || Ent(r.st, Comment, id).parent.None?
         || (&& ProcessId(pv, Comment).Ok?
             && Ent(r.st, Comment, id).parent == Some(Ref(Comment, ProcessId(pv, Comment).value))
             && ListsEndWith(r.st, ProcessId(pv, Comment).value, Id(id))))
    && (ProcessId(pv, Comment).Ok? ==>
         var pid := ProcessId(pv, Comment).value;
         HasList(st, Comment, pid, "comments_id") && HasList(st, Comment, pid, "comments_total_id") ==>
         && r.res.Ok? && Ent(r.st, Comment, id).parent == Some(Ref(Comment, pid))
         && r.st.heap == Pushed(Pushed(st.heap, ListRef(st, Comment, pid, "comments_id"), Id(id)),
                                ListRef(st, Comment, pid, "comments_total_id"), Id(id)))
  }

  /** What `create_comment({"id": pv})` gave back: a decoded id that was
      already registered is fetched with nothing changed, an id that does not
      decode is its error with nothing changed, and success names the
      registered comment of the decoded id. */
  ghost predicate Fetched(st: Store, pv: Value, c: Step<int>) {
    && Valid(c.st) && Grows(st, c.st)
    && (c.res.Ok? ==>
         ProcessId(pv, Comment).Ok? && c.res.value == ProcessId(pv, Comment).value && Registered(c.st, Comment, c.res.value))
    && (ProcessId(pv, Comment).Err? ==> c == Step(st, Err(ProcessId(pv, Comment).error)))
    && (ProcessId(pv, Comment).Ok? && Registered(st, Comment, ProcessId(pv, Comment).value) ==>
         c == Step(st, Ok(ProcessId(pv, Comment).value)))
  }

  /** `except (ValueError, KeyError): self._parent = None`. */
  function ParentDropped(st: Store, id: int, pv: Value, c: Step<int>): (r: Step<()>)
    requires Valid(st) && Registered(st, Comment, id) && Fetched(st, pv, c) && c.res.Err?
    requires Registered(c.st, Comment, id)
    ensures Valid(r.st) && Grows(st, r.st) && Registered(r.st, Comment, id)
    ensures r.res.Err? ==> !Caught(ValueKey, r.res.error)
    ensures ParentCommentSpec(st, id, pv, r)
  {
    var pr := ProcessId(pv, Comment);
    assert pr.Ok? ==> !Registered(st, Comment, pr.value);
    var r := Settle(c.st, Comment, id, ParentOf(Comment), ValueKey, c.res);
    assert r.res.Ok? ==> Ent(r.st, Comment, id) == Fill(Ent(c.st, Comment, id), ParentOf(Comment), None);
    assert r.res.Ok? ==> Ent(r.st, Comment, id).parent.None?;
    r
  }

  /** The fetched comment becomes the parent and lists this comment. */
  method ParentAdopted(st: Store, id: int, pv: Value, c: Step<int>) returns (r: Step<()>)
    requires Valid(st) && Registered(st, Comment, id) && Fetched(st, pv, c) && c.res.Ok?
    requires Registered(c.st, Comment, id)
    ensures Valid(r.st) && Grows(st, r.st) && Registered(r.st, Comment, id)
    ensures r.res.Err? ==> !Caught(ValueKey, r.res.error)
    ensures ParentCommentSpec(st, id, pv, r)
  {
    r := ParentAttach(c.st, id, c.res.value);
  }

  /** The parent comment is stored, then lists this comment in both of its
      lists; a ValueError or KeyError while listing resets the parent. */
  method ParentAttach(st: Store, id: int, pid: int) returns (r: Step<()>)
    requires Valid(st) && Registered(st, Comment, id) && Registered(st, Comment, pid)
    ensures Valid(r.st) && Grows(st, r.st) && SameKeys(st, r.st) && Registered(r.st, Comment, id)
    ensures r.res.Err? ==> !Caught(ValueKey, r.res.error)
    ensures HasList(st, Comment, pid, "comments_id") && HasList(st, Comment, pid, "comments_total_id") ==>
      && r.res.Ok? && Ent(r.st, Comment, id).parent == Some(Ref(Comment, pid))
      && r.st.heap == Pushed(Pushed(st.heap, ListRef(st, Comment, pid, "comments_id"), Id(id)),
                             ListRef(st, Comment, pid, "comments_total_id"), Id(id))
    ensures r.res.Ok? && !(HasList(st, Comment, pid, "comments_id") && HasList(st, Comment, pid, "comments_total_id")) ==>
      Ent(r.st, Comment, id).parent.None?
    ensures r.res.Ok? && Ent(r.st, Comment, id).parent.Some? ==> ListsEndWith(r.st, pid, Id(id))
  {
    var st1 := SetRel(st, Comment, id, ParentOf(Comment), Some(pid));
    assert Ent(st1, Comment, pid).data == Ent(st, Comment, pid).data;
    var s := Adopt(st1, pid, id);
    if s.res.Err? {
      r := Settle(s.st, Comment, id, ParentOf(Comment), ValueKey, Err(s.res.error));
      assert r.res.Ok? ==> Ent(r.st, Comment, id) == Fill(Ent(s.st, Comment, id), ParentOf(Comment), None);
    } else {
      assert HasList(st, Comment, pid, "comments_id") && HasList(st, Comment, pid, "comments_total_id");
      assert ListRef(st1, Comment, pid, "comments_id") == ListRef(st, Comment, pid, "comments_id");
      assert ListRef(st1, Comment, pid, "comments_total_id") == ListRef(st, Comment, pid, "comments_total_id");
      assert Ent(s.st, Comment, id) == Ent(st1, Comment, id);
      PushedEndWith(st, s.st, pid, Id(id));
      r := s;
    }
  }


  // ------------------------------------------------------------ comment trees

  /** The dict a submission passes to `create_comment_tree`
      (objects.py:269-276): keyed by its own id, sharing its two lists. */
  function SubmissionTreeArgs(st: Store, id: int): (a: Fields)
    requires Valid(st) && Registered(st, Submission, id)
    requires var d := Ent(st, Submission, id).data;
      "id_36" in d && "fullname" in d && "comments_id" in d && "comments_total_id" in d
    ensures FieldsClosed(a, |st.heap|) && a.Keys >= {"id", "submission_id", "comments_id", "comments_total_id"}
    ensures a["id"] == VInt(id) && a["submission_id"] == VInt(id)
    ensures var d := Ent(st, Submission, id).data;
      a["comments_id"] == d["comments_id"] && a["comments_total_id"] == d["comments_total_id"]
  {
    EntOk(st, Submission, id);
    var d := Ent(st, Submission, id).data;
    map[
      "submission_id" := VInt(id), "submission_id_36" := d["id_36"],
      "submission_fullname" := d["fullname"], "id" := VInt(id), "id_36" := d["id_36"],
      "fullname" := d["fullname"], "comments_id" := d["comments_id"],
      "comments_total_id" := d["comments_total_id"]]
  }

  /** Every field a comment passes to `create_comment_tree` is present; when
      one is missing, building the dict raises KeyError. */
  predicate CommentTreeReady(st: Store, id: int)
    requires Registered(st, Comment, id)
  {
    var d := Ent(st, Comment, id).data;
    "id_36" in d && "fullname" in d && "link_id" in d && "parent_id" in d && "parent_id_36" in d
    && "parent_id_fullname" in d && "comments_id" in d && "comments_total_id" in d
  }

  /** The dict a comment passes to `create_comment_tree`
      (objects.py:540-550): its own id, its submission as `submission_id`,
      and its two lists. */
  function CommentTreeArgs(st: Store, id: int): (a: Fields)
    requires Valid(st) && Registered(st, Comment, id) && CommentTreeReady(st, id)
    ensures FieldsClosed(a, |st.heap|) && a.Keys >= {"id", "submission_id", "comments_id", "comments_total_id"}
    ensures a["id"] == VInt(id)
    ensures var d := Ent(st, Comment, id).data;
      a["submission_id"] == d["link_id"] &&
      a["comments_id"] == d["comments_id"] && a["comments_total_id"] == d["comments_total_id"]
  {
    EntOk(st, Comment, id);
    var d := Ent(st, Comment, id).data;
    map[
      "id" := VInt(id), "id_36" := d["id_36"], "fullname" := d["fullname"],
      "submission_id" := d["link_id"], "parent_id" := d["parent_id"],
      "parent_id_36" := d["parent_id_36"], "parent_id_fullname" := d["parent_id_fullname"],
      "comments_id" := d["comments_id"], "comments_total_id" := d["comments_total_id"]]
  }

  /** Where a tree with a falsy list takes it from (objects.py:832-843): the
      submission of the tree's id when it is registered or `submission_id`
      equals the id (reading a missing `submission_id` is a KeyError), else
      the registered comment of that id, else nowhere. */
  function HeadSource(st: Store, tid: int): (r: Result<Option<Kind>>)
    requires Valid(st) && Registered(st, CommentTree, tid)
    ensures r.Err? <==> !Registered(st, Submission, tid) && "submission_id" !in Ent(st, CommentTree, tid).data
    ensures r.Err? ==> r.error == KeyError
    ensures Registered(st, Submission, tid) ==> r == Ok(Some(Submission))
    ensures r == Ok(Some(Comment)) ==> Registered(st, Comment, tid) && !Registered(st, Submission, tid)
    ensures r == Ok(None) ==> !Registered(st, Comment, tid) && !Registered(st, Submission, tid)
    ensures r.Ok? ==> r.value.None? || IsPost(r.value.value)
  {
    var d := Ent(st, CommentTree, tid).data;
    EntOk(st, CommentTree, tid);
    if Registered(st, Submission, tid) then Ok(Some(Submission))
    else if "submission_id" !in d then Err(KeyError)
    else if PyEq(VInt(tid), d["submission_id"], st.heap) then Ok(Some(Submission))
    else if Registered(st, Comment, tid) then Ok(Some(Comment))
    else Ok(None)
  }

  /** `self._data[key] = head._data[key]`: the tree shares the head's list;
      a head without that field is a KeyError. */
  function Borrow(st: Store, tid: int, k: Kind, hid: int, key: string): (r: Step<()>)
    requires Valid(st) && Registered(st, CommentTree, tid) && Registered(st, k, hid) && key != "id"
    ensures Valid(r.st) && Grows(st, r.st) && SameKeys(st, r.st) && r.st.heap == st.heap
    ensures r.res.Err? <==> key !in Ent(st, k, hid).data
    ensures r.res.Err? ==> r == Step(st, Err(KeyError))
    ensures r.res.Ok? ==>
      && Registered(r.st, CommentTree, tid) && key in Ent(r.st, CommentTree, tid).data
      && Ent(r.st, CommentTree, tid).data[key] == Ent(st, k, hid).data[key]
  {
    if key !in Ent(st, k, hid).data then Step(st, Err(KeyError))
    else
      ValueClosedIn(st, k, hid, key);
      Step(SetField(st, CommentTree, tid, key, Ent(st, k, hid).data[key]), Ok(()))
  }
}

=== FILE: tree_update.dfy ===
/** `CommentTree.update_attr`, `update_comments_total_id` and `dig_depth`
    (objects.py:901-971) as operations on the registry. Each is proved to
    agree with the reference descent `Trees.Reach` whenever every id it meets
    is an ingested comment, the case in which fetching a comment changes
    nothing. */
module TreeUpdate {
  import opened PyValues
  import opened Registry
  import opened ObjectSteps
  import opened Objects
  import opened Trees

  /** `CommentTree.dig_depth(ids, depth)`. Each id is fetched with
      `create_comment`; a ValueError skips the id (a tuple is not an id, a
      comment id of 0 is refused), any other error ends the descent. The
      nesting of `dig_depth` calls is bounded by `fuel`. */
  method DigDepth(st: Store, ids: seq<Item>, depth: Option<int>, fuel: nat, n: nat) returns (r: Step<seq<Item>>)
    requires Valid(st)
    ensures Valid(r.st) && Grows(st, r.st)
    ensures r.res.Err? ==> r.res.error != ValueError
    ensures Reach(st, ids, depth, fuel).Some? ==> r == Step(st, Ok(Reach(st, ids, depth, fuel).value))
    decreases fuel, |ids|
  {
    if ids == [] {
      return Step(st, Ok([]));
    }
    var a := DigVisit(st, ids[0], depth, fuel, n);
    if a.res.Err? {
      return Step(a.st, Err(a.res.error));
    }
    var b := DigDepth(a.st, ids[1..], depth, fuel, n);
    if b.res.Err? {
      return b;
    }
    r := Step(b.st, Ok(a.res.value + b.res.value));
  }

  /** One pass of the loop body of `dig_depth`. */
  method DigVisit(st: Store, x: Item, depth: Option<int>, fuel: nat, n: nat) returns (r: Step<seq<Item>>)
    requires Valid(st)
    ensures Valid(r.st) && Grows(st, r.st)
    ensures r.res.Err? ==> r.res.error != ValueError
    ensures Visit(st, x, depth, fuel).Some? ==> r == Step(st, Ok(Visit(st, x, depth, fuel).value))
    decreases fuel, 0
  {
    if !x.Id? {
      return Step(st, Ok([]));
    }
    var d := map["id" := VInt(x.id)];
    assert d["id" := VInt(x.id)] == d;
    if Registered(st, Comment, x.id) {
      MergeIdNoop(st, Comment, x.id);
    }
    var c := CreateObject(st, d, Comment, n);
    if c.res.Err? {
      return Step(c.st, if c.res.error == ValueError then Ok([]) else Err(c.res.error));
    }
    var s1 := c.st;
    var cd := Ent(s1, Comment, x.id).data;
    if "comments_id" !in cd {
      return Step(s1, Err(KeyError));
    }
    if !cd["comments_id"].VList? {
      return Step(s1, Err(TypeError));
    }
    var kids := s1.heap[ListRef(s1, Comment, x.id, "comments_id")];
    if Shallow(depth) {
      return Step(s1, Ok(kids));
    }
    if fuel == 0 {
      return Step(s1, Err(RecursionError));
    }
    var b := DigDepth(s1, kids, Next(depth), fuel - 1, n);
    if b.res.Err? {
      return b;
    }
    r := Step(b.st, Ok(kids + b.res.value));
  }

  // ------------------------------------------------------------ update_comments_total_id

  /** The tree's field map and the heap after `update_comments_total_id`
      when every id below the tree is an ingested comment: the tree takes
      its head's `comments_total_id` list (a new empty list when it has no
      head), and every id `dig_depth(comments_id, None)` finds that is not
      yet in it is appended once, in the order found. None when the descent
      meets anything else, or a list is missing. */
  function Settled(st: Store, tid: int, fuel: nat): Option<(Fields, Heap)>
    requires Valid(st) && Registered(st, CommentTree, tid)
  {
    var e := Ent(st, CommentTree, tid);
    if !HasList(st, CommentTree, tid, "comments_id") then None
    else
      var found := Reach(st, st.heap[ListRef(st, CommentTree, tid, "comments_id")], None, fuel);
      if found.None? then None
      else if e.head.None? then
        Some((e.data["comments_total_id" := VList(|st.heap|)], st.heap + [AppendMissing([], found.value)]))
      else if !HasList(st, e.head.value.kind, e.head.value.id, "comments_total_id") then None
      else
        var p := ListRef(st, e.head.value.kind, e.head.value.id, "comments_total_id");
        Some((e.data["comments_total_id" := VList(p)], st.heap[p := AppendMissing(st.heap[p], found.value)]))
  }

  /** After the update, the tree's `comments_total_id` holds, once each,
      every reply at every level below the tree, after what its head already
      had; nothing else is added. A head's list without duplicates keeps none. */
  lemma SettledTotal(st: Store, tid: int, fuel: nat, d: int)
    requires Valid(st) && Registered(st, CommentTree, tid) && Settled(st, tid, fuel).Some?
    ensures var (data, h) := Settled(st, tid, fuel).value;
      var ids := st.heap[ListRef(st, CommentTree, tid, "comments_id")];
      var found := Reach(st, ids, None, fuel).value;
      && "comments_total_id" in data && data["comments_total_id"].VList?
      && var q := data["comments_total_id"].ref;
      && q < |h|
      && (forall x | x in found :: x in h[q])
      && (Reach(st, ids, Some(d), fuel).Some? ==> forall x | x in Reach(st, ids, Some(d), fuel).value :: x in h[q])
      && FreshTail(if q < |st.heap| then st.heap[q] else [], h[q])
      && (forall y | y in h[q] :: y in found || (q < |st.heap| && y in st.heap[q]))
  {
    var e := Ent(st, CommentTree, tid);
    var ids := st.heap[ListRef(st, CommentTree, tid, "comments_id")];
    var found := Reach(st, ids, None, fuel).value;
    var old_: seq<Item> := if e.head.None? then [] else st.heap[ListRef(st, e.head.value.kind, e.head.value.id, "comments_total_id")];
    AppendMissingFresh(old_, found);
    var rd := Reach(st, ids, Some(d), fuel);
    if rd.Some? {
      DigWithin(st, ids, d, fuel);
      forall x | x in rd.value
        ensures x in found
      {
        assert x in multiset(rd.value);
      }
    }
  }

  /** `self._data["comments_total_id"] = self._head._data["comments_total_id"]`,
      or a new empty list when there is no head. */
  function TotalBase(st: Store, tid: int): (r: Step<()>)
    requires Valid(st) && Registered(st, CommentTree, tid)
    ensures Valid(r.st) && Grows(st, r.st) && Registered(r.st, CommentTree, tid)
    ensures Tab(r.st, Comment) == Tab(st, Comment) && st.heap <= r.st.heap
    ensures r.res.Err? ==> r.res.error == KeyError && r.st == st
    ensures var e := Ent(st, CommentTree, tid);
      && (e.head.None? ==>
            && r.res.Ok? && r.st.heap == st.heap + [[]]
            && Ent(r.st, CommentTree, tid).data == e.data["comments_total_id" := VList(|st.heap|)])
      && (e.head.Some? ==>
            (r.res.Ok? <==> "comments_total_id" in Ent(st, e.head.value.kind, e.head.value.id).data))
      && (e.head.Some? && r.res.Ok? ==>
            && r.st.heap == st.heap
            && Ent(r.st, CommentTree, tid).data ==
               e.data["comments_total_id" := Ent(st, e.head.value.kind, e.head.value.id).data["comments_total_id"]])
  {
    var e := Ent(st, CommentTree, tid);
    EntOk(st, CommentTree, tid);
    match e.head
    case None =>
      var (s0, p) := Alloc(st);
      Step(SetField(s0, CommentTree, tid, "comments_total_id", VList(p)), Ok(()))
    case Some(h) =>
      var hd := Ent(st, h.kind, h.id).data;
      if "comments_total_id" !in hd then Step(st, Err(KeyError))
      else
        ValueClosedIn(st, h.kind, h.id, "comments_total_id");
        Step(SetField(st, CommentTree, tid, "comments_total_id", hd["comments_total_id"]), Ok(()))
  }

  /** The rest of `update_comments_total_id`: dig below `comments_id` with no
      depth limit and append to `comments_total_id` whatever it lacks. A
      missing field is a KeyError; a field that is not a list, a TypeError. */
  method TotalExtend(st: Store, tid: int, fuel: nat, n: nat) returns (r: Step<()>)
    requires Valid(st) && Registered(st, CommentTree, tid)
    ensures Valid(r.st) && Grows(st, r.st) && Registered(r.st, CommentTree, tid)
    ensures r.res.Err? ==> r.res.error != ValueError
    ensures !HasList(st, CommentTree, tid, "comments_id") ==> r.res.Err? && r.st == st
    ensures HasList(st, CommentTree, tid, "comments_id") && HasList(st, CommentTree, tid, "comments_total_id") &&
            Reach(st, st.heap[ListRef(st, CommentTree, tid, "comments_id")], None, fuel).Some? ==>
      var p := ListRef(st, CommentTree, tid, "comments_total_id");
      var found := Reach(st, st.heap[ListRef(st, CommentTree, tid, "comments_id")], None, fuel).value;
      && r.res.Ok?
      && r.st.heap == st.heap[p := AppendMissing(st.heap[p], found)]
      && (forall k :: Tab(r.st, k) == Tab(st, k))
  {
    var ed := Ent(st, CommentTree, tid).data;
    if "comments_id" !in ed {
      return Step(st, Err(KeyError));
    }
    if !ed["comments_id"].VList? {
      return Step(st, Err(TypeError));
    }
    var dug := DigDepth(st, st.heap[ListRef(st, CommentTree, tid, "comments_id")], None, fuel, n);
    if dug.res.Err? {
      return Step(dug.st, Err(dug.res.error));
    }
    var s2 := dug.st;
    var found := dug.res.value;
    if found == [] {
      if HasList(st, CommentTree, tid, "comments_total_id") {
        var q := ListRef(st, CommentTree, tid, "comments_total_id");
        assert st.heap[q := AppendMissing(st.heap[q], [])] == st.heap;
      }
      return Step(s2, Ok(()));
    }
    var td := Ent(s2, CommentTree, tid).data;
    if "comments_total_id" !in td {
      return Step(s2, Err(KeyError));
    }
    if !td["comments_total_id"].VList? {
      return Step(s2, Err(TypeError));
    }
    var p := ListRef(s2, CommentTree, tid, "comments_total_id");
    r := Step(Rewrite(s2, p, AppendMissing(s2.heap[p], found)), Ok(()));
  }

  /** `CommentTree.update_comments_total_id`. */
  method UpdateCommentsTotalId(st: Store, tid: int, fuel: nat, n: nat) returns (r: Step<()>)
    requires Valid(st) && Registered(st, CommentTree, tid)
    ensures Valid(r.st) && Grows(st, r.st) && Registered(r.st, CommentTree, tid)
    ensures r.res.Err? ==> r.res.error != ValueError
    ensures Settled(st, tid, fuel).Some? ==>
      && r.res.Ok?
      && Ent(r.st, CommentTree, tid).data == Settled(st, tid, fuel).value.0
      && r.st.heap == Settled(st, tid, fuel).value.1
  {
    var b := TotalBase(st, tid);
    if b.res.Err? {
      return Step(b.st, Err(b.res.error));
    }
    if Settled(st, tid, fuel).Some? {
      SettledSplit(st, tid, fuel);
    }
    r := TotalExtend(b.st, tid, fuel, n);
  }

  /** `Settled` is the base step followed by the extension. */
  lemma SettledSplit(st: Store, tid: int, fuel: nat)
    requires Valid(st) && Registered(st, CommentTree, tid) && Settled(st, tid, fuel).Some?
    ensures TotalBase(st, tid).res.Ok?
    ensures var b := TotalBase(st, tid).st;
      && HasList(b, CommentTree, tid, "comments_id") && HasList(b, CommentTree, tid, "comments_total_id")
      && var found := Reach(b, b.heap[ListRef(b, CommentTree, tid, "comments_id")], None, fuel);
      && found.Some?
      && var p := ListRef(b, CommentTree, tid, "comments_total_id");
      && Settled(st, tid, fuel).value == (Ent(b, CommentTree, tid).data, b.heap[p := AppendMissing(b.heap[p], found.value)])
  {
    var b := TotalBase(st, tid).st;
    var ids := st.heap[ListRef(st, CommentTree, tid, "comments_id")];
    ReachFrame(st, b, ids, None, fuel);
    assert ListRef(b, CommentTree, tid, "comments_id") == ListRef(st, CommentTree, tid, "comments_id");
    var found := Reach(st, ids, None, fuel).value;
    var e := Ent(st, CommentTree, tid);
    if e.head.None? {
      assert b.heap[|st.heap| := AppendMissing([], found)] == st.heap + [AppendMissing([], found)];
    } else {
      var q := ListRef(st, e.head.value.kind, e.head.value.id, "comments_total_id");
      assert Ent(b, CommentTree, tid).data == e.data["comments_total_id" := VList(q)];
    }
  }

  // ------------------------------------------------------------ update_attr

  /** A tree whose head and submission are set and whose two lists are
      non-empty: the first four steps of `update_attr` leave it alone. */
  predicate Complete(st: Store, tid: int)
    requires Valid(st) && Registered(st, CommentTree, tid)
  {
    var e := Ent(st, CommentTree, tid);
    && e.head.Some? && e.submission.Some?
    && FieldTruthy(st, CommentTree, tid, "comments_id")
    && FieldTruthy(st, CommentTree, tid, "comments_total_id")
  }

  /** `CommentTree.update_attr`: a tree without a head takes the comment, else
      the submission, registered under its own id; a tree without a
      submission fetches it; falsy lists are inherited as the constructor
      does; then `update_comments_total_id`. */
  method UpdateAttr(st: Store, tid: int, fuel: nat, n: nat) returns (r: Step<()>)
    requires Valid(st) && Registered(st, CommentTree, tid)
    ensures Valid(r.st) && Grows(st, r.st) && Registered(r.st, CommentTree, tid)
    ensures r.res.Err? ==> r.res.error != ValueError
    ensures Complete(st, tid) && Settled(st, tid, fuel).Some? ==>
      && r.res.Ok?
      && Ent(r.st, CommentTree, tid).data == Settled(st, tid, fuel).value.0
      && r.st.heap == Settled(st, tid, fuel).value.1
  {
    var a := TreeRelations(st, tid, n);
    if a.res.Err? {
      return a;
    }
    var b := TreeLists(a.st, tid, n);
    if b.res.Err? {
      return b;
    }
    r := UpdateCommentsTotalId(b.st, tid, fuel, n);
  }

  /** The first half of `update_attr`: the head, then the submission. */
  method TreeRelations(st: Store, tid: int, n: nat) returns (r: Step<()>)
    requires Valid(st) && Registered(st, CommentTree, tid)
    ensures Valid(r.st) && Grows(st, r.st) && Registered(r.st, CommentTree, tid)
    ensures r.res.Err? ==> r.res.error != ValueError
    ensures Ent(st, CommentTree, tid).head.Some? && Ent(st, CommentTree, tid).submission.Some? ==> r == Step(st, Ok(()))
  {
    var s := st;
    if Ent(st, CommentTree, tid).head.None? {
      var h := Step(st, Ok(()));
      if Registered(st, Comment, tid) {
        h := HeadLink(st, tid, Comment, n);
      } else if Registered(st, Submission, tid) {
        h := HeadLink(st, tid, Submission, n);
      }
      if h.res.Err? {
        return h;
      }
      s := h.st;
    }
    if Ent(s, CommentTree, tid).submission.None? {
      r := TreeSubmission(s, tid, n);
    } else {
      r := Step(s, Ok(()));
    }
  }

  /** The second half: each falsy list is inherited. */
  method TreeLists(st: Store, tid: int, n: nat) returns (r: Step<()>)
    requires Valid(st) && Registered(st, CommentTree, tid)
    ensures Valid(r.st) && Grows(st, r.st) && Registered(r.st, CommentTree, tid)
    ensures r.res.Err? ==> r.res.error != ValueError
    ensures FieldTruthy(st, CommentTree, tid, "comments_id") && FieldTruthy(st, CommentTree, tid, "comments_total_id") ==>
      r == Step(st, Ok(()))
  {
    var a := Inherit(st, tid, "comments_id", n);
    if a.res.Err? {
      return a;
    }
    r := Inherit(a.st, tid, "comments_total_id", n);
  }
}

=== FILE: trees.dfy ===
/** A comment tree's lists and the descent through the comment graph:
    `CommentTree.__len__`, `__getitem__`, `__contains__` and `add_comment`
    (objects.py:885-899), the de-duplicating append of
    `update_comments_total_id` (objects.py:943-952), and a reference
    definition of what `dig_depth` (objects.py:954-971) collects when every
    id it meets is an ingested comment. */
module Trees {
  import opened PyValues
  import opened Registry

  // ------------------------------------------------------------ list views

  /** `self._data[key]` of a tree, as a list: a missing field is a KeyError;
      a value that is not a list is taken as a TypeError. */
  function TreeItems(st: Store, tid: int, key: string): (r: Result<seq<Item>>)
    requires Valid(st) && Registered(st, CommentTree, tid)
    ensures r.Ok? <==> HasList(st, CommentTree, tid, key)
    ensures r.Ok? ==> r.value == st.heap[ListRef(st, CommentTree, tid, key)]
    ensures r.Err? ==> (r.error == KeyError <==> key !in Ent(st, CommentTree, tid).data)
  {
    var d := Ent(st, CommentTree, tid).data;
    if key !in d then Err(KeyError)
    else if !d[key].VList? then Err(TypeError)
    else Ok(st.heap[ListRef(st, CommentTree, tid, key)])
  }

  /** `len(tree)`: the number of direct replies. */
  function TreeLen(st: Store, tid: int): (r: Result<int>)
    requires Valid(st) && Registered(st, CommentTree, tid)
    ensures r.Ok? <==> HasList(st, CommentTree, tid, "comments_id")
    ensures r.Ok? ==> r.value == |st.heap[ListRef(st, CommentTree, tid, "comments_id")]|
  {
    var s :- TreeItems(st, tid, "comments_id");
    Ok(|s|)
  }

  /** `tree[i]`: Python list indexing into the direct replies. */
  function TreeGetItem(st: Store, tid: int, i: int): (r: Result<Item>)
    requires Valid(st) && Registered(st, CommentTree, tid)
    ensures !HasList(st, CommentTree, tid, "comments_id") ==> r.Err? && r.error != IndexError
    ensures HasList(st, CommentTree, tid, "comments_id") ==>
      r == PyIndex(st.heap[ListRef(st, CommentTree, tid, "comments_id")], i)
  {
    var s :- TreeItems(st, tid, "comments_id");
    PyIndex(s, i)
  }

  /** `x in tree`: membership among the direct replies. */
  function TreeContains(st: Store, tid: int, x: Item): (r: Result<bool>)
    requires Valid(st) && Registered(st, CommentTree, tid)
    ensures r.Ok? <==> HasList(st, CommentTree, tid, "comments_id")
    ensures r.Ok? ==> (r.value <==> exists j | 0 <= j < |st.heap[ListRef(st, CommentTree, tid, "comments_id")]| ::
                                     st.heap[ListRef(st, CommentTree, tid, "comments_id")][j] == x)
  {
    var s :- TreeItems(st, tid, "comments_id");
    Ok(x in s)
  }

  /** `tree.add_comment(cid)`: the id goes to the end of `comments_id`, then
      of `comments_total_id`; a missing field is a KeyError, a value without
      `append` an AttributeError. */
  function AddComment(st: Store, tid: int, cid: int): (r: Step<()>)
    requires Valid(st) && Registered(st, CommentTree, tid)
    ensures Valid(r.st) && Grows(st, r.st) && |r.st.heap| == |st.heap|
    ensures forall k :: Tab(r.st, k) == Tab(st, k)
    ensures HasList(st, CommentTree, tid, "comments_id") && HasList(st, CommentTree, tid, "comments_total_id") ==>
      r.res.Ok? && r.st.heap == Pushed(Pushed(st.heap, ListRef(st, CommentTree, tid, "comments_id"), Id(cid)),
                                        ListRef(st, CommentTree, tid, "comments_total_id"), Id(cid))
  {
    var s1 :- AppendField(st, CommentTree, tid, "comments_id", Id(cid));
    AppendField(s1.0, CommentTree, tid, "comments_total_id", Id(cid))
  }

  /** After `add_comment` the tree contains the id, and so does every
      instance whose `comments_id` is the same Python list: the comment or
      submission the tree was built from sees the reply too. */
  lemma AddCommentShared(st: Store, tid: int, cid: int, k: Kind, id: int)
    requires Valid(st) && Registered(st, CommentTree, tid)
    requires HasList(st, CommentTree, tid, "comments_id") && HasList(st, CommentTree, tid, "comments_total_id")
    requires HasList(st, k, id, "comments_id")
    requires ListRef(st, k, id, "comments_id") == ListRef(st, CommentTree, tid, "comments_id")
    ensures var r := AddComment(st, tid, cid);
      && TreeContains(r.st, tid, Id(cid)) == Ok(true)
      && HasList(r.st, k, id, "comments_id")
      && Id(cid) in r.st.heap[ListRef(r.st, k, id, "comments_id")]
  {
    var r := AddComment(st, tid, cid);
    var p := ListRef(st, CommentTree, tid, "comments_id");
    var q := ListRef(st, CommentTree, tid, "comments_total_id");
    var h1 := Pushed(st.heap, p, Id(cid));
    assert Id(cid) in h1[p];
    if q == p {
      assert h1[p] <= r.st.heap[p];
    } else {
      assert r.st.heap[p] == h1[p];
    }
    var s := r.st.heap[p];
    assert exists j | 0 <= j < |s| :: s[j] == Id(cid);
  }

  // ------------------------------------------------------------ de-duplicating append

  /** The loop of `update_comments_total_id`: each id not yet in the list
      is appended, in order. */
  function AppendMissing(s: seq<Item>, xs: seq<Item>): (r: seq<Item>)
    ensures |s| <= |r| && r[..|s|] == s
    ensures forall x | x in xs :: x in r
    ensures forall y | y in r :: y in s || y in xs
    decreases |xs|
  {
    if xs == [] then s
    else if xs[0] in s then AppendMissing(s, xs[1..])
    else
      var r := AppendMissing(s + [xs[0]], xs[1..]);
      assert xs[0] == r[|s|];
      r
  }

  /** The part of `r` after `s` holds nothing of `s` and nothing twice. */
  predicate FreshTail(s: seq<Item>, r: seq<Item>) {
    && |s| <= |r|
    && (forall i | |s| <= i < |r| :: r[i] !in s)
    && (forall i, j | |s| <= i < j < |r| :: r[i] != r[j])
  }

  /** Nothing already in the list is appended again, and nothing is
      appended twice. */
  lemma {:induction false} AppendMissingFresh(s: seq<Item>, xs: seq<Item>)
    ensures FreshTail(s, AppendMissing(s, xs))
    decreases |xs|
  {
    if xs != [] {
      if xs[0] in s {
        AppendMissingFresh(s, xs[1..]);
        assert AppendMissing(s, xs) == AppendMissing(s, xs[1..]);
      } else {
        var s' := s + [xs[0]];
        var r := AppendMissing(s', xs[1..]);
        assert AppendMissing(s, xs) == r;
        AppendMissingFresh(s', xs[1..]);
        FreshTailCons(s, xs[0], r);
      }
    }
  }

  lemma FreshTailCons(s: seq<Item>, x: Item, r: seq<Item>)
    requires x !in s && |s| < |r| && r[..|s| + 1] == s + [x] && FreshTail(s + [x], r)
    ensures FreshTail(s, r)
  {
    var s' := s + [x];
    assert r[|s|] == s'[|s|] == x;
    forall i | |s| < i < |r|
      ensures r[i] !in s && r[i] != x
    {
      assert r[i] !in s';
      assert forall y | y in s :: y in s';
    }
  }

  /** A list without duplicates keeps none. */
  lemma AppendMissingNoDups(s: seq<Item>, xs: seq<Item>)
    requires NoDups(s)
    ensures NoDups(AppendMissing(s, xs))
  {
    var r := AppendMissing(s, xs);
    AppendMissingFresh(s, xs);
    forall i, j | 0 <= i < j < |r|
      ensures r[i] != r[j]
    {
      if j < |s| {
        assert r[i] == s[i] && r[j] == s[j];
      } else if i < |s| {
        assert r[i] == s[i];
      }
    }
  }

  // ------------------------------------------------------------ descent

  /** The replies of `x` when it is the id of an ingested comment whose
      `comments_id` is a list. */
  function Kids(st: Store, x: Item): (r: Option<seq<Item>>)
    requires Valid(st)
    ensures r.Some? <==> x.Id? && HasList(st, Comment, x.id, "comments_id")
  {
    if x.Id? && HasList(st, Comment, x.id, "comments_id") then Some(st.heap[ListRef(st, Comment, x.id, "comments_id")])
    else None
  }

  function Join(a: Option<seq<Item>>, b: Option<seq<Item>>): Option<seq<Item>> {
    if a.Some? && b.Some? then Some(a.value + b.value) else None
  }

  /** The direct replies of every id in order, concatenated. */
  function Children(st: Store, ids: seq<Item>): Option<seq<Item>>
    requires Valid(st)
  {
    if ids == [] then Some([]) else Join(Kids(st, ids[0]), Children(st, ids[1..]))
  }

  /** `if depth: if depth <= 1: pass`: a depth that stops after the replies. */
  predicate Shallow(depth: Option<int>) {
    depth.Some? && depth.value != 0 && depth.value <= 1
  }

  /** The depth handed to the nested call: one less, or unchanged for None
      and 0, which both mean "no limit". */
  function Next(depth: Option<int>): Option<int> {
    if depth.Some? && depth.value != 0 then Some(depth.value - 1) else depth
  }

  /** What `dig_depth(ids, depth)` returns when every id it meets is an
      ingested comment with a reply list, and `fuel` nested calls suffice;
      None otherwise. */
  function Reach(st: Store, ids: seq<Item>, depth: Option<int>, fuel: nat): Option<seq<Item>>
    requires Valid(st)
    decreases fuel, |ids|
  {
    if ids == [] then Some([]) else Join(Visit(st, ids[0], depth, fuel), Reach(st, ids[1..], depth, fuel))
  }

  /** One iteration of the loop: the replies, then what lies below them. */
  function Visit(st: Store, x: Item, depth: Option<int>, fuel: nat): Option<seq<Item>>
    requires Valid(st)
    decreases fuel, 0
  {
    match Kids(st, x)
    case None => None
    case Some(c) =>
      if Shallow(depth) then Some(c)
      else if fuel == 0 then None
      else Join(Some(c), Reach(st, c, Next(depth), fuel - 1))
  }

  lemma JoinAssoc(a: Option<seq<Item>>, b: Option<seq<Item>>, c: Option<seq<Item>>)
    ensures Join(Join(a, b), c) == Join(a, Join(b, c))
  {
    if a.Some? && b.Some? && c.Some? {
      assert (a.value + b.value) + c.value == a.value + (b.value + c.value);
    }
  }

  lemma {:induction false} ReachAppend(st: Store, a: seq<Item>, b: seq<Item>, depth: Option<int>, fuel: nat)
    requires Valid(st)
    ensures Reach(st, a + b, depth, fuel) == Join(Reach(st, a, depth, fuel), Reach(st, b, depth, fuel))
    decreases |a|
  {
    if a == [] {
      assert a + b == b;
      var rb := Reach(st, b, depth, fuel);
      if rb.Some? {
        assert [] + rb.value == rb.value;
      }
    } else {
      assert (a + b)[0] == a[0] && (a + b)[1..] == a[1..] + b;
      ReachAppend(st, a[1..], b, depth, fuel);
      JoinAssoc(Visit(st, a[0], depth, fuel), Reach(st, a[1..], depth, fuel), Reach(st, b, depth, fuel));
    }
  }

  /** `dig_depth(ids, 1)` is exactly the concatenation of each id's replies:
      the ids themselves are not included. */
  lemma {:induction false} DigOne(st: Store, ids: seq<Item>, fuel: nat)
    requires Valid(st)
    ensures Reach(st, ids, Some(1), fuel) == Children(st, ids)
    decreases |ids|
  {
    if ids != [] {
      DigOne(st, ids[1..], fuel);
    }
  }

  /** One level of the descent: below a depth that goes on, the result is
      the replies followed, as a multiset, by the descent from the replies
      with the next depth. */
  lemma {:induction false} DigStep(st: Store, ids: seq<Item>, depth: Option<int>, fuel: nat)
    requires Valid(st) && !Shallow(depth) && fuel >= 1 && Reach(st, ids, depth, fuel).Some?
    ensures Children(st, ids).Some?
    ensures Reach(st, Children(st, ids).value, Next(depth), fuel - 1).Some?
    ensures multiset(Reach(st, ids, depth, fuel).value) ==
            multiset(Children(st, ids).value) + multiset(Reach(st, Children(st, ids).value, Next(depth), fuel - 1).value)
    decreases |ids|
  {
    if ids != [] {
      var c := Kids(st, ids[0]).value;
      var t := Reach(st, c, Next(depth), fuel - 1).value;
      var rest := ids[1..];
      DigStep(st, rest, depth, fuel);
      var cs := Children(st, rest).value;
      ReachAppend(st, c, cs, Next(depth), fuel - 1);
      assert Children(st, ids).value == c + cs;
      assert Reach(st, ids, depth, fuel).value == (c + t) + Reach(st, rest, depth, fuel).value;
    }
  }


  /** A depth of 0 digs exactly as deep as None. */
  lemma {:induction false} DepthZero(st: Store, ids: seq<Item>, fuel: nat)
    requires Valid(st)
    ensures Reach(st, ids, Some(0), fuel) == Reach(st, ids, None, fuel)
    decreases fuel, |ids|
  {
    if ids != [] {
      DepthZero(st, ids[1..], fuel);
      var k := Kids(st, ids[0]);
      if k.Some? && fuel > 0 {
        DepthZero(st, k.value, fuel - 1);
      }
    }
  }

  /** The ids of levels 1 to `d` below `ids`, level by level. */
  function Levels(st: Store, ids: seq<Item>, d: nat): Option<seq<Item>>
    requires Valid(st) && d >= 1
    decreases d
  {
    var c := Children(st, ids);
    if d == 1 || c.None? then c else Join(c, Levels(st, c.value, d - 1))
  }

  lemma {:induction false} LevelsEmpty(st: Store, d: nat)
    requires Valid(st) && d >= 1
    ensures Levels(st, [], d) == Some([])
    decreases d
  {
    assert Children(st, []) == Some([]);
    if d > 1 {
      LevelsEmpty(st, d - 1);
      var e: seq<Item> := [];
      assert e + e == e;
    }
  }

  /** `dig_depth(ids, d)` reaches exactly `d` levels: as a multiset, its
      result is levels 1 to `d` of the reply graph. */
  lemma {:induction false} DigLevels(st: Store, ids: seq<Item>, d: nat, fuel: nat)
    requires Valid(st) && d >= 1 && Reach(st, ids, Some(d), fuel).Some?
    ensures Levels(st, ids, d).Some?
    ensures multiset(Reach(st, ids, Some(d), fuel).value) == multiset(Levels(st, ids, d).value)
    decreases d, 1
  {
    if d == 1 {
      DigOne(st, ids, fuel);
    } else if ids == [] {
      LevelsEmpty(st, d);
    } else if fuel == 0 {
      assert false;
    } else {
      DigLevelsDeep(st, ids, d, fuel);
    }
  }

  lemma {:induction false} DigLevelsDeep(st: Store, ids: seq<Item>, d: nat, fuel: nat)
    requires Valid(st) && d >= 2 && fuel >= 1 && Reach(st, ids, Some(d), fuel).Some?
    ensures Levels(st, ids, d).Some?
    ensures multiset(Reach(st, ids, Some(d), fuel).value) == multiset(Levels(st, ids, d).value)
    decreases d, 0
  {
    DigStep(st, ids, Some(d), fuel);
    var c := Children(st, ids).value;
    var below := Reach(st, c, Next(Some(d)), fuel - 1);
    assert Next(Some(d)) == Some(d - 1);
    DigLevels(st, c, d - 1, fuel - 1);
    LevelsUnfold(st, ids, d);
    MultisetJoin(Reach(st, ids, Some(d), fuel).value, c, below.value, Levels(st, c, d - 1).value);
  }

  lemma LevelsUnfold(st: Store, ids: seq<Item>, d: nat)
    requires Valid(st) && d >= 2 && Children(st, ids).Some? && Levels(st, Children(st, ids).value, d - 1).Some?
    ensures Levels(st, ids, d) == Some(Children(st, ids).value + Levels(st, Children(st, ids).value, d - 1).value)
  {
  }

  lemma MultisetJoin(x: seq<Item>, a: seq<Item>, b: seq<Item>, y: seq<Item>)
    requires multiset(x) == multiset(a) + multiset(b) && multiset(b) == multiset(y)
    ensures multiset(x) == multiset(a + y)
  {
  }

  /** With no limit the descent takes in everything a bounded one finds. */
  lemma {:induction false} DigWithin(st: Store, ids: seq<Item>, d: int, fuel: nat)
    requires Valid(st) && Reach(st, ids, Some(d), fuel).Some? && Reach(st, ids, None, fuel).Some?
    ensures multiset(Reach(st, ids, Some(d), fuel).value) <= multiset(Reach(st, ids, None, fuel).value)
    decreases fuel, 1
  {
    if d == 0 {
      DepthZero(st, ids, fuel);
    } else if ids == [] {
    } else if fuel == 0 {
      assert false;
    } else if Shallow(Some(d)) {
      DigWithinShallow(st, ids, d, fuel);
    } else {
      DigWithinDeep(st, ids, d, fuel);
    }
  }

  lemma DigWithinShallow(st: Store, ids: seq<Item>, d: int, fuel: nat)
    requires Valid(st) && Shallow(Some(d)) && fuel >= 1 && Reach(st, ids, None, fuel).Some?
    ensures Reach(st, ids, Some(d), fuel).Some?
    ensures multiset(Reach(st, ids, Some(d), fuel).value) <= multiset(Reach(st, ids, None, fuel).value)
  {
    DigOneAny(st, ids, d, fuel);
    DigStep(st, ids, None, fuel);
  }

  lemma {:induction false} DigWithinDeep(st: Store, ids: seq<Item>, d: int, fuel: nat)
    requires Valid(st) && !Shallow(Some(d)) && d != 0
    requires fuel >= 1 && Reach(st, ids, Some(d), fuel).Some? && Reach(st, ids, None, fuel).Some?
    ensures multiset(Reach(st, ids, Some(d), fuel).value) <= multiset(Reach(st, ids, None, fuel).value)
    decreases fuel, 0
  {
    DigStep(st, ids, None, fuel);
    DigStep(st, ids, Some(d), fuel);
    var c := Children(st, ids).value;
    DigWithin(st, c, d - 1, fuel - 1);
  }

  /** Any depth at most 1 other than 0 stops after the replies. */
  lemma {:induction false} DigOneAny(st: Store, ids: seq<Item>, d: int, fuel: nat)
    requires Valid(st) && Shallow(Some(d))
    ensures Reach(st, ids, Some(d), fuel) == Children(st, ids)
    decreases |ids|
  {
    if ids != [] {
      DigOneAny(st, ids[1..], d, fuel);
    }
  }

  /** The descent only reads the comment table and the lists it refers to:
      adding lists or changing other tables leaves it as it was. */
  lemma {:induction false} ReachFrame(st: Store, st': Store, ids: seq<Item>, depth: Option<int>, fuel: nat)
    requires Valid(st) && Valid(st') && Tab(st', Comment) == Tab(st, Comment) && st.heap <= st'.heap
    ensures Reach(st', ids, depth, fuel) == Reach(st, ids, depth, fuel)
    decreases fuel, |ids|
  {
    if ids != [] {
      ReachFrame(st, st', ids[1..], depth, fuel);
      var k := Kids(st, ids[0]);
      KidsFrame(st, st', ids[0]);
      if k.Some? && fuel > 0 {
        ReachFrame(st, st', k.value, Next(depth), fuel - 1);
      }
    }
  }

  lemma KidsFrame(st: Store, st': Store, x: Item)
    requires Valid(st) && Valid(st') && Tab(st', Comment) == Tab(st, Comment) && st.heap <= st'.heap
    ensures Kids(st', x) == Kids(st, x)
  {
    if Kids(st, x).Some? {
      var p := ListRef(st, Comment, x.id, "comments_id");
      assert st'.heap[p] == st.heap[p];
    }
  }
}
